=== FILE: README.md ===
# Heronian triangles on a cubic curve, radix sort, Miller–Rabin

A Dafny model of four pieces of one repository. Each piece comes with proofs
about its behaviour.

- **The curve search of `triangle/solver.py`.** A triangle with sides a, b, c
  becomes the semiperimeter s, the ratio r = (Heron's radicand) / s², and the
  sorted triple (s − a, s − b, s − c). Every triangle with the same s and r
  has a triple (x, y, z) on the curve x + y + z = s, x·y·z = r·s. In (x, y)
  form this is x·y² + (x² − s·x)·y + s·r = 0.
  - `searcher` probes x = (m/n)·s over a tree of coprime pairs. At each probe
    it solves for a rational y.
  - `solver` closes a basis of points under the chord-and-tangent step, to a
    bounded depth.
  - `reducer` picks a small basis whose closure finds all the inputs.
  - `height` orders triples.
- **The lookup table of `triangle/lookup.py`.**
  - `fraction_isqrt` is an exact square root of fractions.
  - `generate_triangles` is a four-parameter family of integer Heronian
    triangles, reduced to lowest terms. Each is keyed by C = s² / A, which is
    invariant under scaling.
  - The listing rescales each stored triangle to a given semiperimeter and
    prints its sides.
- **`rsort` of `misc/radix.c`.** This is an LSD radix sort of `u32` values in
  three stable counting passes on 11-, 11- and 10-bit digits. It comes with:
  - the sign-bias map `s2u_u2s` that `rsorts` uses for `s32`;
  - the bit-pattern maps `f2u`/`u2f` that make float bit patterns sortable.
- **`misc/millerrabin.c`.** It has three parts:
  - `expmod`, which is square-and-multiply over 32 exponent bits in `u64`;
  - the strong-probable-prime witness;
  - the driver for the bases 2, 7 and 61.

Fractions are Dafny `real`s. A `real` equal to a ratio of integers is
rational (`Fractions.IsRational`). Its numerator and denominator (`Num`,
`Den`) are the unique pair in lowest terms with a positive denominator.
`get_rational_y` inspects exactly that pair, as Python's `Fraction` does. So
`Fraction` equality and hashing are `real` equality.

Python's `ZeroDivisionError` is the failure `DivByZero` of `Results.Result`.
It propagates with `:-` exactly where the exception would unwind. Generators
are functions returning sequences in yield order. Sets are Dafny sets. Where
a result depends on the iteration order of a Python set, that order is a
parameter. This applies to the inputs of `reducer` and to the triangles
under one key in the listing.

The C code works on fixed-width words:
- `u32`, `s32` and `u64` are subset types of `int` (module `Words`).
- Each wrap-around is written out: `s2u_u2s` is `% 2^32` and `u64`
  multiplication is `% 2^64`.
- Masks and shifts on integers are `%` and `/` by powers of two.
- The float maps work on `bv32`.

The in-place arrays of `rsort` and `rsorts` become a sequence in and a
sequence out. `Radix.Rsort` builds its count and output arrays internally,
with the loops of the C code. Conversions between `s32` and `u32` reinterpret
the 32 bits in two's complement.

Where the code and its own description disagree, the model follows the code:
- **Bounds and positivity in `searcher`.** Its bounds start at s but are
  compared with the unscaled m/n. It accepts non-positive y and z as long as
  the divisions succeed. Only `solver` filters for positive coordinates.
- **Pruning in `reducer`.** The pruning loop resets its flag after every
  pass, so it runs exactly once and removes at most one generator.
- **Returned basis.** When no proper prefix covers the inputs, `reducer`
  returns all of them without checking that they do.
- **The tangent guard.** `m == -n` excludes the slope +1, not −1. A tangent
  of slope −1 reaches `get_new_solution`, which then divides by zero
  (`Curve.TangentMinusOne` gives such a point).
- **`get_new_solution`.** It returns (t + b, t / a). The new point
  satisfies u = a·v + b and is not reordered.
- **`variable_change`.** It makes no Heronian check.

## Model

| member | source | states |
|---|---|---|
| Triangles.Sort3 | triangle/solver.py:31 | `sorted([x, y, z])`: the triple is ascending and a permutation of the three values |
| Triangles.Sort3Symmetric | triangle/solver.py:31-33 | sorting keeps the sum and the product; the sorted triple is positive iff all three values are |
| Triangles.VariableChange | triangle/solver.py:15-33 | `None` exactly when there are not three sides, a side is ≤ 0 or a triangle inequality is not strict; otherwise s = (a+b+c)/2, r·s² is Heron's radicand, and the triple is ascending, positive, sums to s and has product r·s |
| Triangles.ChangeOf | triangle/solver.py:23-33 | for a proper triangle, the change of variables meets the curve invariants above |
| Triangles.CurveChange | triangle/solver.py:28-31 | r = A / s² with A = s·x·y·z gives r·s = x·y·z, and the sorted triple keeps sum and product |
| Triangles.HeronOfChange | triangle/solver.py:28-29 | r·s² is Heron's radicand of the input sides |
| Triangles.TriangleSides | triangle/solver.py:196 | the sides (x+y, x+z, y+z) sum to twice x+y+z |
| Triangles.SidesRoundTrip | triangle/solver.py:23-26 | round trip: the sides recovered from `variable_change`'s triple are a permutation of the input sides |
| Triangles.PairSums | triangle/solver.py:24-26 | the pairwise sums of (s−a, s−b, s−c), in any order, are a, b, c in some order |
| Pairs.Ordered | triangle/solver.py:44-47 | the yielded pair is the node's pair with the smaller entry first |
| Pairs.Subtree | triangle/solver.py:42-52 | a node's walk starts with its ordered pair, and is that pair alone exactly when the node sits at depth `max_depth` − 1 (no children pushed) |
| Pairs.GeneratePairs | triangle/solver.py:37-52 | (1, 1) comes first; it is the only pair exactly when `max_depth` ≤ 0; otherwise the root (1, 2) follows it |
| Pairs.GeneratePairsLoop | triangle/solver.py:37-52 | the explicit-stack loop yields exactly the pre-order walk of the pair tree cut at `max_depth` |
| Pairs.Pop | triangle/solver.py:43-52 | one iteration keeps every stack entry a tree node above the depth limit |
| Pairs.PopStep | triangle/solver.py:42-52 | one iteration yields the top's pair and leaves exactly the rest of the owed output |
| Pairs.PendingSnoc | triangle/solver.py:51-52 | pushing a child adds its whole subtree to the front of the owed output |
| Pairs.SubtreeLength | triangle/solver.py:48-52 | a node at depth d owes 2^(max_depth − d) − 1 pairs |
| Pairs.GeneratePairsLength | triangle/solver.py:37-52 | (1, 1) comes first, only (1, 1) when `max_depth` ≤ 0, and 2^max_depth pairs otherwise |
| Pairs.SubtreeGood | triangle/solver.py:51-52 | every pair below a positive coprime node is positive, coprime and ordered |
| Pairs.GeneratePairsGood | triangle/solver.py:36-52 | every yielded (p, q) has 1 ≤ p ≤ q and gcd(p, q) = 1 |
| Pairs.ChildrenCoprime | triangle/solver.py:51-52 | both children (a+b, b) and (a, a+b) of a coprime node are coprime |
| Curve.CurveSymmetric | triangle/solver.py:125-127 | the curve polynomial is symmetric in x and y |
| Curve.Discriminant | triangle/solver.py:59 | completing the square: (2xy + x² − sx)² = 4x·(curve polynomial at (x, y)) + d for every y, so d is the discriminant of the curve as a quadratic in y; d = 0 at x = 0 |
| Curve.DiscriminantRational | triangle/solver.py:59 | the discriminant of rational s, r, x is rational |
| Curve.GetRationalY | triangle/solver.py:58-69 | −1 when d < 0; for d = 0, a root when x ≠ 0 and a division by zero otherwise; for d > 0, 0 when d's reduced numerator or denominator is not a square, and a root of the curve otherwise |
| Curve.NonSentinelRoot | triangle/solver.py:58-69 | any value other than −1 and 0 is a root y of the curve at x |
| Curve.FractionSqrt | triangle/solver.py:65-68 | the root exists exactly when both reduced parts are squares, and then it is positive and squares to d |
| Curve.FractionSqrtOfSquare | triangle/solver.py:65-67 | for a positive rational q, the root found for q² is q |
| Curve.SquareOfFraction | triangle/solver.py:65-67 | the reduced parts of q² are the squares of those of q, and their integer square roots are q's parts |
| Curve.QuadraticRoot | triangle/solver.py:69 | (−q + s·x − x²) / (2x), with q² the discriminant, solves the curve for y |
| Curve.GetRationalYOfSquare | triangle/solver.py:65-69 | when d is the square of a rational q > 0, `get_rational_y` returns the root with −q |
| Curve.SentinelMinusOneCollides | triangle/solver.py:83 | for s = 1, r = −1, x = 1 the genuine root y = −1 is returned and reads as the "no root" sentinel |
| Curve.SentinelZeroCollides | triangle/solver.py:89 | for s = 3, r = 0, x = 1 the genuine root y = 0 is returned and reads as the "irrational" sentinel |
| Curve.NoSentinelRoots | triangle/solver.py:82-90 | on a triangle's curve (s, r > 0) with 0 < x ≤ s, no root is −1 or 0, so the sentinels cannot collide there |
| Curve.ThirdCoordinate | triangle/solver.py:93 | z = (x+y)/(x·y/r − 1) succeeds exactly when r ≠ 0 and x·y ≠ r |
| Curve.ThirdCoordinateTriple | triangle/solver.py:93 | for a curve point, x + y + z = s and x·y·z = r·s |
| Curve.FoundOnCurve | triangle/solver.py:92-95 | the sorted triple added by the searcher is ascending, sums to s and has product r·s |
| Curve.FindTangent | triangle/solver.py:101-108 | `None` exactly when m = 0, n = 0 or m = −n; otherwise the line has slope −m/n, passes through the point, and its slope is neither 0 nor +1 |
| Curve.TangentIsTangent | triangle/solver.py:99-108 | on the curve, the returned slope is the implicit derivative: F_x + a·F_y = 0 |
| Curve.TangentMinusOneIff | triangle/solver.py:105-107 | the tangent slope is −1 exactly when r·(x² − y²) = 0, so the guard does not exclude it |
| Curve.TangentMinusOne | triangle/solver.py:105-130 | the point (3, 3) of the triangle (5, 5, 6) has tangent slope −1, and `get_new_solution` on it divides by zero |
| Curve.FindSecant | triangle/solver.py:112-122 | equal points give the tangent; otherwise `None` exactly when m = 0, n = 0 or m = −n, and else a line through both points with slope neither 0 nor −1 |
| Curve.NewSolution | triangle/solver.py:128-130 | fails exactly when p, q, a + 1 or a is 0; otherwise the result (u, v) satisfies u = a·v + b and (a² + a)·p·q·v = −s·r |
| Curve.CubicOnLine | triangle/solver.py:126 | on y = a·x + b the curve polynomial is (a²+a)x³ + (2ab − as + b)x² + (b² − bs)x + rs |
| Curve.CubicThirdRoot | triangle/solver.py:127 | a root p and a chord partner q leave t = −D/(A·p·q) as a root |
| Curve.TangentCondition | triangle/solver.py:101-108 | a curve point is a double root of its tangent line's cubic |
| Curve.SecantCondition | triangle/solver.py:112-122 | two curve points of a line with different x are two roots of its cubic |
| Curve.ChordStep | triangle/solver.py:125-130 | the chord-and-tangent step from two curve points yields a curve point |
| Curve.ThirdPoint | triangle/solver.py:127-130 | the third root of the line's cubic, as `get_new_solution` computes it, gives a curve point |
| Curve.RootOffLine | triangle/solver.py:130 | a root t of the line's cubic gives the curve point (a·t + b, t) |
| Searcher.SearchStep | triangle/solver.py:77-95 | one probe never lowers the lower bound, never raises the upper one, keeps them ordered, only adds triples, and adds only sorted curve triples |
| Searcher.Visit | triangle/solver.py:79-95 | fails exactly at a division by zero in z; −1 adds nothing and narrows one bound to a value on x's side; 0 leaves the state unchanged; any other y, a root, adds exactly the sorted triple of (x·s, y, z) and leaves both bounds alone; the bounds stay ordered |
| Searcher.ZeroKeepsBounds | triangle/solver.py:89-90 | a probe with the 0 result leaves the whole state unchanged |
| Searcher.SearchFrom | triangle/solver.py:77-95 | the whole scan keeps the bounds monotone and adds only sorted curve triples |
| Searcher.Searcher | triangle/solver.py:73-96 | every triple of the result is ascending with sum s and product r·s |
| Solver.Advance | triangle/solver.py:143-149 | with no running point the basis point becomes it; otherwise the step stops exactly when there is no secant |
| Solver.Recurse | triangle/solver.py:133-150 | an empty basis or depth 0 yields the start point alone (or nothing); a start point is yielded first |
| Solver.Steps | triangle/solver.py:142-150 | the loop yields nothing past `depth` or when the first secant is missing (the `return`); otherwise the new running point, which is the basis point itself when there was none, is yielded first |
| Solver.AdvanceOnCurve | triangle/solver.py:143-149 | the running point stays on the curve |
| Solver.RecurseOnCurve | triangle/solver.py:133-150 | every point yielded from a basis on the curve is on the curve |
| Solver.RecurseMonotone | triangle/solver.py:133-150 | every point yielded at depth d is yielded at depth d + 1 |
| Solver.RecurseDepthOne | triangle/solver.py:139-150 | at depth 1 from no start point the basis is yielded in reverse order |
| Solver.PointTriple | triangle/solver.py:158-162 | fails exactly where z divides by zero; a kept triple is ascending, positive and a permutation of (x, y, z) |
| Solver.Collect | triangle/solver.py:157-163 | fails exactly when some point fails; otherwise the set holds exactly the kept triples of the points |
| Solver.Solver | triangle/solver.py:154-163 | only sorted, strictly positive triples; an empty basis gives the empty set |
| Solver.SolverDepthZero | triangle/solver.py:155-163 | at depth 0 the result is exactly the positivity-filtered sorted triples of the basis points |
| Solver.SolverMonotone | triangle/solver.py:154-163 | the result at depth d is a subset of the result at depth d + 1 |
| Solver.SolverOnCurve | triangle/solver.py:157-162 | from a basis on the curve, every triple sums to s and has product r·s |
| Heights.HeightOf | triangle/solver.py:11 | lcm of the denominators over gcd of the numerators: fails exactly when all numerators are 0; otherwise positive, it scales every coordinate to an integer, and for fractions in lowest terms the scaled triple has gcd 1 |
| Heights.HeightOfLeast | triangle/solver.py:11 | the height is the least such scale: any positive rational scale making all three fractions integral is an integer multiple of it |
| Heights.ScaleLeast | triangle/solver.py:11 | in integers: q·dᵢ dividing p·nᵢ for each lowest-terms nᵢ/dᵢ forces q·lcm(d) to divide p·gcd(\|n\|) |
| Heights.ScalePrimitive | triangle/solver.py:11 | the entries nᵢ/gcd · lcm/dᵢ of the scaled triple have gcd 1 |
| Heights.Height | triangle/solver.py:10-11 | `height` of a triple: fails exactly for (0, 0, 0); otherwise a positive scale making the triple integral and primitive (gcd 1), paired with its first entry |
| Heights.HeightLeast | triangle/solver.py:10-11 | every positive rational scale making the triple integral is an integer multiple of its height |
| Heights.SortEntries | triangle/solver.py:168 | a permutation of the entries in ascending key order; stable, as `sorted` is: the entries of each key keep their input order |
| Heights.InsertWithKey | triangle/solver.py:168 | inserting an entry puts it in front of every entry of its key and leaves the other keys' entries as they were |
| Heights.SortByHeight | triangle/solver.py:168 | fails exactly when a triple is (0, 0, 0); otherwise a permutation of the inputs in ascending (height, x) order, in which the triples of each (height, x) keep their input order |
| Heights.SortedStable | triangle/solver.py:168 | a permutation that keeps each key's entries in order keeps each key's triples in order |
| Reducer.Basis | triangle/solver.py:172 | each triple becomes the point (x[0], x[2]) |
| Reducer.Remove | triangle/solver.py:180-181 | `del generators[k]` drops exactly one occurrence of the k-th element |
| Reducer.RemoveSublist | triangle/solver.py:180-181 | the list after `del generators[k]` is a sub-list of the one before, order kept |
| Reducer.SolverCovers | triangle/solver.py:172-173 | fails exactly when `solver` does; when it covers, every input is in the solver's result and so is an ascending positive triple; an empty basis covers only an empty input |
| Reducer.FirstCover | triangle/solver.py:170-175 | the result is a prefix of the sorted inputs; every shorter tried prefix fails to cover; a proper prefix covers |
| Reducer.PruneIndex | triangle/solver.py:179-186 | an index found by the pass from i down is at most i |
| Reducer.PruneIndexAt | triangle/solver.py:179-186 | one step of the pass: a covering removal at i stops it with i, a non-covering one moves on to i − 1 |
| Reducer.PruneIndexFound | triangle/solver.py:179-186 | the index found, from the end, still covers without its generator, and no later index does |
| Reducer.PruneIndexNone | triangle/solver.py:179-186 | no index is found only when no single removal covers |
| Reducer.Prune | triangle/solver.py:177-187 | the pass removes at most one generator, and only one whose removal still covers |
| Reducer.Reducer | triangle/solver.py:167-189 | fails on a zero triple; the result is a sub-list of the height-sorted inputs, so in height order; a result shorter than the inputs finds every input |
| Reducer.PruneKeeps | triangle/solver.py:177-187 | pruning keeps the height order and leaves a sub-list of the superset |
| Numbers.Isqrt | triangle/solver.py:65 | `isqrt(n)` is the r with r² ≤ n < (r+1)² |
| Numbers.Lcm | triangle/solver.py:11 | `a // gcd(a, b) * b` is the least common multiple: a positive common multiple, with lcm·gcd = a·b, that divides every common multiple |
| Numbers.LcmLeast | triangle/solver.py:11 | any l with l·gcd(a, b) = a·b divides every common multiple of a and b |
| Numbers.GcdGreatest | triangle/solver.py:11 | every common divisor of a and b divides `gcd(a, b)` |
| Numbers.CoprimeDivides | triangle/solver.py:11 | a divisor of a·b coprime to a divides b |
| Fractions.NumOverDen | triangle/solver.py:65-66 | `numerator / denominator` is the value, with a positive denominator and gcd 1 |
| Fractions.Canonical | triangle/solver.py:65-66 | any coprime n/d with d > 0 is the numerator and denominator |
| Lookup.FractionIsqrt | triangle/lookup.py:8-12 | for x ≥ 0: a y ≥ 0, or −1 with `exact`; with `exact`, either −1 or y·y = x |
| Lookup.FractionIsqrtOfSquare | triangle/lookup.py:8-12 | for every rational q ≥ 0, the root of q·q is q |
| Lookup.SortSides | triangle/lookup.py:37-42 | the three compare-and-swap steps sort and permute the sides |
| Lookup.PermInvariants | triangle/lookup.py:37-42 | reordering sides keeps the semiperimeter and Heron's radicand |
| Lookup.Parametrised | triangle/lookup.py:22-26 | when m·p > n·q the three sides are positive |
| Lookup.ParametrisedHeronian | triangle/lookup.py:24-29 | the parametrised triangle is Heronian: Heron's radicand is (m·n·p·q·c)² |
| Lookup.Reduce | triangle/lookup.py:32-42 | dividing by the gcd and sorting gives positive ascending sides with gcd 1 |
| Lookup.ReducePermutes | triangle/lookup.py:32-42 | the reduced triangle is a reordering of the sides a/g, b/g, c/g, where g = gcd(a, b, c) > 0 |
| Lookup.ReducedKey | triangle/lookup.py:28-35 | the key s²/A computed before the division by the gcd is the reduced triangle's own key |
| Lookup.ReducedScale | triangle/lookup.py:32-35 | the semiperimeter scales by the gcd d and the radicand by d⁴ |
| Lookup.QuadEntry | triangle/lookup.py:22-46 | nothing exactly when m·p ≤ n·q; otherwise a positive, sorted, primitive triangle under its own key |
| Lookup.AddQuad | triangle/lookup.py:22-46 | one iteration of the innermost loop stores exactly its quadruple's entry, if any, beside the table's old entries, and never leaves a key with an empty set |
| Lookup.Add | triangle/lookup.py:44-46 | the entry is stored and nothing else changes |
| Lookup.LoopQ | triangle/lookup.py:21-46 | the innermost loop stores exactly the entries of its quadruples |
| Lookup.LoopP | triangle/lookup.py:20-46 | the third loop stores exactly the entries of its quadruples |
| Lookup.LoopN | triangle/lookup.py:19-46 | the second loop stores exactly the entries of its quadruples |
| Lookup.LoopM | triangle/lookup.py:18-46 | the outer loop stores exactly the entries of its quadruples |
| Lookup.GenerateTriangles | triangle/lookup.py:16-47 | the table holds exactly the entries of the quadruples in 1..MAX, and no key maps to an empty set |
| Lookup.GeneratedGood | triangle/lookup.py:16-47 | every stored triangle is positive, sorted, has gcd 1 and is stored under its own key |
| Listing.Rescale | triangle/lookup.py:94-96 | fails exactly for zero sides; otherwise three sides with semiperimeter s, each proportional to the stored side by s/_s |
| Listing.RescaleSides | triangle/lookup.py:94-96 | scaling by s/_s turns semiperimeter _s into s |
| Listing.RescaleRational | triangle/lookup.py:95-96 | the rescaled sides of a rational s are rational |
| Listing.RescaleAll | triangle/lookup.py:93-96 | one rescaled row per stored triangle, in order |
| Listing.SortRows | triangle/lookup.py:98 | a permutation of the rows, ascending by first side; stable as `list.sort` is: rows with equal first sides keep their order |
| Listing.InsertRowWithFirst | triangle/lookup.py:98 | inserting a row puts it in front of the rows with its first side and leaves the other rows' order as it was |
| Listing.FormatSide | triangle/lookup.py:100 | the two integers printed are `x.numerator` and `x.denominator`: coprime, the denominator positive; a "/" appears exactly when the value is not an integer, and the text parses back to the value |
| Listing.FormatFraction | triangle/lookup.py:100 | the integers the text spells out are num and den themselves, den being left off (and read as 1) when it is 1; the text has a slash exactly when den is not 1, has no comma, and parses back to num/den |
| Listing.ParseFormatRow | triangle/lookup.py:100 | a row joined with ", " splits and parses back to the row |
| Listing.SortedRows | triangle/lookup.py:92-98 | fails exactly for zero sides; otherwise the rows are a permutation of the rescaled stored triangles, one per triangle, ascending by first side, with equal first sides in rescaling order |
| Listing.Listing | triangle/lookup.py:88-101 | "count: 0" for an absent key; otherwise fails exactly for zero sides, and else gives one line per triangle and a final "count: N" |
| Listing.ListingReadsBack | triangle/lookup.py:92-101 | the printed lines before the count read back as the rescaled stored triangles, each printed once (equal multisets), each line a rescaled stored triangle, in ascending order of first side |
| Listing.ParseRowsEach | triangle/lookup.py:99-100 | lines that each read back as a row read back together as the sequence of rows |
| Listing.GeneratedListingOk | triangle/lookup.py:88-101 | listing any key of the generated table succeeds |
| Decimal.ParseIntToString | triangle/lookup.py:100 | `str` of an integer parses back to it |
| Decimal.SplitJoin | triangle/lookup.py:100 | ", ".join of comma-free parts splits back into the parts |
| Radix.Digit | misc/radix.c:17-19 | each digit is below its pass's bucket count; in particular `arr[i] >> 22` < 0x400 |
| Radix.LowSplit | misc/radix.c:17-19 | the low bits after pass p+1 are the digit of pass p above the low bits after pass p |
| Radix.BucketWithin | misc/radix.c:30-37 | bucket k holds elements of the input whose digit is k |
| Radix.Pass | misc/radix.c:30-37 | each counting pass permutes its input, keeps the elements of each digit in input order (stability), and turns order on the low bits below the pass into order through it |
| Radix.BucketOfGather | misc/radix.c:30-37 | concatenating buckets j, j + 1, … keeps each later bucket unchanged and drops the earlier ones |
| Radix.GatherSorted | misc/radix.c:30-37 | stability: input sorted on the low bits below pass p gives output sorted on the low bits through pass p |
| Radix.RadixSort | misc/radix.c:7-43 | the three passes give a permutation of the input in non-decreasing order |
| Radix.CountPermutation | misc/radix.c:16-20 | permuting the input keeps every digit count |
| Radix.PlacedInitially | misc/radix.c:22-30 | after the prefix sums, each bucket's end index is where its elements end |
| Radix.StepTarget | misc/radix.c:31 | every index produced by `--c[d]` lies in [0, len) |
| Radix.PlacedStep | misc/radix.c:30-31 | one backward step places the element just below its bucket's later elements |
| Radix.PlacedFinally | misc/radix.c:30-31 | when the backward loop ends, the output is the stable pass |
| Radix.Scatter | misc/radix.c:30-37 | the backward scatter loop computes exactly the stable counting pass |
| Radix.Histogram | misc/radix.c:16-20 | the counting loop leaves each c[k] equal to the number of elements with digit k |
| Radix.PrefixSums | misc/radix.c:22-28 | after the prefix-sum loops, c0[k], c1[k] and c2[k] count the elements with digit ≤ k |
| Radix.CountedSummed | misc/radix.c:22 | before the first prefix-sum step, c[0] is already the end of bucket 0 and the rest are counts |
| Radix.SummedStep | misc/radix.c:23-28 | `c[i] += c[i - 1]` turns the count at i into the end of bucket i |
| Radix.SummedEnds | misc/radix.c:22-28 | when the loop ends, every c[k] is the number of elements with digit ≤ k |
| Radix.Rsort | misc/radix.c:7-43 | `rsort` leaves a permutation of the input, sorted non-decreasing |
| Keys.AsSigned | misc/radix.c:51 | reading 32 bits as signed keeps the value modulo 2^32 |
| Keys.S2U | misc/radix.c:45-47 | `s2u_u2s` on a signed value adds 2^31 without wrapping |
| Keys.S2UOrder | misc/radix.c:45-47 | `s2u_u2s` maps signed order onto unsigned order, both directions |
| Keys.RestoreS2U | misc/radix.c:52-56 | applying `s2u_u2s` twice restores the value |
| Keys.Restore | misc/radix.c:55-56 | every unsigned key is the key of the value it restores to |
| Keys.RestoreOrder | misc/radix.c:55-56 | restoring keys preserves and reflects order |
| Keys.ToKeys | misc/radix.c:52-53 | the first loop maps each element to its key |
| Keys.FromKeys | misc/radix.c:55-56 | the second loop maps each key back |
| Keys.ToKeysCounts | misc/radix.c:52-53 | the key of v occurs as often as v |
| Keys.Rsorts | misc/radix.c:49-57 | `rsorts` leaves a permutation of the input sorted as signed values |
| Keys.F2UNegative | misc/radix.c:59-63 | `f2u` flips all bits of a pattern with the sign bit set, giving a key without it |
| Keys.F2UNonNegative | misc/radix.c:59-63 | `f2u` flips only the sign bit of a pattern without it, giving a key with it |
| Keys.U2FNegative | misc/radix.c:65-69 | `u2f` flips only the sign bit of a key with it set, giving a non-negative pattern |
| Keys.U2FNonNegative | misc/radix.c:65-69 | `u2f` flips every bit of a key without the sign bit, giving a negative pattern |
| Keys.FloatKeyRoundTrip | misc/radix.c:59-69 | u2f(f2u(b)) = b and f2u(u2f(k)) = k for every 32-bit pattern |
| Keys.F2UOrder | misc/radix.c:59-63 | a pattern of smaller value, in sign-magnitude order with equal zeros, has a smaller key |
| MillerRabin.Mul64Exact | misc/millerrabin.c:38 | factors below 2^32 multiply in `u64` without wrapping |
| MillerRabin.ExpMod | misc/millerrabin.c:16-27 | for m > 1 the result is below m |
| MillerRabin.ExpLoop | misc/millerrabin.c:18-25 | the loop's result is below m when its accumulator starts below m, and otherwise is the untouched accumulator or below m |
| MillerRabin.ExpLoopFits | misc/millerrabin.c:18-25 | with m < 2^32, a < 2^32 and r < m, no product in the loop exceeds 2^64 − 1 |
| MillerRabin.ExpModFits | misc/millerrabin.c:16-27 | `expmod` with 1 < m < 2^32 and a < 2^32 forms no product that wraps |
| MillerRabin.ExpLoopValue | misc/millerrabin.c:18-25 | from iteration i the loop multiplies r by a to the remaining low bits of b, mod m |
| MillerRabin.AccumulatorStep | misc/millerrabin.c:19-20 | the conditional multiply is r·a^bit mod m |
| MillerRabin.SquareStep | misc/millerrabin.c:23-24 | squaring the base halves the exponent still to come |
| MillerRabin.ExpModValue | misc/millerrabin.c:15-27 | `expmod(a, b, m)` = a^(b mod 2^32) mod m, and a^b mod m for b < 2^32 |
| MillerRabin.Witness | misc/millerrabin.c:31-43 | `miller_rabin_witness` returns 0 or 1 |
| MillerRabin.WitnessLoop | misc/millerrabin.c:37-42 | the loop returns 0 or 1 |
| MillerRabin.WitnessLoopValue | misc/millerrabin.c:37-42 | the loop returns 1 exactly when some later square w^(2^j·n) is m − 1 |
| MillerRabin.SquareAgain | misc/millerrabin.c:38 | squaring w^(2^i·n) mod m gives w^(2^(i+1)·n) mod m |
| MillerRabin.WitnessValue | misc/millerrabin.c:29-43 | 1 when w = m; otherwise 1 exactly when w^n ≡ ±1 or w^(2^i·n) ≡ m − 1 for some 1 ≤ i < a |
| MillerRabin.Halve | misc/millerrabin.c:56-60 | the halving loop leaves d odd, no larger than the input, with the input equal to 2^(count)·d; an even input is halved at least once |
| MillerRabin.MillerRabin | misc/millerrabin.c:47-65 | 1 for n = 2, and 0 for n = 1 and every other even n |
| MillerRabin.HalvingSplits | misc/millerrabin.c:53-60 | for odd n > 1 the halving writes n − 1 = 2^a·d with d odd and a ≥ 1 |
| MillerRabin.MillerRabinValue | misc/millerrabin.c:62-64 | for odd n > 1, the result is 1 exactly when each base 2, 7, 61 equals n or passes the strong probable-prime test |
| MillerRabin.WitnessBases | misc/millerrabin.c:62-64 | for each of the three bases, the witness call answers 1 exactly when the base equals n or passes the strong probable-prime test for the split n − 1 = 2^a·d |

## Left out

- `main` of `triangle/solver.py` is left out: argument parsing, the `-v` flag, depth parsing, timing, the mismatch check and printing are input/output. So is the `print`/`str` part of `print_solutions`. Only its map (x, y, z) → (x+y, x+z, y+z) is modelled.
- `main` of `triangle/lookup.py` is left out beyond the rescale, sort and format logic: argument handling, the THRESHOLD dump and printing. The listing returns its lines instead of printing them.
- Iteration order of Python sets and dictionaries: where it matters (the inputs of `reducer`, the triangles under one key), it is a parameter. No particular order is modelled.
- Lookup.FractionIsqrt: requires x ≥ 0. `isqrt` of a negative numerator raises `ValueError`, and no caller passes a negative value.
- Curve.GetRationalY, Searcher.Searcher, Heights.Height, Reducer.Reducer, Lookup.FractionIsqrt and Listing.Listing: ghost. They read the lowest-terms numerator and denominator, which the model defines by choice, not by computation.
- `rsortf` is left out, and so are the IEEE-754 ordering of NaNs and of the two zeros.
- Keys.F2UOrder: states one direction, for patterns that are not NaNs, in a sign-magnitude order where +0 and −0 are equal.
- `malloc`/`free` and the single stack buffer of three count arrays in `rsort` are left out. The counts are three arrays; the sort takes a sequence and returns one.
- MillerRabin.WitnessValue: requires m, w and n below 2^32 (the driver's values); for larger values the products in `expmod` can wrap in `u64`.
- The `int a` of `miller_rabin_witness` is an unbounded integer. It never exceeds 31.
- The claim that the bases 2, 7 and 61 decide primality for every 32-bit n is left out. It is a computed fact. So is the converse, that an odd prime passes every witness, which needs Fermat's little theorem.
- `main` of `misc/millerrabin.c` (`scanf`/`printf`) is left out.
- The other directories of the repository are not part of this model: the numeric filters, the fast log/exp approximation, the structure-file generator and the subprocess driver.

=== FILE: curve.dfy ===
/** The curve and its chord-and-tangent step (triangle/solver.py,
    `get_rational_y`, `find_tangent_expr`, `find_secant_expr`,
    `get_new_solution` and the third coordinate computed in `searcher` and
    `solver`).

    In (x, y) form the curve of the triangles with semiperimeter s and
    r = (Heron's radicand) / s^2 is x y^2 + (x^2 - s x) y + s r = 0; a point
    (x, y) on it with x y != r gives the triple (x, y, z) with
    z = (x + y) / (x y / r - 1), x + y + z = s and x y z = r s. */
module Curve {
  import opened Numbers
  import opened Fractions
  import opened Results
  import opened Triangles

  datatype Point = Point(x: real, y: real)

  /** The line y = a x + b. */
  datatype Line = Line(a: real, b: real)

  function CurvePoly(s: real, r: real, x: real, y: real): real {
    x * y * y + (x * x - s * x) * y + s * r
  }

  predicate OnCurve(s: real, r: real, p: Point) {
    CurvePoly(s, r, p.x, p.y) == 0.0
  }

  predicate OnLine(l: Line, p: Point) {
    p.y == l.a * p.x + l.b
  }

  /** Field facts, stated once so that each use is a single instance. */
  lemma QuotientTimes(u: real, v: real, w: real)
    requires v != 0.0 && w == u / v
    ensures w * v == u
  {
  }

  lemma ProductZero(u: real, v: real)
    ensures u * v == 0.0 <==> u == 0.0 || v == 0.0
  {
  }

  /** The curve is symmetric in x and y. */
  lemma CurveSymmetric(s: real, r: real, x: real, y: real)
    ensures CurvePoly(s, r, x, y) == CurvePoly(s, r, y, x)
  {
    assert CurvePoly(s, r, x, y) == x * y * (x + y) - s * x * y + s * r;
    assert CurvePoly(s, r, y, x) == y * x * (y + x) - s * y * x + s * r;
  }

  /** x (x (s - x)^2 - 4 r s), the discriminant of the curve as a quadratic
      in y: completing the square, (2 x y + x^2 - s x)^2 exceeds 4 x times
      the curve polynomial by exactly this amount, for every y. */
  function Discriminant(s: real, r: real, x: real): (d: real)
    ensures forall y :: (2.0 * x * y + x * x - s * x) * (2.0 * x * y + x * x - s * x) == 4.0 * x * CurvePoly(s, r, x, y) + d
    ensures x == 0.0 ==> d == 0.0
  {
    var d := x * (x * (s - x) * (s - x) - 4.0 * r * s);
    assert forall y :: (2.0 * x * y + x * x - s * x) * (2.0 * x * y + x * x - s * x) == 4.0 * x * CurvePoly(s, r, x, y) + d by {
      forall y
        ensures (2.0 * x * y + x * x - s * x) * (2.0 * x * y + x * x - s * x) == 4.0 * x * CurvePoly(s, r, x, y) + d
      {
        SquareExpansion(s, r, x, y, 2.0 * x * y + x * x - s * x);
      }
    }
    d
  }

  lemma DiscriminantRational(s: real, r: real, x: real)
    requires IsRational(s) && IsRational(r) && IsRational(x)
    ensures IsRational(Discriminant(s, r, x))
  {
    var t := s - x;
    SumRational(s, x, t);
    var u := x * t;
    ProductRational(x, t, u);
    var v := u * t;
    ProductRational(u, t, v);
    IntRational(4);
    var w := 4.0 * r;
    ProductRational(4.0, r, w);
    var k := w * s;
    ProductRational(w, s, k);
    var e := v - k;
    SumRational(v, k, e);
    var d := x * e;
    ProductRational(x, e, d);
    assert Discriminant(s, r, x) == d;
  }

  /** `get_rational_y`: -1 when the discriminant is negative, the double root
      when it is zero, 0 when it is positive but its numerator or denominator
      is not a perfect square, and otherwise the root with the negative
      square root. The sentinels are ordinary values: a genuine root -1 or 0
      is returned the same way. */
  ghost function GetRationalY(s: real, r: real, x: real): (y: Result<real>)
    requires IsRational(s) && IsRational(r) && IsRational(x)
    ensures Discriminant(s, r, x) < 0.0 ==> y == Ok(-1.0)
    ensures Discriminant(s, r, x) == 0.0 ==>
              (y.Ok? <==> x != 0.0) && (y.Ok? ==> CurvePoly(s, r, x, y.value) == 0.0)
    ensures Discriminant(s, r, x) > 0.0 ==>
              && IsRational(Discriminant(s, r, x))
              && y.Ok?
              && (!SquareParts(Discriminant(s, r, x)) ==> y.value == 0.0)
              && (SquareParts(Discriminant(s, r, x)) ==> CurvePoly(s, r, x, y.value) == 0.0)
  {
    var d := Discriminant(s, r, x);
    if d < 0.0 then Ok(-1.0)
    else if d == 0.0 then
      if x == 0.0 then DivByZero
      else
        var y := (s * x - x * x) / (2.0 * x);
        QuadraticRoot(s, r, x, 0.0, y);
        Ok(y)
    else
      DiscriminantRational(s, r, x);
      match FractionSqrt(d)
      case None => Ok(0.0)
      case Some(q) =>
        assert x != 0.0;
        var y := (-q + s * x - x * x) / (2.0 * x);
        QuadraticRoot(s, r, x, q, y);
        Ok(y)
  }

  /** A value of `get_rational_y` other than the sentinels -1 and 0 is a root. */
  lemma NonSentinelRoot(s: real, r: real, x: real, y: real)
    requires IsRational(s) && IsRational(r) && IsRational(x)
    requires GetRationalY(s, r, x) == Ok(y)
    ensures y != -1.0 && y != 0.0 ==> CurvePoly(s, r, x, y) == 0.0
  {
  }

  /** The numerator and denominator of a positive fraction are both perfect squares. */
  ghost predicate SquareParts(d: real)
    requires IsRational(d) && d > 0.0
  {
    PositiveNum(d);
    var n: nat := Num(d);
    Isqrt(n) * Isqrt(n) == n && Isqrt(Den(d)) * Isqrt(Den(d)) == Den(d)
  }

  lemma PositiveNum(d: real)
    requires IsRational(d) && d > 0.0
    ensures Num(d) > 0
  {
    NumOverDen(d);
    var n, k := Num(d) as real, Den(d) as real;
    assert n == d * k;
  }

  /** The square root `get_rational_y` takes of a positive discriminant: the
      quotient of the integer square roots of numerator and denominator when
      both are exact, and nothing otherwise. */
  ghost function FractionSqrt(d: real): (q: Option<real>)
    requires IsRational(d) && d > 0.0
    ensures q.Some? <==> SquareParts(d)
    ensures q.Some? ==> q.value > 0.0 && q.value * q.value == d
  {
    PositiveNum(d);
    var num: nat, den := Num(d), Den(d);
    var m, n := Isqrt(num), Isqrt(den);
    if m * m != num || n * n != den then None
    else
      SquareRoot(d, num, den, m, n);
      Some(m as real / n as real)
  }

  /** A fraction whose numerator and denominator are squares m^2 and n^2 is (m / n)^2. */
  lemma SquareRoot(d: real, num: int, den: int, m: int, n: int)
    requires IsRational(d) && d > 0.0 && num == Num(d) && den == Den(d)
    requires m >= 0 && n >= 0 && m * m == num && n * n == den
    ensures n > 0 && m as real / n as real > 0.0
    ensures (m as real / n as real) * (m as real / n as real) == d
  {
    NumOverDen(d);
    PositiveNum(d);
    assert m != 0;
    assert (m * m) as real == m as real * m as real;
    assert (n * n) as real == n as real * n as real;
  }

  /** The square root of the square of a positive fraction is found, and is that fraction. */
  lemma FractionSqrtOfSquare(q: real)
    requires IsRational(q) && q > 0.0
    ensures IsRational(q * q) && FractionSqrt(q * q) == Some(q)
  {
    SquareOfFraction(q);
  }

  /** The square roots of the parts of q^2 are the parts of q. */
  lemma SquareOfFraction(q: real)
    requires IsRational(q) && q > 0.0
    ensures IsRational(q * q) && Num(q * q) >= 0
    ensures Num(q * q) == Num(q) * Num(q) && Den(q * q) == Den(q) * Den(q)
    ensures Isqrt(Num(q * q)) == Num(q) && Isqrt(Den(q * q)) == Den(q)
    ensures Num(q) as real / Den(q) as real == q
  {
    SquarePair(q);
    PositiveNum(q);
    var nq: nat, dq: nat := Num(q), Den(q);
    IsqrtOfSquare(nq);
    IsqrtOfSquare(dq);
    NumOverDen(q);
  }

  /** The quadratic formula: y = (-q + s x - x^2) / (2 x) with q^2 the discriminant is a root. */
  lemma QuadraticRoot(s: real, r: real, x: real, q: real, y: real)
    requires x != 0.0 && q * q == Discriminant(s, r, x)
    requires y == (-q + s * x - x * x) / (2.0 * x)
    ensures CurvePoly(s, r, x, y) == 0.0
  {
    var w := 2.0 * x * y + x * x - s * x;
    assert w == -q;
    assert w * w == q * q;
    assert w * w == 4.0 * x * CurvePoly(s, r, x, y) + Discriminant(s, r, x);
    assert 4.0 * x * CurvePoly(s, r, x, y) == 0.0;
  }

  lemma SquareExpansion(s: real, r: real, x: real, y: real, w: real)
    requires w == 2.0 * x * y + x * x - s * x
    ensures w * w == 4.0 * x * CurvePoly(s, r, x, y) + x * (x * (s - x) * (s - x) - 4.0 * r * s)
  {
    var u := x * x - s * x;
    assert w == 2.0 * x * y + u;
    assert w * w == 4.0 * x * x * y * y + 4.0 * x * y * u + u * u;
    assert u * u == x * x * (s - x) * (s - x);
  }

  /** When the discriminant is the square of a fraction q > 0, `get_rational_y`
      returns the root (-q + s x - x^2) / (2 x) and not the sentinel 0. */
  lemma GetRationalYOfSquare(s: real, r: real, x: real, q: real)
    requires IsRational(s) && IsRational(r) && IsRational(x) && IsRational(q)
    requires q > 0.0 && q * q == Discriminant(s, r, x)
    ensures x != 0.0 && GetRationalY(s, r, x) == Ok((-q + s * x - x * x) / (2.0 * x))
  {
    var d := Discriminant(s, r, x);
    assert d > 0.0 && IsRational(d) && FractionSqrt(d) == Some(q) by {
      FractionSqrtOfSquare(q);
    }
    DiscriminantPositive(s, r, x, d);
    GetRationalYOfRoot(s, r, x, q, d);
  }

  /** The discriminant vanishes at x = 0, so a positive one has x != 0. */
  lemma DiscriminantPositive(s: real, r: real, x: real, d: real)
    requires d == Discriminant(s, r, x) && d > 0.0
    ensures x != 0.0
  {
  }

  lemma GetRationalYOfRoot(s: real, r: real, x: real, q: real, d: real)
    requires IsRational(s) && IsRational(r) && IsRational(x)
    requires d == Discriminant(s, r, x) && d > 0.0 && IsRational(d) && FractionSqrt(d) == Some(q)
    requires x != 0.0
    ensures GetRationalY(s, r, x) == Ok((-q + s * x - x * x) / (2.0 * x))
  {
  }

  /** The sentinel -1 is also a genuine root: with s = 1, r = -1 and x = 1
      the discriminant is 4 and `get_rational_y` returns the root y = -1. */
  lemma SentinelMinusOneCollides()
    ensures IsRational(1.0) && IsRational(-1.0)
    ensures GetRationalY(1.0, -1.0, 1.0) == Ok(-1.0) && CurvePoly(1.0, -1.0, 1.0, -1.0) == 0.0
  {
    IntRational(1);
    IntRational(-1);
    IntRational(2);
    assert Discriminant(1.0, -1.0, 1.0) == 2.0 * 2.0;
    GetRationalYOfSquare(1.0, -1.0, 1.0, 2.0);
  }

  /** The sentinel 0 is also a genuine root: with s = 3, r = 0 and x = 1 the
      discriminant is 4 and `get_rational_y` returns the root y = 0. */
  lemma SentinelZeroCollides()
    ensures IsRational(3.0) && IsRational(0.0) && IsRational(1.0)
    ensures GetRationalY(3.0, 0.0, 1.0) == Ok(0.0) && CurvePoly(3.0, 0.0, 1.0, 0.0) == 0.0
  {
    IntRational(3);
    IntRational(0);
    IntRational(1);
    IntRational(2);
    assert Discriminant(3.0, 0.0, 1.0) == 2.0 * 2.0;
    GetRationalYOfSquare(3.0, 0.0, 1.0, 2.0);
  }

  /** For a triangle's curve (s, r > 0) and 0 < x <= s, the range the search
      scans, no genuine root is -1 or 0, so the sentinels are unambiguous. */
  lemma NoSentinelRoots(s: real, r: real, x: real, y: real)
    requires s > 0.0 && r > 0.0 && 0.0 < x <= s
    requires CurvePoly(s, r, x, y) == 0.0
    ensures y != -1.0 && y != 0.0
  {
    MinusOneNotRoot(s, r, x);
  }

  lemma MinusOneNotRoot(s: real, r: real, x: real)
    requires s > 0.0 && r > 0.0 && 0.0 < x <= s
    ensures CurvePoly(s, r, x, -1.0) > 0.0
  {
    assert CurvePoly(s, r, x, -1.0) == x * (1.0 + s - x) + s * r;
    assert x * (1.0 + s - x) > 0.0;
  }

  /** z = (x + y) / (x y / r - 1), failing where either division does. */
  function ThirdCoordinate(r: real, x: real, y: real): (z: Result<real>)
    ensures z.Ok? <==> r != 0.0 && x * y != r
  {
    if r == 0.0 then DivByZero
    else
      var w := x * y / r - 1.0;
      if w == 0.0 then
        assert x * y == r by { assert x * y / r == 1.0; }
        DivByZero
      else
        assert x * y != r;
        Ok((x + y) / w)
  }

  /** A curve point's triple sums to s and has product r s. */
  lemma ThirdCoordinateTriple(s: real, r: real, x: real, y: real, z: real)
    requires CurvePoly(s, r, x, y) == 0.0 && ThirdCoordinate(r, x, y) == Ok(z)
    ensures x + y + z == s && x * y * z == r * s
  {
    TripleAlgebra(s, r, x, y, x * y / r - 1.0, z);
  }

  /** Every triple of the set is sorted and lies on the curve: x + y + z = s, x y z = r s. */
  predicate CurveTriples(s: real, r: real, found: set<Triple>) {
    forall t :: t in found ==> Ascending(t) && Sum(t) == s && Product(t) == r * s
  }

  /** The sorted triple of a curve point is sorted and on the curve. */
  lemma FoundOnCurve(s: real, r: real, x: real, y: real, z: real)
    requires CurvePoly(s, r, x, y) == 0.0 && ThirdCoordinate(r, x, y) == Ok(z)
    ensures Ascending(Sort3(x, y, z)) && Sum(Sort3(x, y, z)) == s && Product(Sort3(x, y, z)) == r * s
  {
    ThirdCoordinateTriple(s, r, x, y, z);
    Sort3Symmetric(x, y, z);
  }

  lemma TripleAlgebra(s: real, r: real, x: real, y: real, w: real, z: real)
    requires r != 0.0 && w != 0.0 && w == x * y / r - 1.0 && z == (x + y) / w
    requires CurvePoly(s, r, x, y) == 0.0
    ensures x + y + z == s && x * y * z == r * s
  {
    assert x * y == r * (w + 1.0);
    assert (x + y) * (x * y) == s * r * w by {
      assert CurvePoly(s, r, x, y) == (x + y) * (x * y) - s * (x * y) + s * r;
    }
    assert z * w == x + y;
    assert (x + y + z) * w == z * w * (w + 1.0);
    assert x * y * z * w == r * s * w;
  }

  /** The partial derivatives of the curve polynomial in x and in y. */
  function PartialX(s: real, x: real, y: real): real {
    y * y + 2.0 * x * y - s * y
  }

  function PartialY(s: real, x: real, y: real): real {
    2.0 * x * y + x * x - s * x
  }

  /** The numerator and denominator `find_tangent_expr` forms for -dy/dx. */
  function SlopeNumerator(x: real, y: real, r: real): real {
    y * (y * (x * x - r) - 2.0 * r * x)
  }

  function SlopeDenominator(x: real, y: real, r: real): real {
    x * (x * (y * y - r) - 2.0 * r * y)
  }

  /** `find_tangent_expr`: the line y = a x + b through the point with slope
      a = -m / n, or nothing when m = 0, n = 0 or m = -n. The last guard
      rules out a = 1; the slope a = -1, at which `get_new_solution` divides
      by zero, passes it (see `TangentMinusOne`). */
  function FindTangent(p: Point, r: real): (l: Option<Line>)
    ensures l.Some? <==>
              && SlopeNumerator(p.x, p.y, r) != 0.0 && SlopeDenominator(p.x, p.y, r) != 0.0
              && SlopeNumerator(p.x, p.y, r) != -SlopeDenominator(p.x, p.y, r)
    ensures l.Some? ==>
              && l.value.a == -SlopeNumerator(p.x, p.y, r) / SlopeDenominator(p.x, p.y, r)
              && OnLine(l.value, p) && l.value.a != 0.0 && l.value.a != 1.0
  {
    var m, n := SlopeNumerator(p.x, p.y, r), SlopeDenominator(p.x, p.y, r);
    if m == 0.0 || n == 0.0 || m == -n then None
    else
      var a := -m / n;
      SlopeOfQuotient(-m, n, a);
      Some(LineThrough(p, a))
  }

  /** The line with slope a through p; its intercept is y - a x. */
  function LineThrough(p: Point, a: real): (l: Line)
    ensures l.a == a && OnLine(l, p)
  {
    Line(a, p.y - a * p.x)
  }

  /** For a = u / v: a is 0 exactly when u is, and 1 or -1 exactly when u is v or -v. */
  lemma SlopeOfQuotient(u: real, v: real, a: real)
    requires v != 0.0 && a == u / v
    ensures a == 0.0 <==> u == 0.0
    ensures a == 1.0 <==> u == v
    ensures a == -1.0 <==> u == -v
  {
    QuotientTimes(u, v, a);
    ProductZero(a, v);
    ProductZero(a - 1.0, v);
    ProductZero(a + 1.0, v);
  }

  /** On the curve the line `find_tangent_expr` returns is the tangent:
      its slope a satisfies F_x + a F_y = 0. */
  lemma TangentIsTangent(s: real, r: real, p: Point)
    requires OnCurve(s, r, p) && FindTangent(p, r).Some?
    ensures PartialX(s, p.x, p.y) + FindTangent(p, r).value.a * PartialY(s, p.x, p.y) == 0.0
  {
    TangentSlope(s, r, p.x, p.y, FindTangent(p, r).value.a);
  }

  lemma TangentSlope(s: real, r: real, x: real, y: real, a: real)
    requires CurvePoly(s, r, x, y) == 0.0 && SlopeDenominator(x, y, r) != 0.0
    requires a == -SlopeNumerator(x, y, r) / SlopeDenominator(x, y, r)
    ensures PartialX(s, x, y) + a * PartialY(s, x, y) == 0.0
  {
    SlopeFactors(s, r, x, y);
    TangentAlgebra(PartialX(s, x, y), PartialY(s, x, y), x * y - r,
                   SlopeNumerator(x, y, r), SlopeDenominator(x, y, r), a);
  }

  lemma TangentAlgebra(fx: real, fy: real, k: real, m: real, n: real, a: real)
    requires m == fx * k && n == fy * k && n != 0.0 && a == -m / n
    ensures fx + a * fy == 0.0
  {
    QuotientTimes(-m, n, a);
    assert (fx + a * fy) * k == 0.0;
    ProductZero(fx + a * fy, k);
    ProductZero(fy, k);
  }

  /** On the curve s (x y - r) = x y (x + y), so the slope numerator and
      denominator are F_x and F_y times x y - r. */
  lemma SlopeFactors(s: real, r: real, x: real, y: real)
    requires CurvePoly(s, r, x, y) == 0.0
    ensures SlopeNumerator(x, y, r) == PartialX(s, x, y) * (x * y - r)
    ensures SlopeDenominator(x, y, r) == PartialY(s, x, y) * (x * y - r)
  {
    var e := x * y * (x + y) - s * (x * y - r);
    assert e == 0.0 by {
      CurveExcess(s, r, x, y);
    }
    SlopeExpansion(s, r, x, y);
  }

  lemma CurveExcess(s: real, r: real, x: real, y: real)
    ensures CurvePoly(s, r, x, y) == x * y * (x + y) - s * (x * y - r)
  {
  }

  lemma SlopeExpansion(s: real, r: real, x: real, y: real)
    ensures PartialX(s, x, y) * (x * y - r)
         == SlopeNumerator(x, y, r) + y * (x * y * (x + y) - s * (x * y - r))
    ensures PartialY(s, x, y) * (x * y - r)
         == SlopeDenominator(x, y, r) + x * (x * y * (x + y) - s * (x * y - r))
  {
  }

  /** The tangent slope is -1 exactly when r (x^2 - y^2) = 0: on the
      diagonal x = y, or for r = 0. */
  lemma TangentMinusOneIff(p: Point, r: real)
    requires FindTangent(p, r).Some?
    ensures FindTangent(p, r).value.a == -1.0 <==> r * (p.x * p.x - p.y * p.y) == 0.0
  {
    var m, n := SlopeNumerator(p.x, p.y, r), SlopeDenominator(p.x, p.y, r);
    SlopeDifference(p.x, p.y, r);
    SlopeOfQuotient(-m, n, FindTangent(p, r).value.a);
  }

  lemma SlopeDifference(x: real, y: real, r: real)
    ensures SlopeNumerator(x, y, r) - SlopeDenominator(x, y, r) == r * (x * x - y * y)
  {
  }

  /** The point (3, 3) lies on the curve with s = 8 and r = 9/4 (the triangle
      with sides 5, 5, 6); its tangent has slope -1, and the step from it
      divides by zero. */
  lemma TangentMinusOne()
    ensures OnCurve(8.0, 2.25, Point(3.0, 3.0))
    ensures FindTangent(Point(3.0, 3.0), 2.25) == Some(Line(-1.0, 6.0))
    ensures NewSolution(8.0, 2.25, Line(-1.0, 6.0), 3.0, 3.0) == DivByZero
  {
    assert SlopeNumerator(3.0, 3.0, 2.25) == 20.25;
    assert SlopeDenominator(3.0, 3.0, 2.25) == 20.25;
  }

  /** `find_secant_expr`: the tangent for equal points; otherwise the line
      through both, or nothing when they share a coordinate or the slope
      would be -1. */
  function FindSecant(p1: Point, p2: Point, r: real): (l: Option<Line>)
    ensures p1 == p2 ==> l == FindTangent(p1, r)
    ensures p1 != p2 ==>
              (l.Some? <==> p1.x != p2.x && p1.y != p2.y && p2.y - p1.y != -(p2.x - p1.x))
    ensures p1 != p2 && l.Some? ==>
              OnLine(l.value, p1) && OnLine(l.value, p2) && l.value.a != 0.0 && l.value.a != -1.0
  {
    if p1 == p2 then FindTangent(p1, r)
    else
      var m, n := p2.y - p1.y, p2.x - p1.x;
      if m == 0.0 || n == 0.0 || m == -n then None
      else
        var a := m / n;
        SlopeOfQuotient(m, n, a);
        SecantThrough(p1, p2, m, n, a);
        Some(LineThrough(p1, a))
  }

  lemma SecantThrough(p1: Point, p2: Point, m: real, n: real, a: real)
    requires m == p2.y - p1.y && n == p2.x - p1.x && n != 0.0 && a == m / n
    ensures OnLine(LineThrough(p1, a), p2)
  {
    QuotientTimes(m, n, a);
  }

  /** `get_new_solution`: with t = -s r / (p q (a + 1)), the point
      (t + b, t / a), failing where either division does. The line meets
      the curve at x = p, x = q and, by Vieta's product of roots, at the
      third root x = t / a; the point is returned with its coordinates
      swapped. */
  function NewSolution(s: real, r: real, l: Line, p: real, q: real): (res: Result<Point>)
    ensures res.Ok? <==> p != 0.0 && q != 0.0 && l.a != -1.0 && l.a != 0.0
    ensures res.Ok? ==> res.value.x == l.a * res.value.y + l.b
    ensures res.Ok? ==> RootProduct(l.a * l.a + l.a, p, q, res.value.y, s * r)
  {
    var den := p * q * (l.a + 1.0);
    ProductZero(p * q, l.a + 1.0);
    ProductZero(p, q);
    if den == 0.0 then DivByZero
    else
      var temp := -s * r / den;
      if l.a == 0.0 then DivByZero
      else
        var x := temp / l.a;
        ThirdRootProduct(s * r, l.a, p, q, den, temp, x);
        Ok(Point(temp + l.b, x))
  }

  /** Vieta's product of the roots: p, q and t multiply to -D / A, the
      ratio of the constant and the leading coefficient of a cubic. */
  predicate RootProduct(A: real, p: real, q: real, t: real, D: real) {
    A * p * q * t == -D
  }

  lemma ThirdRootProduct(sr: real, a: real, p: real, q: real, den: real, temp: real, x: real)
    requires den == p * q * (a + 1.0) && den != 0.0 && a != 0.0
    requires temp == -sr / den && x == temp / a
    ensures temp == a * x && (a * a + a) * p * q * x == -sr
  {
    QuotientTimes(temp, a, x);
    QuotientTimes(-sr, den, temp);
  }

  /** The cubic ((A x + B) x + C) x + D. */
  function Cubic(A: real, B: real, C: real, D: real, x: real): real {
    ((A * x + B) * x + C) * x + D
  }

  /** A (p^2 + p q + q^2) + B (p + q) + C: (c(p) - c(q)) / (p - q) for
      p != q, and c'(p) for p = q. */
  function ChordValue(A: real, B: real, C: real, p: real, q: real): real {
    A * (p * p + p * q + q * q) + B * (p + q) + C
  }

  /** On the line y = a x + b the curve polynomial is the cubic
      (a^2 + a) x^3 + (2 a b + b - a s) x^2 + (b^2 - b s) x + s r. */
  lemma CubicOnLine(s: real, r: real, a: real, b: real, x: real)
    ensures CurvePoly(s, r, x, a * x + b)
         == Cubic(a * a + a, 2.0 * a * b + b - a * s, b * b - b * s, s * r, x)
  {
  }

  /** c(p) - c(q) = (p - q) (A (p^2 + p q + q^2) + B (p + q) + C). */
  lemma CubicDifference(A: real, B: real, C: real, D: real, p: real, q: real)
    ensures Cubic(A, B, C, D, p) - Cubic(A, B, C, D, q) == (p - q) * ChordValue(A, B, C, p, q)
  {
  }

  /** Two distinct roots satisfy the chord condition. */
  lemma ChordOfTwoRoots(A: real, B: real, C: real, D: real, p: real, q: real)
    requires p != q && Cubic(A, B, C, D, p) == 0.0 && Cubic(A, B, C, D, q) == 0.0
    ensures ChordValue(A, B, C, p, q) == 0.0
  {
    CubicDifference(A, B, C, D, p, q);
    ProductZero(p - q, ChordValue(A, B, C, p, q));
  }

  /** The coefficients left over when A (x - p) (x - q) (x - t) is taken from the cubic. */
  function Beta(A: real, B: real, p: real, q: real, t: real): real {
    B + A * (p + q + t)
  }

  function Gamma(A: real, C: real, p: real, q: real, t: real): real {
    C - A * (p * q + p * t + q * t)
  }

  lemma CubicRemainder(A: real, B: real, C: real, D: real, p: real, q: real, t: real)
    ensures Cubic(A, B, C, D, p)
         == Beta(A, B, p, q, t) * p * p + Gamma(A, C, p, q, t) * p + (D + A * p * q * t)
    ensures Cubic(A, B, C, D, t)
         == Beta(A, B, p, q, t) * t * t + Gamma(A, C, p, q, t) * t + (D + A * p * q * t)
  {
  }

  lemma ChordIdentity(A: real, B: real, C: real, p: real, q: real, t: real)
    ensures Beta(A, B, p, q, t) * (p + q) + Gamma(A, C, p, q, t) == ChordValue(A, B, C, p, q)
  {
  }

  /** The third root: if p is a root, p and q satisfy the chord condition
      (q is a root too, or for q = p p is a double root), and A p q t = -D,
      then t is a root. */
  lemma CubicThirdRoot(A: real, B: real, C: real, D: real, p: real, q: real, t: real)
    requires p != 0.0 && q != 0.0
    requires Cubic(A, B, C, D, p) == 0.0 && ChordValue(A, B, C, p, q) == 0.0
    requires RootProduct(A, p, q, t, D)
    ensures Cubic(A, B, C, D, t) == 0.0
  {
    CubicRemainder(A, B, C, D, p, q, t);
    ChordIdentity(A, B, C, p, q, t);
    RemainderVanishes(Beta(A, B, p, q, t), Gamma(A, C, p, q, t), p, q);
  }

  /** beta p^2 + gamma p = 0 and beta (p + q) + gamma = 0 with p, q != 0 force beta = gamma = 0. */
  lemma RemainderVanishes(beta: real, gamma: real, p: real, q: real)
    requires p != 0.0 && q != 0.0
    requires beta * p * p + gamma * p == 0.0 && beta * (p + q) + gamma == 0.0
    ensures beta == 0.0 && gamma == 0.0
  {
    assert p * (beta * p + gamma) == 0.0;
    ProductZero(p, beta * p + gamma);
    assert beta * q == 0.0;
    ProductZero(beta, q);
  }

  /** The derivative of the cubic on the line y = a x + b at p is F_x + a F_y. */
  lemma CubicDerivative(s: real, a: real, b: real, p: real)
    ensures ChordValue(a * a + a, 2.0 * a * b + b - a * s, b * b - b * s, p, p)
         == PartialX(s, p, a * p + b) + a * PartialY(s, p, a * p + b)
  {
  }

  /** A curve point on the line is a root of the line's cubic. */
  lemma RootOnLine(s: real, r: real, l: Line, pt: Point)
    requires OnCurve(s, r, pt) && OnLine(l, pt)
    ensures Cubic(l.a * l.a + l.a, 2.0 * l.a * l.b + l.b - l.a * s, l.b * l.b - l.b * s, s * r, pt.x) == 0.0
  {
    CubicOnLine(s, r, l.a, l.b, pt.x);
  }

  /** A curve point is a double root of the cubic of its tangent. */
  lemma TangentCondition(s: real, r: real, pt: Point, l: Line)
    requires OnCurve(s, r, pt) && FindTangent(pt, r) == Some(l)
    ensures ChordValue(l.a * l.a + l.a, 2.0 * l.a * l.b + l.b - l.a * s, l.b * l.b - l.b * s, pt.x, pt.x) == 0.0
  {
    TangentIsTangent(s, r, pt);
    CubicDerivative(s, l.a, l.b, pt.x);
    assert pt == Point(pt.x, l.a * pt.x + l.b);
  }

  /** Two curve points of a line with different x are two roots of its cubic. */
  lemma SecantCondition(s: real, r: real, p1: Point, p2: Point, l: Line)
    requires OnCurve(s, r, p1) && OnCurve(s, r, p2) && p1.x != p2.x
    requires OnLine(l, p1) && OnLine(l, p2)
    ensures ChordValue(l.a * l.a + l.a, 2.0 * l.a * l.b + l.b - l.a * s, l.b * l.b - l.b * s, p1.x, p2.x) == 0.0
  {
    RootOnLine(s, r, l, p1);
    RootOnLine(s, r, l, p2);
    ChordOfTwoRoots(l.a * l.a + l.a, 2.0 * l.a * l.b + l.b - l.a * s, l.b * l.b - l.b * s, s * r, p1.x, p2.x);
  }

  /** The chord-and-tangent step stays on the curve: the point
      `get_new_solution` computes from two curve points and the line
      `find_secant_expr` draws through them is on the curve. */
  lemma ChordStep(s: real, r: real, p1: Point, p2: Point, l: Line)
    requires OnCurve(s, r, p1) && OnCurve(s, r, p2)
    requires FindSecant(p1, p2, r) == Some(l)
    requires NewSolution(s, r, l, p1.x, p2.x).Ok?
    ensures OnCurve(s, r, NewSolution(s, r, l, p1.x, p2.x).value)
  {
    assert Cubic(l.a * l.a + l.a, 2.0 * l.a * l.b + l.b - l.a * s, l.b * l.b - l.b * s, s * r, p1.x) == 0.0
        && ChordValue(l.a * l.a + l.a, 2.0 * l.a * l.b + l.b - l.a * s, l.b * l.b - l.b * s, p1.x, p2.x) == 0.0 by {
      assert OnLine(l, p1);
      RootOnLine(s, r, l, p1);
      if p1 == p2 {
        TangentCondition(s, r, p1, l);
      } else {
        SecantCondition(s, r, p1, p2, l);
      }
    }
    ThirdPoint(s, r, l, p1, p2, NewSolution(s, r, l, p1.x, p2.x));
  }

  /** The line meets the curve at x = p1.x and x = p2.x (twice at p1.x for
      a tangent); the point whose y is the third root, by Vieta, is on the curve. */
  lemma ThirdPoint(s: real, r: real, l: Line, p1: Point, p2: Point, res: Result<Point>)
    requires p1.x != 0.0 && p2.x != 0.0
    requires Cubic(l.a * l.a + l.a, 2.0 * l.a * l.b + l.b - l.a * s, l.b * l.b - l.b * s, s * r, p1.x) == 0.0
    requires ChordValue(l.a * l.a + l.a, 2.0 * l.a * l.b + l.b - l.a * s, l.b * l.b - l.b * s, p1.x, p2.x) == 0.0
    requires res == NewSolution(s, r, l, p1.x, p2.x) && res.Ok?
    ensures OnCurve(s, r, res.value)
  {
    ThirdRootOnCurve(s, r, l, p1.x, p2.x, res.value);
  }

  /** A point of the line whose y is Vieta's third root is on the curve. */
  lemma ThirdRootOnCurve(s: real, r: real, l: Line, p: real, q: real, pt: Point)
    requires p != 0.0 && q != 0.0
    requires Cubic(l.a * l.a + l.a, 2.0 * l.a * l.b + l.b - l.a * s, l.b * l.b - l.b * s, s * r, p) == 0.0
    requires ChordValue(l.a * l.a + l.a, 2.0 * l.a * l.b + l.b - l.a * s, l.b * l.b - l.b * s, p, q) == 0.0
    requires pt.x == l.a * pt.y + l.b
    requires RootProduct(l.a * l.a + l.a, p, q, pt.y, s * r)
    ensures OnCurve(s, r, pt)
  {
    CubicThirdRoot(l.a * l.a + l.a, 2.0 * l.a * l.b + l.b - l.a * s, l.b * l.b - l.b * s, s * r, p, q, pt.y);
    RootOffLine(s, r, l, pt);
  }

  /** A root t of the line's cubic gives the curve point (a t + b, t). */
  lemma RootOffLine(s: real, r: real, l: Line, pt: Point)
    requires Cubic(l.a * l.a + l.a, 2.0 * l.a * l.b + l.b - l.a * s, l.b * l.b - l.b * s, s * r, pt.y) == 0.0
    requires pt.x == l.a * pt.y + l.b
    ensures OnCurve(s, r, pt)
  {
    CubicOnLine(s, r, l.a, l.b, pt.y);
    CurveSymmetric(s, r, pt.y, pt.x);
  }
}

=== FILE: decimal.dfy ===
/** Python's `str` of an integer, the `", ".join` of a printed row, and
    the parsers they invert. Printing is left to the caller: these
    functions only build the text. */
module Decimal {

  predicate IsDigit(c: char) {
    '0' <= c <= '9'
  }

  function Digit(d: nat): (c: char)
    requires d < 10
    ensures IsDigit(c)
  {
    (('0' as int) + d) as char
  }

  function DigitValue(c: char): (d: nat)
    requires IsDigit(c)
    ensures d < 10
  {
    (c as int) - ('0' as int)
  }

  predicate AllDigits(s: string) {
    forall i :: 0 <= i < |s| ==> IsDigit(s[i])
  }

  /** `str(n)` of a natural number: its decimal digits, most significant
      first, without leading zeros. */
  function NatToString(n: nat): (s: string)
    ensures |s| > 0 && AllDigits(s)
    ensures s[0] == '0' ==> n == 0
    decreases n
  {
    if n < 10 then [Digit(n)] else NatToString(n / 10) + [Digit(n % 10)]
  }

  /** The value of a string of decimal digits. */
  function ParseNat(s: string): nat
    requires AllDigits(s)
  {
    if |s| == 0 then 0 else ParseNat(s[..|s| - 1]) * 10 + DigitValue(s[|s| - 1])
  }

  lemma {:induction false} ParseNatToString(n: nat)
    ensures ParseNat(NatToString(n)) == n
    decreases n
  {
    if n >= 10 {
      ParseNatToString(n / 10);
      var s := NatToString(n);
      assert s[..|s| - 1] == NatToString(n / 10);
    }
  }

  /** `str(n)`: a minus sign in front of a negative number. */
  function IntToString(n: int): (s: string)
    ensures |s| > 0
    ensures forall i :: 0 <= i < |s| ==> IsDigit(s[i]) || (i == 0 && s[i] == '-')
    ensures IsDigit(s[0]) <==> n >= 0
  {
    if n < 0 then "-" + NatToString(-n) else NatToString(n)
  }

  /** Text `IntToString` can produce. */
  predicate IsIntText(s: string) {
    if |s| > 0 && s[0] == '-' then AllDigits(s[1..]) else AllDigits(s)
  }

  function ParseInt(s: string): int
    requires IsIntText(s)
  {
    if |s| > 0 && s[0] == '-' then -(ParseNat(s[1..]) as int) else ParseNat(s)
  }

  lemma ParseIntToString(n: int)
    ensures IsIntText(IntToString(n)) && ParseInt(IntToString(n)) == n
  {
    if n < 0 {
      assert IntToString(n)[1..] == NatToString(-n);
      ParseNatToString(-n);
    } else {
      ParseNatToString(n);
    }
  }

  /** `", ".join(parts)`. */
  function Join(parts: seq<string>): (s: string)
    ensures |parts| == 1 ==> s == parts[0]
  {
    if |parts| == 0 then ""
    else if |parts| == 1 then parts[0]
    else parts[0] + ", " + Join(parts[1..])
  }

  /** The first index of `c` in `s`, or `|s|` when there is none. */
  function IndexOf(s: string, c: char): (i: nat)
    ensures i <= |s|
    ensures forall j :: 0 <= j < i ==> s[j] != c
    ensures i < |s| ==> s[i] == c
  {
    if |s| == 0 then 0
    else if s[0] == c then 0
    else 1 + IndexOf(s[1..], c)
  }

  /** Cuts a joined row back into its parts at each ", ". */
  function Split(s: string): (parts: seq<string>)
    ensures |parts| > 0
    decreases |s|
  {
    var i := IndexOf(s, ',');
    if i + 2 <= |s| then [s[..i]] + Split(s[i + 2..])
    else [s]
  }

  predicate NoComma(p: string) {
    forall i :: 0 <= i < |p| ==> p[i] != ','
  }

  /** Joining parts without commas and splitting the row gives the parts back. */
  lemma {:induction false} SplitJoin(parts: seq<string>)
    requires |parts| > 0 && forall k :: 0 <= k < |parts| ==> NoComma(parts[k])
    ensures Split(Join(parts)) == parts
  {
    if |parts| > 1 {
      var s := Join(parts);
      assert s == parts[0] + (", " + Join(parts[1..]));
      IndexOfPrefix(parts[0], ", " + Join(parts[1..]));
      assert IndexOf(s, ',') == |parts[0]|;
      assert s[..|parts[0]|] == parts[0];
      assert s[|parts[0]| + 2..] == Join(parts[1..]);
      SplitJoin(parts[1..]);
      assert Split(s) == [parts[0]] + Split(Join(parts[1..]));
      assert parts == [parts[0]] + parts[1..];
    } else {
      IndexOfNone(parts[0]);
    }
  }

  lemma IndexOfPrefix(p: string, rest: string)
    requires NoComma(p) && |rest| > 0 && rest[0] == ','
    ensures IndexOf(p + rest, ',') == |p|
  {
    var s := p + rest;
    assert s[|p|] == ',';
    assert forall j :: 0 <= j < |p| ==> s[j] == p[j];
  }

  lemma IndexOfNone(p: string)
    requires NoComma(p)
    ensures IndexOf(p, ',') == |p|
  {
  }
}

=== FILE: fractions.dfy ===
/** Python's `fractions.Fraction` values as exact Dafny reals.

    A fraction denotes a rational real, and `==`, hashing, ordering and the
    arithmetic operators of `Fraction` are those of the real it denotes.
    What a real does not carry by itself is the pair `numerator` /
    `denominator`; `Num` and `Den` name it: the pair in lowest terms over a
    positive denominator, which `Canonical` shows is the only such pair for
    the value. */
module Fractions {
  import opened Numbers

  /** A product of fractions, named so that a scaled value (an entry times
      a height, a side times a ratio) is one term for the solver to match. */
  function Times(x: real, y: real): real {
    x * y
  }

  /** `v` is the quotient `n / d` over a positive denominator. */
  predicate IsQuotient(v: real, n: int, d: int) {
    d > 0 && v == n as real / d as real
  }

  /** The reals a `Fraction` can hold. */
  ghost predicate IsRational(v: real) {
    exists n, d :: IsQuotient(v, n, d)
  }

  /** The pair a `Fraction` of value `v` stores: a positive denominator, in lowest terms. */
  ghost predicate IsCanonical(v: real, n: int, d: int) {
    IsQuotient(v, n, d) && Gcd(Abs(n), d) == 1
  }

  /** Every rational has a pair in lowest terms. */
  lemma CanonicalExists(v: real)
    requires IsRational(v)
    ensures exists p: (int, int) :: IsCanonical(v, p.0, p.1)
  {
    var n0, d0 :| IsQuotient(v, n0, d0);
    var n, d := Reduced(n0, d0);
    assert IsCanonical(v, (n, d).0, (n, d).1);
  }

  /** Dividing a pair by its gcd leaves the quotient alone and the pair coprime. */
  lemma Reduced(n0: int, d0: int) returns (n: int, d: int)
    requires d0 > 0
    ensures d > 0 && Gcd(Abs(n), d) == 1
    ensures n as real / d as real == n0 as real / d0 as real
  {
    GcdQuotients(Abs(n0), d0);
    var g := Gcd(Abs(n0), d0);
    var kn: nat, kd: nat := Abs(n0) / g, d0 / g;
    ReducedCoprime(Abs(n0), d0, kn, kd);
    n := if n0 < 0 then -(kn as int) else kn;
    d := kd;
    assert n0 == g * n;
    CancelCommon(n0, d0, g, n, d);
  }

  lemma CancelCommon(n0: int, d0: int, g: int, n: int, d: int)
    requires g > 0 && d > 0 && n0 == g * n && d0 == g * d
    ensures n as real / d as real == n0 as real / d0 as real
  {
    assert n0 as real == g as real * n as real;
    assert d0 as real == g as real * d as real;
    RealCancel(g as real, n as real, d as real);
  }

  lemma RealCancel(g: real, n: real, d: real)
    requires g != 0.0 && d != 0.0
    ensures (g * n) / (g * d) == n / d
  {
  }

  ghost function Pair(v: real): (p: (int, int))
    requires IsRational(v)
    ensures IsCanonical(v, p.0, p.1)
  {
    CanonicalExists(v);
    var p: (int, int) :| IsCanonical(v, p.0, p.1); p
  }

  /** `Fraction.numerator`. */
  ghost function Num(v: real): int
    requires IsRational(v)
  {
    Pair(v).0
  }

  /** `Fraction.denominator`. */
  ghost function Den(v: real): int
    requires IsRational(v)
  {
    Pair(v).1
  }

  /** A fraction is its numerator over its positive denominator, in lowest terms. */
  lemma NumOverDen(v: real)
    requires IsRational(v)
    ensures Den(v) > 0 && v == Num(v) as real / Den(v) as real
    ensures Gcd(Abs(Num(v)), Den(v)) == 1
  {
  }

  /** Any coprime pair over a positive denominator is the stored pair. */
  lemma Canonical(v: real, n: int, d: int)
    requires d > 0 && Gcd(Abs(n), d) == 1 && v == n as real / d as real
    ensures IsRational(v) && Num(v) == n && Den(v) == d
  {
    assert IsQuotient(v, n, d);
    NumOverDen(v);
    PairUnique(n, d, Num(v), Den(v));
  }

  /** Two coprime pairs with the same quotient are equal. */
  lemma PairUnique(n: int, d: int, n': int, d': int)
    requires d > 0 && Gcd(Abs(n), d) == 1 && d' > 0 && Gcd(Abs(n'), d') == 1
    requires n as real / d as real == n' as real / d' as real
    ensures n == n' && d == d'
  {
    CrossMultiply(n, d, n', d');
    DenominatorDivides(n, d, n', d');
    DenominatorDivides(n', d', n, d);
    var k1 := DividesElim(d, d');
    var k2 := DividesElim(d', d);
    MutualMultiples(d, d', k1, k2);
    assert d * n == d * n';
    CancelLeft(d, n, n');
  }

  /** Two positive numbers that are multiples of each other are equal. */
  lemma MutualMultiples(d: int, d': int, k1: int, k2: int)
    requires d > 0 && d' > 0 && d' == d * k1 && d == d' * k2
    ensures d == d'
  {
    PositiveFactor(d, k1, d');
    PositiveFactor(d', k2, d);
    MulAtLeast(d, k1);
    MulAtLeast(d', k2);
  }

  lemma CrossMultiply(a: int, b: int, c: int, d: int)
    requires b > 0 && d > 0
    ensures a as real / b as real == c as real / d as real <==> a * d == c * b
  {
    var x, y, u, v := a as real, b as real, c as real, d as real;
    assert x / y - u / v == (x * v - u * y) / (y * v);
    assert (a * d) as real == x * v;
    assert (c * b) as real == u * y;
  }

  lemma DenominatorDivides(n: int, d: int, n': int, d': int)
    requires d > 0 && Gcd(Abs(n), d) == 1 && n * d' == n' * d
    ensures Divides(d, d')
  {
    var x, y := CoprimeCombination(Abs(n), d);
    var x' := if n < 0 then -x else x;
    assert n * x' + d * y == 1;
    DenominatorMultiple(n, d, n', d', x', y);
    DividesIntro(d, d', n' * x' + d' * y);
  }

  lemma DenominatorMultiple(n: int, d: int, n': int, d': int, x: int, y: int)
    requires n * x + d * y == 1 && n * d' == n' * d
    ensures d' == d * (n' * x + d' * y)
  {
    calc {
      d';
      d' * (n * x + d * y);
      (n * d') * x + d * (d' * y);
      (n' * d) * x + d * (d' * y);
      d * (n' * x + d' * y);
    }
  }

  /** An integer quotient is a fraction. */
  lemma QuotientRational(n: int, d: int)
    requires d != 0
    ensures IsRational(n as real / d as real)
  {
    var v := n as real / d as real;
    if d > 0 {
      assert IsQuotient(v, n, d);
    } else {
      assert v == (-n) as real / (-d) as real;
      assert IsQuotient(v, -n, -d);
    }
  }

  lemma IntRational(n: int)
    ensures IsRational(n as real)
  {
    assert IsQuotient(n as real, n, 1);
  }

  /** Sums, differences, products and quotients of fractions are fractions;
      the result is named by the caller, so that it can be any term equal to it. */
  lemma SumRational(a: real, b: real, c: real)
    requires IsRational(a) && IsRational(b) && (c == a + b || c == a - b)
    ensures IsRational(c)
  {
    var an, ad :| IsQuotient(a, an, ad);
    var bn, bd :| IsQuotient(b, bn, bd);
    if c == a + b {
      SumOfQuotients(an, ad, bn, bd);
      assert IsQuotient(c, an * bd + bn * ad, ad * bd);
    } else {
      SumOfQuotients(an, ad, -bn, bd);
      assert IsQuotient(c, an * bd + -bn * ad, ad * bd);
    }
  }

  lemma ProductRational(a: real, b: real, c: real)
    requires IsRational(a) && IsRational(b) && c == a * b
    ensures IsRational(c)
  {
    var an, ad :| IsQuotient(a, an, ad);
    var bn, bd :| IsQuotient(b, bn, bd);
    ProductOfQuotients(an, ad, bn, bd);
    assert IsQuotient(c, an * bn, ad * bd);
  }

  lemma QuotientOfRationals(a: real, b: real, c: real)
    requires IsRational(a) && IsRational(b) && b != 0.0 && c == a / b
    ensures IsRational(c)
  {
    var an, ad :| IsQuotient(a, an, ad);
    var bn, bd :| IsQuotient(b, bn, bd);
    QuotientOfQuotients(an, ad, bn, bd);
    QuotientRational(an * bd, ad * bn);
  }

  lemma SumOfQuotients(an: int, ad: int, bn: int, bd: int)
    requires ad > 0 && bd > 0
    ensures ad * bd != 0
    ensures (an * bd + bn * ad) as real / (ad * bd) as real
         == an as real / ad as real + bn as real / bd as real
  {
    var x, y, u, v := an as real, ad as real, bn as real, bd as real;
    assert (an * bd + bn * ad) as real == x * v + u * y;
    assert (ad * bd) as real == y * v;
  }

  lemma ProductOfQuotients(an: int, ad: int, bn: int, bd: int)
    requires ad > 0 && bd > 0
    ensures ad * bd != 0
    ensures (an * bn) as real / (ad * bd) as real
         == (an as real / ad as real) * (bn as real / bd as real)
  {
    var x, y, u, v := an as real, ad as real, bn as real, bd as real;
    assert (an * bn) as real == x * u;
    assert (ad * bd) as real == y * v;
  }

  lemma QuotientOfQuotients(an: int, ad: int, bn: int, bd: int)
    requires ad > 0 && bd > 0 && bn as real / bd as real != 0.0
    ensures ad * bn != 0
    ensures (an * bd) as real / (ad * bn) as real
         == (an as real / ad as real) / (bn as real / bd as real)
  {
    var x, y, u, v := an as real, ad as real, bn as real, bd as real;
    assert u != 0.0;
    assert (an * bd) as real == x * v;
    assert (ad * bn) as real == y * u;
  }

  /** The pair of a square is the square of the pair. */
  lemma SquarePair(q: real)
    requires IsRational(q)
    ensures IsRational(q * q)
    ensures Num(q * q) == Num(q) * Num(q) && Den(q * q) == Den(q) * Den(q)
  {
    var n, d := Num(q), Den(q);
    NumOverDen(q);
    CoprimeSquares(Abs(n), d);
    assert Abs(n) * Abs(n) == Abs(n * n);
    ProductOfQuotients(n, d, n, d);
    Canonical(q * q, n * n, d * d);
  }
}

=== FILE: heights.dfy ===
/** `height` of triangle/solver.py and the order `sorted(..., key=height)`
    puts triples in.

    The height of a triple is the pair (lcm of the denominators / gcd of the
    numerators, first entry), compared lexicographically; its first part is
    the factor that scales the triple to integers. */
module Heights {
  import opened Numbers
  import opened Powers
  import opened Fractions
  import opened Results
  import opened Triangles

  /** What `height` returns. */
  datatype Key = Key(h: real, x: real)

  /** Python's ordering of the tuple `(h, x)`. */
  predicate KeyLe(a: Key, b: Key) {
    a.h < b.h || (a.h == b.h && a.x <= b.x)
  }

  /** All three entries are fractions. */
  ghost predicate Rational3(t: Triple) {
    IsRational(t.x) && IsRational(t.y) && IsRational(t.z)
  }

  predicate Integral(v: real) {
    v == v.Floor as real
  }

  /** `n/d` is a fraction in lowest terms with a positive denominator, as
      `Fraction` keeps its numerator and denominator. */
  predicate Reduced(n: int, d: nat) {
    d > 0 && Gcd(Abs(n), d) == 1
  }

  /** The integers that scaling by h makes of x, y and z have no common
      factor. */
  predicate Primitive(x: real, y: real, z: real, h: real) {
    Gcd3(Abs(Times(x, h).Floor), Abs(Times(y, h).Floor), Abs(Times(z, h).Floor)) == 1
  }

  /** `height` on the stored pairs nx/dx, ny/dy, nz/dz and first entry x:
      `Fraction(lcm(dx, dy, dz), gcd(nx, ny, nz))`, which fails when every
      numerator is zero. The result scales every entry to an integer, and
      for pairs in lowest terms the three integers have no common factor,
      which makes it the least such scale (`HeightOfLeast`). */
  function HeightOf(nx: int, dx: nat, ny: int, dy: nat, nz: int, dz: nat, x: real): (res: Result<Key>)
    requires dx > 0 && dy > 0 && dz > 0
    ensures res.Ok? <==> nx != 0 || ny != 0 || nz != 0
    ensures res.Ok? ==> res.value.h > 0.0 && res.value.x == x
    ensures res.Ok? ==> Integral(Times(nx as real / dx as real, res.value.h))
    ensures res.Ok? ==> Integral(Times(ny as real / dy as real, res.value.h))
    ensures res.Ok? ==> Integral(Times(nz as real / dz as real, res.value.h))
    ensures res.Ok? && Reduced(nx, dx) && Reduced(ny, dy) && Reduced(nz, dz) ==>
      Primitive(nx as real / dx as real, ny as real / dy as real, nz as real / dz as real, res.value.h)
  {
    var l := Lcm(Lcm(dx, dy), dz);
    var g := Gcd3(Abs(nx), Abs(ny), Abs(nz));
    GcdZero(Abs(nx), Abs(ny), Abs(nz));
    if g == 0 then DivByZero
    else
      LcmDivides(dx, dy, dz);
      GcdDivides3(Abs(nx), Abs(ny), Abs(nz));
      ScaledIntegral(nx, dx, l, g);
      ScaledIntegral(ny, dy, l, g);
      ScaledIntegral(nz, dz, l, g);
      if Reduced(nx, dx) && Reduced(ny, dy) && Reduced(nz, dz) then
        ScalePrimitive(nx, dx, ny, dy, nz, dz);
        Ok(Key(l as real / g as real, x))
      else
        Ok(Key(l as real / g as real, x))
  }

  /** Every positive rational scale p/q that makes the three reduced
      entries integers is an integer multiple of the height: the height is
      the least such scale. */
  lemma HeightOfLeast(nx: int, dx: nat, ny: int, dy: nat, nz: int, dz: nat, x: real, p: nat, q: nat)
    requires Reduced(nx, dx) && Reduced(ny, dy) && Reduced(nz, dz) && (nx != 0 || ny != 0 || nz != 0)
    requires p > 0 && q > 0
    requires Integral(Times(nx as real / dx as real, p as real / q as real))
    requires Integral(Times(ny as real / dy as real, p as real / q as real))
    requires Integral(Times(nz as real / dz as real, p as real / q as real))
    ensures HeightOf(nx, dx, ny, dy, nz, dz, x).Ok?
    ensures Integral((p as real / q as real) / HeightOf(nx, dx, ny, dy, nz, dz, x).value.h)
  {
    ScaleDivides(nx, dx, p, q);
    ScaleDivides(ny, dy, p, q);
    ScaleDivides(nz, dz, p, q);
    ScaleLeast(nx, dx, ny, dy, nz, dz, p, q);
    var l := Lcm(Lcm(dx, dy), dz);
    var g := Gcd3(Abs(nx), Abs(ny), Abs(nz));
    GcdZero(Abs(nx), Abs(ny), Abs(nz));
    assert HeightOf(nx, dx, ny, dy, nz, dz, x).value.h == l as real / g as real;
    QuotientIntegral(p, q, l, g);
  }

  /** n/d scaled by p/q is an integer exactly when q d divides p n. */
  lemma ScaleDivides(n: int, d: nat, p: nat, q: nat)
    requires d > 0 && q > 0 && Integral(Times(n as real / d as real, p as real / q as real))
    ensures Divides(q * d, p * n)
  {
    assert Times(n as real / d as real, p as real / q as real) == (p * n) as real / (q * d) as real;
    IntegralDivides(p * n, q * d);
  }

  lemma IntegralDivides(a: int, b: nat)
    requires b > 0 && Integral(a as real / b as real)
    ensures Divides(b, a)
  {
    var k := (a as real / b as real).Floor;
    assert a as real == b as real * k as real;
    assert a == b * k;
    DividesIntro(b, a, k);
  }

  /** (p/q) / (l/g) is an integer when q l divides p g. */
  lemma QuotientIntegral(p: nat, q: nat, l: nat, g: nat)
    requires q > 0 && l > 0 && g > 0 && Divides(q * l, p * g)
    ensures Integral((p as real / q as real) / (l as real / g as real))
  {
    var k := DividesElim(q * l, p * g);
    assert (p as real / q as real) / (l as real / g as real) == (p * g) as real / (q * l) as real;
    assert (p * g) as real == (q * l) as real * k as real;
    assert (p * g) as real / (q * l) as real == k as real;
  }

  /** `gcd(a, b, c)` is zero only when all three are. */
  lemma GcdZero(a: nat, b: nat, c: nat)
    ensures Gcd3(a, b, c) == 0 <==> a == 0 && b == 0 && c == 0
  {
    if a != 0 || b != 0 {
      GcdPositive(a, b);
      GcdPositive(Gcd(a, b), c);
    } else if c != 0 {
      GcdPositive(Gcd(a, b), c);
    }
  }

  lemma LcmDivides(a: nat, b: nat, c: nat)
    requires a > 0 && b > 0 && c > 0
    ensures Divides(a, Lcm(Lcm(a, b), c)) && Divides(b, Lcm(Lcm(a, b), c)) && Divides(c, Lcm(Lcm(a, b), c))
  {
    DividesTrans(a, Lcm(a, b), Lcm(Lcm(a, b), c));
    DividesTrans(b, Lcm(a, b), Lcm(Lcm(a, b), c));
  }

  /** The integer n/d becomes when scaled by l/g, for d dividing l and g dividing n. */
  function ScaledEntry(n: int, d: nat, l: nat, g: nat): int
    requires d > 0 && g > 0
  {
    (n / g) * (l / d)
  }

  /** n/d scaled by l/g is an integer when d divides l and g divides n. */
  lemma ScaledIntegral(n: int, d: nat, l: nat, g: nat)
    requires d > 0 && g > 0 && Divides(d, l) && Divides(g, Abs(n))
    ensures Times(n as real / d as real, l as real / g as real) == ScaledEntry(n, d, l, g) as real
    ensures Integral(Times(n as real / d as real, l as real / g as real))
  {
    DividesQuotient(d, l);
    DividesAbs(g, n);
    DividesQuotient(g, n);
    var k, m := l / d, n / g;
    assert Times(n as real / d as real, l as real / g as real) == (m * k) as real by {
      CancelScale(g as real, m as real, d as real, k as real);
    }
  }

  lemma CancelScale(g: real, m: real, d: real, k: real)
    requires g != 0.0 && d != 0.0
    ensures Times((g * m) / d, (d * k) / g) == m * k
  {
  }

  /** The scale p/q makes the reduced n/d an integer only when d divides p
      and the reduced q divides n. */
  lemma EntryScale(n: int, d: nat, e: nat, p: nat, q: nat)
    requires Reduced(n, d) && e > 0 && Gcd(p, q) == 1
    requires Divides((e * q) * d, (e * p) * n)
    ensures Divides(d, p) && Divides(q, Abs(n))
  {
    MulAssoc(e, q, d);
    MulAssoc(e, p, n);
    DividesCancel(e, q * d, p * n);
    DividesMultiple(d, q);
    DividesTrans(d, q * d, p * n);
    DividesAbs(d, p * n);
    AbsProduct(p, n);
    CoprimeSymmetric(Abs(n), d);
    CoprimeDivides(d, Abs(n), p);
    DividesMultiple(q, d);
    DividesTrans(q, q * d, p * n);
    CoprimeSymmetric(p, q);
    CoprimeDivides(q, p, n);
    DividesAbs(q, n);
  }

  /** Integer form of `HeightOfLeast`: a scale p/q that makes every entry
      an integer is a multiple of lcm(dx, dy, dz) / gcd(nx, ny, nz). */
  lemma ScaleLeast(nx: int, dx: nat, ny: int, dy: nat, nz: int, dz: nat, p: nat, q: nat)
    requires Reduced(nx, dx) && Reduced(ny, dy) && Reduced(nz, dz) && p > 0 && q > 0
    requires Divides(q * dx, p * nx) && Divides(q * dy, p * ny) && Divides(q * dz, p * nz)
    ensures Divides(q * Lcm(Lcm(dx, dy), dz), p * Gcd3(Abs(nx), Abs(ny), Abs(nz)))
  {
    var e := Gcd(p, q);
    GcdQuotients(p, q);
    var p', q' := p / e, q / e;
    ReducedCoprime(p, q, p', q');
    EntryScale(nx, dx, e, p', q');
    EntryScale(ny, dy, e, p', q');
    EntryScale(nz, dz, e, p', q');
    var l := Lcm(Lcm(dx, dy), dz);
    var g := Gcd3(Abs(nx), Abs(ny), Abs(nz));
    assert Divides(Lcm(dx, dy), p');
    assert Divides(l, p');
    GcdGreatest(q', Abs(nx), Abs(ny));
    GcdGreatest(q', Gcd(Abs(nx), Abs(ny)), Abs(nz));
    DividesProduct(l, p', q', g);
    DividesProduct(e, e, l * q', p' * g);
    ScaleRegroup(e, l, q', p', g, p, q);
  }

  lemma ScaleRegroup(e: int, l: int, q': int, p': int, g: int, p: int, q: int)
    requires p == e * p' && q == e * q'
    ensures e * (l * q') == q * l && e * (p' * g) == p * g
  {
  }

  /** For pairs in lowest terms, the integers lcm/gcd makes of the
      entries have no common factor. */
  lemma ScalePrimitive(nx: int, dx: nat, ny: int, dy: nat, nz: int, dz: nat)
    requires Reduced(nx, dx) && Reduced(ny, dy) && Reduced(nz, dz)
    requires nx != 0 || ny != 0 || nz != 0
    ensures Gcd3(Abs(nx), Abs(ny), Abs(nz)) > 0
    ensures Gcd3(Abs(ScaledEntry(nx, dx, Lcm(Lcm(dx, dy), dz), Gcd3(Abs(nx), Abs(ny), Abs(nz)))),
                 Abs(ScaledEntry(ny, dy, Lcm(Lcm(dx, dy), dz), Gcd3(Abs(nx), Abs(ny), Abs(nz)))),
                 Abs(ScaledEntry(nz, dz, Lcm(Lcm(dx, dy), dz), Gcd3(Abs(nx), Abs(ny), Abs(nz))))) == 1
  {
    var l := Lcm(Lcm(dx, dy), dz);
    var g := Gcd3(Abs(nx), Abs(ny), Abs(nz));
    GcdZero(Abs(nx), Abs(ny), Abs(nz));
    LcmDivides(dx, dy, dz);
    GcdDivides3(Abs(nx), Abs(ny), Abs(nz));
    var sx, sy, sz := ScaledEntry(nx, dx, l, g), ScaledEntry(ny, dy, l, g), ScaledEntry(nz, dz, l, g);
    EntryNonZero(nx, dx, l, g);
    EntryNonZero(ny, dy, l, g);
    EntryNonZero(nz, dz, l, g);
    var c := Gcd3(Abs(sx), Abs(sy), Abs(sz));
    GcdZero(Abs(sx), Abs(sy), Abs(sz));
    GcdDivides3(Abs(sx), Abs(sy), Abs(sz));
    EntryMultiple(nx, dx, l, g, c);
    EntryMultiple(ny, dy, l, g, c);
    EntryMultiple(nz, dz, l, g, c);
    ScaleLeast(nx, dx, ny, dy, nz, dz, l, g * c);
    CommonFactorOne(g, l, c);
  }

  lemma CommonFactorOne(g: nat, l: nat, c: nat)
    requires g > 0 && l > 0 && Divides((g * c) * l, l * g)
    ensures c == 1
  {
    var k := DividesElim((g * c) * l, l * g);
    var gl := g * l;
    assert l * g == gl && (g * c) * l == gl * c;
    assert gl * 1 == gl * (c * k);
    CancelLeft(gl, 1, c * k);
    DividesIntro(c, 1, k);
    DividesOne(c);
  }

  lemma EntryNonZero(n: int, d: nat, l: nat, g: nat)
    requires d > 0 && g > 0 && l > 0 && Divides(d, l) && Divides(g, Abs(n))
    ensures ScaledEntry(n, d, l, g) == 0 <==> n == 0
  {
    DividesQuotient(d, l);
    DividesAbs(g, n);
    DividesQuotient(g, n);
    ProductZero(n / g, l / d);
  }

  /** The integer counterpart of `Curve.ProductZero`, which is over reals. */
  lemma ProductZero(a: int, b: int)
    ensures a * b == 0 <==> a == 0 || b == 0
  {
  }

  /** A common factor c of the scaled entries makes g c d divide l n. */
  lemma EntryMultiple(n: int, d: nat, l: nat, g: nat, c: nat)
    requires d > 0 && g > 0 && Divides(d, l) && Divides(g, Abs(n)) && Divides(c, Abs(ScaledEntry(n, d, l, g)))
    ensures Divides((g * c) * d, l * n)
  {
    DividesQuotient(d, l);
    DividesAbs(g, n);
    DividesQuotient(g, n);
    DividesAbs(c, ScaledEntry(n, d, l, g));
    var t := DividesElim(c, ScaledEntry(n, d, l, g));
    var k, m := l / d, n / g;
    EntryRegroup(n, d, l, g, c, k, m, t);
    DividesIntro((g * c) * d, l * n, t);
  }

  lemma EntryRegroup(n: int, d: int, l: int, g: int, c: int, k: int, m: int, t: int)
    requires l == d * k && n == g * m && m * k == c * t
    ensures l * n == ((g * c) * d) * t
  {
    calc {
      l * n;
      (d * k) * (g * m);
      (g * d) * (m * k);
      (g * d) * (c * t);
      ((g * c) * d) * t;
    }
  }

  /** `height` of a triple of fractions. */
  ghost function Height(t: Triple): (res: Result<Key>)
    requires Rational3(t)
    ensures res.Ok? <==> t != Triple(0.0, 0.0, 0.0)
    ensures res.Ok? ==> res.value.h > 0.0 && res.value.x == t.x
    ensures res.Ok? ==> Integral(Times(t.x, res.value.h)) && Integral(Times(t.y, res.value.h)) && Integral(Times(t.z, res.value.h))
    ensures res.Ok? ==> Primitive(t.x, t.y, t.z, res.value.h)
  {
    NumZero(t.x);
    NumZero(t.y);
    NumZero(t.z);
    HeightOf(Num(t.x), Den(t.x), Num(t.y), Den(t.y), Num(t.z), Den(t.z), t.x)
  }

  lemma NumZero(v: real)
    requires IsRational(v)
    ensures Den(v) > 0 && v == Num(v) as real / Den(v) as real && Reduced(Num(v), Den(v))
    ensures Num(v) == 0 <==> v == 0.0
  {
    NumOverDen(v);
  }

  /** The height of a triple is the least positive scale that makes its
      entries integers: every other one is an integer multiple of it. */
  lemma HeightLeast(t: Triple, p: nat, q: nat)
    requires Rational3(t) && t != Triple(0.0, 0.0, 0.0) && p > 0 && q > 0
    requires Integral(Times(t.x, p as real / q as real))
    requires Integral(Times(t.y, p as real / q as real))
    requires Integral(Times(t.z, p as real / q as real))
    ensures Height(t).Ok? && Integral((p as real / q as real) / Height(t).value.h)
  {
    NumZero(t.x);
    NumZero(t.y);
    NumZero(t.z);
    HeightOfLeast(Num(t.x), Den(t.x), Num(t.y), Den(t.y), Num(t.z), Den(t.z), t.x, p, q);
  }

  /** The triples whose height is defined. */
  ghost predicate HasHeight(t: Triple) {
    Rational3(t) && Height(t).Ok?
  }

  /** A triple with the key `sorted` compares it by. */
  datatype Entry = Entry(key: Key, t: Triple)

  /** In ascending order of key. */
  predicate SortedKeys(es: seq<Entry>) {
    forall i, j :: 0 <= i < j < |es| ==> KeyLe(es[i].key, es[j].key)
  }

  /** Insert `e` before the first entry whose key is not below its own, so
      that entries with equal keys keep their order. */
  function Insert(e: Entry, es: seq<Entry>): (res: seq<Entry>)
    ensures multiset(res) == multiset(es) + multiset{e}
    ensures SortedKeys(es) ==> SortedKeys(res)
  {
    if |es| == 0 then [e]
    else if KeyLe(e.key, es[0].key) then [e] + es
    else
      var rest := Insert(e, es[1..]);
      assert es == [es[0]] + es[1..];
      InsertAfter(e, es, rest);
      [es[0]] + rest
  }

  /** Inserting an entry adds its triple to the triples. */
  lemma {:induction false} InsertTriples(e: Entry, es: seq<Entry>)
    ensures multiset(Triples(Insert(e, es))) == multiset(Triples(es)) + multiset{e.t}
  {
    if |es| == 0 {
    } else if KeyLe(e.key, es[0].key) {
      assert Triples([e] + es) == [e.t] + Triples(es);
    } else {
      InsertTriples(e, es[1..]);
      assert Triples(es) == [es[0].t] + Triples(es[1..]);
      assert Triples([es[0]] + Insert(e, es[1..])) == [es[0].t] + Triples(Insert(e, es[1..]));
    }
  }

  lemma InsertAfter(e: Entry, es: seq<Entry>, rest: seq<Entry>)
    requires |es| > 0 && !KeyLe(e.key, es[0].key) && es == [es[0]] + es[1..]
    requires multiset(rest) == multiset(es[1..]) + multiset{e}
    requires SortedKeys(es[1..]) ==> SortedKeys(rest)
    ensures SortedKeys(es) ==> SortedKeys([es[0]] + rest)
  {
    if SortedKeys(es) {
      forall j | 0 <= j < |rest|
        ensures KeyLe(es[0].key, rest[j].key)
      {
        assert rest[j] in multiset(rest);
        if rest[j] != e {
          assert rest[j] in multiset(es[1..]);
          var k :| 0 <= k < |es[1..]| && es[1..][k] == rest[j];
        }
      }
    }
  }

  /** The entries with key k, in their order. */
  function WithKey(es: seq<Entry>, k: Key): seq<Entry> {
    if |es| == 0 then []
    else (if es[0].key == k then [es[0]] else []) + WithKey(es[1..], k)
  }

  /** `Insert` puts e before every entry with its key. */
  lemma {:induction false} InsertWithKey(e: Entry, es: seq<Entry>, k: Key)
    ensures WithKey(Insert(e, es), k) == (if e.key == k then [e] else []) + WithKey(es, k)
  {
    if |es| == 0 {
    } else if KeyLe(e.key, es[0].key) {
      assert Insert(e, es) == [e] + es;
      WithKeyCons(e, es, k);
    } else {
      var rest := Insert(e, es[1..]);
      assert Insert(e, es) == [es[0]] + rest;
      InsertWithKey(e, es[1..], k);
      assert es == [es[0]] + es[1..];
      assert !(es[0].key == k && e.key == k);
      WithKeyBehind(e, es[0], rest, es[1..], k);
    }
  }

  /** An entry of another key passes in front of e without changing what
      either key selects. */
  lemma WithKeyBehind(e: Entry, x: Entry, rest: seq<Entry>, tail: seq<Entry>, k: Key)
    requires !(x.key == k && e.key == k)
    requires WithKey(rest, k) == (if e.key == k then [e] else []) + WithKey(tail, k)
    ensures WithKey([x] + rest, k) == (if e.key == k then [e] else []) + WithKey([x] + tail, k)
  {
    WithKeyCons(x, rest, k);
    WithKeyCons(x, tail, k);
  }

  lemma WithKeyCons(e: Entry, es: seq<Entry>, k: Key)
    ensures WithKey([e] + es, k) == (if e.key == k then [e] else []) + WithKey(es, k)
  {
    assert ([e] + es)[1..] == es;
  }

  /** An insertion sort by key: `sorted(..., key=...)`. It is stable: the
      entries with any one key keep their order. */
  function SortEntries(es: seq<Entry>): (res: seq<Entry>)
    ensures multiset(res) == multiset(es)
    ensures SortedKeys(res)
    ensures forall k :: WithKey(res, k) == WithKey(es, k)
  {
    if |es| == 0 then []
    else
      assert es == [es[0]] + es[1..];
      var rest := SortEntries(es[1..]);
      InsertAllKeys(es[0], es, rest);
      Insert(es[0], rest)
  }

  lemma InsertAllKeys(e: Entry, es: seq<Entry>, rest: seq<Entry>)
    requires |es| > 0 && e == es[0] && forall k :: WithKey(rest, k) == WithKey(es[1..], k)
    ensures forall k :: WithKey(Insert(e, rest), k) == WithKey(es, k)
  {
    forall k
      ensures WithKey(Insert(e, rest), k) == WithKey(es, k)
    {
      InsertWithKey(e, rest, k);
    }
  }

  /** Sorting permutes the triples. */
  lemma {:induction false} SortTriples(es: seq<Entry>)
    ensures multiset(Triples(SortEntries(es))) == multiset(Triples(es))
  {
    if |es| != 0 {
      SortTriples(es[1..]);
      InsertTriples(es[0], SortEntries(es[1..]));
      assert Triples(es) == [es[0].t] + Triples(es[1..]);
    }
  }

  function Triples(es: seq<Entry>): (ts: seq<Triple>)
    ensures |ts| == |es| && forall i :: 0 <= i < |es| ==> ts[i] == es[i].t
  {
    if |es| == 0 then [] else [es[0].t] + Triples(es[1..])
  }

  /** Every entry's key is its triple's height. */
  ghost predicate KeyedByHeight(es: seq<Entry>) {
    forall i :: 0 <= i < |es| ==> HasHeight(es[i].t) && es[i].key == Height(es[i].t).value
  }

  /** The triples paired with their heights, in order; the first triple
      without a height fails the whole call. */
  ghost function Keyed(ts: seq<Triple>): (res: Result<seq<Entry>>)
    requires forall i :: 0 <= i < |ts| ==> Rational3(ts[i])
    ensures res.Ok? <==> forall i :: 0 <= i < |ts| ==> ts[i] != Triple(0.0, 0.0, 0.0)
    ensures res.Ok? ==> Triples(res.value) == ts && KeyedByHeight(res.value)
  {
    if |ts| == 0 then Ok([])
    else
      var k :- Height(ts[0]);
      var rest :- Keyed(ts[1..]);
      assert Triples([Entry(k, ts[0])] + rest) == ts;
      Ok([Entry(k, ts[0])] + rest)
  }

  /** The triples whose height is k, in their order. */
  ghost function WithHeight(ts: seq<Triple>, k: Key): seq<Triple> {
    if |ts| == 0 then []
    else (if HasHeight(ts[0]) && Height(ts[0]).value == k then [ts[0]] else []) + WithHeight(ts[1..], k)
  }

  lemma {:induction false} KeyedWithHeight(es: seq<Entry>, k: Key)
    requires KeyedByHeight(es)
    ensures WithHeight(Triples(es), k) == Triples(WithKey(es, k))
  {
    if |es| > 0 {
      KeyedWithHeight(es[1..], k);
      assert Triples(es)[1..] == Triples(es[1..]);
      if es[0].key == k {
        assert Triples([es[0]] + WithKey(es[1..], k)) == [es[0].t] + Triples(WithKey(es[1..], k));
      }
    }
  }

  /** `sorted(ts, key=height)`: fails where a height does, and otherwise
      holds the same triples in ascending order of height, triples of equal
      height in their input order. */
  ghost function SortByHeight(ts: seq<Triple>): (res: Result<seq<Triple>>)
    requires forall i :: 0 <= i < |ts| ==> Rational3(ts[i])
    ensures res.Ok? <==> forall i :: 0 <= i < |ts| ==> ts[i] != Triple(0.0, 0.0, 0.0)
    ensures res.Ok? ==> multiset(res.value) == multiset(ts)
    ensures res.Ok? ==> forall i, j :: 0 <= i < j < |res.value| ==>
      HasHeight(res.value[i]) && HasHeight(res.value[j]) && KeyLe(Height(res.value[i]).value, Height(res.value[j]).value)
    ensures res.Ok? ==> forall k :: WithHeight(res.value, k) == WithHeight(ts, k)
  {
    var es :- Keyed(ts);
    var sorted := SortEntries(es);
    SortTriples(es);
    SortedTriples(es, sorted);
    SortedStable(es, sorted);
    Ok(Triples(sorted))
  }

  lemma SortedStable(es: seq<Entry>, sorted: seq<Entry>)
    requires KeyedByHeight(es) && multiset(sorted) == multiset(es)
    requires forall k :: WithKey(sorted, k) == WithKey(es, k)
    ensures forall k :: WithHeight(Triples(sorted), k) == WithHeight(Triples(es), k)
  {
    KeyedPermutation(es, sorted);
    forall k
      ensures WithHeight(Triples(sorted), k) == WithHeight(Triples(es), k)
    {
      KeyedWithHeight(es, k);
      KeyedWithHeight(sorted, k);
    }
  }

  lemma KeyedPermutation(es: seq<Entry>, sorted: seq<Entry>)
    requires KeyedByHeight(es) && multiset(sorted) == multiset(es)
    ensures KeyedByHeight(sorted)
  {
    forall i | 0 <= i < |sorted|
      ensures HasHeight(sorted[i].t) && sorted[i].key == Height(sorted[i].t).value
    {
      assert sorted[i] in multiset(es);
      var k :| 0 <= k < |es| && es[k] == sorted[i];
    }
  }

  lemma SortedTriples(es: seq<Entry>, sorted: seq<Entry>)
    requires KeyedByHeight(es) && multiset(sorted) == multiset(es) && SortedKeys(sorted)
    ensures forall i, j :: 0 <= i < j < |sorted| ==>
      HasHeight(sorted[i].t) && HasHeight(sorted[j].t) && KeyLe(Height(sorted[i].t).value, Height(sorted[j].t).value)
  {
    forall i | 0 <= i < |sorted|
      ensures HasHeight(sorted[i].t) && sorted[i].key == Height(sorted[i].t).value
    {
      assert sorted[i] in multiset(es);
      var k :| 0 <= k < |es| && es[k] == sorted[i];
    }
  }
}

=== FILE: keys.dfy ===
/** The order-preserving key maps of misc/radix.c that let `rsort` sort
    signed integers (`s2u_u2s`, `rsorts`) and IEEE-754 single-precision bit
    patterns (`f2u`, `u2f`).

    Conversions between `s32` and `u32` are the two's-complement ones of the
    platforms the code targets: the same 32 bits read the other way. */
module Keys {
  import opened Words
  import opened Radix

  /** Reading the bits of an unsigned value as a signed one. */
  function AsSigned(u: u32): (v: s32)
    ensures v % 0x1_0000_0000 == u
  {
    if u < 0x8000_0000 then u else u - 0x1_0000_0000
  }

  /** `s2u_u2s(v)`: `v + 0x80000000` in unsigned 32-bit arithmetic. The
      sum never wraps: the key of v is v moved up by 2^31. */
  function S2U(v: s32): (k: u32)
    ensures k == v + 0x8000_0000
  {
    (v + 0x8000_0000) % 0x1_0000_0000
  }

  /** What `rsorts` stores back: the sorted unsigned value passed to
      `s2u_u2s` as a signed argument, its result stored as signed. Every
      unsigned value is the key of the value it restores to. */
  function Restore(u: u32): (v: s32)
    ensures S2U(v) == u
  {
    AsSigned(S2U(AsSigned(u)))
  }

  /** The key map preserves and reflects signed order. */
  lemma S2UOrder(v: s32, w: s32)
    ensures v <= w <==> S2U(v) <= S2U(w)
  {
  }

  /** Applying `s2u_u2s` twice, as `rsorts` does, gives the value back. */
  lemma RestoreS2U(v: s32)
    ensures Restore(S2U(v)) == v
  {
  }

  /** Restoring preserves order, so sorted keys restore to sorted values. */
  lemma RestoreOrder(u: u32, w: u32)
    ensures u <= w <==> Restore(u) <= Restore(w)
  {
    S2UOrder(Restore(u), Restore(w));
  }

  /** The first loop of `rsorts`: the key of every element. */
  function ToKeys(arr: seq<s32>): (us: seq<u32>)
    ensures |us| == |arr| && forall i :: 0 <= i < |arr| ==> us[i] == S2U(arr[i])
  {
    if |arr| == 0 then [] else [S2U(arr[0])] + ToKeys(arr[1..])
  }

  /** The second loop of `rsorts`: the value of every sorted key. */
  function FromKeys(us: seq<u32>): (vs: seq<s32>)
    ensures |vs| == |us| && forall i :: 0 <= i < |us| ==> vs[i] == Restore(us[i])
  {
    if |us| == 0 then [] else [Restore(us[0])] + FromKeys(us[1..])
  }

  lemma {:induction false} ToKeysCounts(arr: seq<s32>, u: u32)
    ensures multiset(ToKeys(arr))[u] == multiset(arr)[Restore(u)]
  {
    if |arr| > 0 {
      ToKeysCounts(arr[1..], u);
      assert arr == [arr[0]] + arr[1..];
      RestoreS2U(arr[0]);
    }
  }

  lemma {:induction false} FromKeysCounts(us: seq<u32>, v: s32)
    ensures multiset(FromKeys(us))[v] == multiset(us)[S2U(v)]
  {
    if |us| > 0 {
      FromKeysCounts(us[1..], v);
      assert us == [us[0]] + us[1..];
      RestoreS2U(v);
    }
  }

  predicate SortedSigned(vs: seq<s32>) {
    forall i, j :: 0 <= i < j < |vs| ==> vs[i] <= vs[j]
  }

  /** `rsorts(arr, len)`: the input in ascending signed order. */
  method Rsorts(arr: seq<s32>) returns (res: seq<s32>)
    ensures multiset(res) == multiset(arr)
    ensures SortedSigned(res)
  {
    var keys := ToKeys(arr);
    var sorted := Rsort(keys);
    res := FromKeys(sorted);
    RestoredPermutation(arr, sorted);
    RestoredSorted(sorted);
  }

  lemma RestoredPermutation(arr: seq<s32>, sorted: seq<u32>)
    requires multiset(sorted) == multiset(ToKeys(arr))
    ensures multiset(FromKeys(sorted)) == multiset(arr)
  {
    var res: seq<s32> := FromKeys(sorted);
    forall v: s32
      ensures multiset(res)[v] == multiset(arr)[v]
    {
      FromKeysCounts(sorted, v);
      ToKeysCounts(arr, S2U(v));
      RestoreS2U(v);
    }
    assert multiset(res) == multiset(arr);
  }

  lemma RestoredSorted(sorted: seq<u32>)
    requires Sorted(sorted)
    ensures SortedSigned(FromKeys(sorted))
  {
    var res: seq<s32> := FromKeys(sorted);
    forall i, j | 0 <= i < j < |res|
      ensures res[i] <= res[j]
    {
      RestoreOrder(sorted[i], sorted[j]);
    }
  }

  // Float keys, on the 32 bits of a single-precision value.

  const SignBit: bv32 := 0x8000_0000

  /** `(s32)r >> 31`: every bit a copy of the sign bit. */
  function SignFill(r: bv32): bv32 {
    if r & SignBit == 0 then 0 else 0xFFFF_FFFF
  }

  predicate Negative(r: bv32) {
    r & SignBit != 0
  }

  /** `f2u`: the key of a float's bit pattern. The arithmetic shift makes
      it flip every bit of a negative pattern and only the sign bit of a
      non-negative one. */
  function F2U(r: bv32): bv32 {
    r ^ (SignFill(r) | SignBit)
  }

  /** `u2f`: the bit pattern of a key; the mask is taken from the
      complemented key, so it flips only the sign bit of a key with the
      sign bit set and every bit of one without. */
  function U2F(k: bv32): bv32 {
    k ^ (SignFill(!k) | SignBit)
  }

  lemma F2UNonNegative(r: bv32)
    requires !Negative(r)
    ensures F2U(r) == r ^ SignBit && Negative(F2U(r))
  {
  }

  lemma F2UNegative(r: bv32)
    requires Negative(r)
    ensures F2U(r) == !r && !Negative(F2U(r))
  {
  }

  /** `u2f` undoes `f2u`, and `f2u` undoes `u2f`. */
  lemma FloatKeyRoundTrip(r: bv32, k: bv32)
    ensures U2F(F2U(r)) == r
    ensures F2U(U2F(k)) == k
  {
    U2FUndoesF2U(r);
    F2UUndoesU2F(k);
  }

  lemma U2FUndoesF2U(r: bv32)
    ensures U2F(F2U(r)) == r
  {
    if Negative(r) {
      F2UNegative(r);
      U2FNonNegative(F2U(r));
    } else {
      F2UNonNegative(r);
      U2FNegative(F2U(r));
    }
  }

  lemma F2UUndoesU2F(k: bv32)
    ensures F2U(U2F(k)) == k
  {
    if Negative(k) {
      U2FNegative(k);
      F2UNonNegative(U2F(k));
    } else {
      U2FNonNegative(k);
      F2UNegative(U2F(k));
    }
  }

  lemma U2FNegative(k: bv32)
    requires Negative(k)
    ensures U2F(k) == k ^ SignBit && !Negative(U2F(k))
  {
  }

  lemma U2FNonNegative(k: bv32)
    requires !Negative(k)
    ensures U2F(k) == !k && Negative(U2F(k))
  {
  }

  /** The magnitude bits; IEEE-754 orders the magnitudes of finite values
      and infinities like these bits read as an unsigned number. */
  function Magnitude(r: bv32): bv32 {
    r & 0x7FFF_FFFF
  }

  /** The value of pattern r is below that of pattern s, for patterns that
      are not NaNs: negative values below non-negative ones except that the
      two zeros are equal, larger magnitudes lower among negative values. */
  predicate FloatBelow(r: bv32, s: bv32) {
    if Negative(r) && Negative(s) then Magnitude(s) < Magnitude(r)
    else if Negative(r) then Magnitude(r) != 0 || Magnitude(s) != 0
    else if Negative(s) then false
    else Magnitude(r) < Magnitude(s)
  }

  /** A smaller value gets a smaller key, so `rsort` on keys sorts floats. */
  lemma F2UOrder(r: bv32, s: bv32)
    requires FloatBelow(r, s)
    ensures F2U(r) < F2U(s)
  {
    if Negative(r) && Negative(s) {
      F2UNegative(r);
      F2UNegative(s);
      BothNegative(r, s);
    } else if Negative(r) {
      F2UNegative(r);
      F2UNonNegative(s);
      MixedSigns(r, s);
    } else {
      F2UNonNegative(r);
      F2UNonNegative(s);
      BothNonNegative(r, s);
    }
  }

  lemma BothNonNegative(r: bv32, s: bv32)
    requires !Negative(r) && !Negative(s) && Magnitude(r) < Magnitude(s)
    ensures r ^ SignBit < s ^ SignBit
  {
  }

  lemma BothNegative(r: bv32, s: bv32)
    requires Negative(r) && Negative(s) && Magnitude(s) < Magnitude(r)
    ensures !r < !s
  {
  }

  lemma MixedSigns(r: bv32, s: bv32)
    requires Negative(r) && !Negative(s)
    ensures !r < s ^ SignBit
  {
  }
}

=== FILE: listing.dfy ===
/** The listing at the end of `main` in triangle/lookup.py: every triangle
    stored under the key of the input triangle, rescaled to the input's
    semiperimeter, ordered by first side and printed as fractions, then the
    count. The lines are returned rather than printed. */
module Listing {
  import opened Numbers
  import opened Fractions
  import opened Results
  import opened Lookup
  import opened Decimal

  /** `_s = Fraction(sum(sides), 2)`, `ratio = s / _s` and
      `[ratio * x for x in sides]`: the triangle scaled to semiperimeter s.
      Dividing by a zero semiperimeter raises. */
  function Rescale(s: real, t: Sides): (res: Result<seq<real>>)
    ensures res.Ok? <==> t.a + t.b + t.c != 0
    ensures res.Ok? ==> |res.value| == 3
    ensures res.Ok? ==> (res.value[0] + res.value[1] + res.value[2]) / 2.0 == s
    ensures res.Ok? ==>
      && Times(res.value[0], Semi(t)) == Times(s, t.a as real)
      && Times(res.value[1], Semi(t)) == Times(s, t.b as real)
      && Times(res.value[2], Semi(t)) == Times(s, t.c as real)
  {
    if Semi(t) == 0.0 then DivByZero
    else
      RescaleSides(s, Semi(t), t.a as real, t.b as real, t.c as real);
      Ok(ScaleBy(s / Semi(t), t))
  }

  /** The sides, each multiplied by `ratio`. */
  function ScaleBy(ratio: real, t: Sides): (row: seq<real>)
    ensures |row| == 3
  {
    [Times(ratio, t.a as real), Times(ratio, t.b as real), Times(ratio, t.c as real)]
  }

  lemma RescaleSides(s: real, semi: real, a: real, b: real, c: real)
    requires semi != 0.0 && semi == (a + b + c) / 2.0
    ensures (Times(s / semi, a) + Times(s / semi, b) + Times(s / semi, c)) / 2.0 == s
    ensures Times(Times(s / semi, a), semi) == Times(s, a)
    ensures Times(Times(s / semi, b), semi) == Times(s, b)
    ensures Times(Times(s / semi, c), semi) == Times(s, c)
  {
    var ratio := s / semi;
    assert ratio * a + ratio * b + ratio * c == ratio * (a + b + c);
    assert ratio * semi == s;
  }

  /** A rescaled rational triangle has rational sides. */
  lemma RescaleRational(s: real, t: Sides)
    requires IsRational(s) && Rescale(s, t).Ok?
    ensures forall i :: 0 <= i < 3 ==> IsRational(Rescale(s, t).value[i])
  {
    QuotientRational(t.a + t.b + t.c, 2);
    assert Semi(t) == (t.a + t.b + t.c) as real / 2 as real;
    QuotientOfRationals(s, Semi(t), s / Semi(t));
    ScaleByRational(s / Semi(t), t);
  }

  lemma ScaleByRational(ratio: real, t: Sides)
    requires IsRational(ratio)
    ensures forall i :: 0 <= i < 3 ==> IsRational(ScaleBy(ratio, t)[i])
  {
    IntRational(t.a);
    IntRational(t.b);
    IntRational(t.c);
    ProductRational(ratio, t.a as real, Times(ratio, t.a as real));
    ProductRational(ratio, t.b as real, Times(ratio, t.b as real));
    ProductRational(ratio, t.c as real, Times(ratio, t.c as real));
  }

  /** The loop that fills `final`, one rescaled row per triangle, in the
      order the set yields them; the first zero semiperimeter fails it. */
  function RescaleAll(s: real, ts: seq<Sides>): (res: Result<seq<seq<real>>>)
    ensures res.Ok? <==> forall i :: 0 <= i < |ts| ==> ts[i].a + ts[i].b + ts[i].c != 0
    ensures res.Ok? ==> |res.value| == |ts|
    ensures res.Ok? ==> forall i :: 0 <= i < |ts| ==> Rescale(s, ts[i]) == Ok(res.value[i])
  {
    if |ts| == 0 then Ok([])
    else
      var row :- Rescale(s, ts[0]);
      var rest :- RescaleAll(s, ts[1..]);
      Ok([row] + rest)
  }

  /** Rows with a first entry to sort by. */
  predicate NonEmptyRows(rows: seq<seq<real>>) {
    forall i :: 0 <= i < |rows| ==> |rows[i]| > 0
  }

  /** In ascending order of first entry. */
  predicate SortedByFirst(rows: seq<seq<real>>)
    requires NonEmptyRows(rows)
  {
    forall i, j :: 0 <= i < j < |rows| ==> rows[i][0] <= rows[j][0]
  }

  /** Insert `row` before the first row whose first entry is not below its own. */
  function InsertRow(row: seq<real>, rows: seq<seq<real>>): (res: seq<seq<real>>)
    requires |row| > 0 && NonEmptyRows(rows)
    ensures multiset(res) == multiset(rows) + multiset{row}
    ensures NonEmptyRows(res)
    ensures SortedByFirst(rows) ==> SortedByFirst(res)
  {
    if |rows| == 0 then [row]
    else if row[0] <= rows[0][0] then [row] + rows
    else
      var rest := InsertRow(row, rows[1..]);
      assert rows == [rows[0]] + rows[1..];
      InsertRowAfter(row, rows, rest);
      [rows[0]] + rest
  }

  lemma InsertRowAfter(row: seq<real>, rows: seq<seq<real>>, rest: seq<seq<real>>)
    requires |row| > 0 && NonEmptyRows(rows) && NonEmptyRows(rest)
    requires |rows| > 0 && row[0] > rows[0][0] && rows == [rows[0]] + rows[1..]
    requires multiset(rest) == multiset(rows[1..]) + multiset{row}
    requires SortedByFirst(rows[1..]) ==> SortedByFirst(rest)
    ensures NonEmptyRows([rows[0]] + rest)
    ensures SortedByFirst(rows) ==> SortedByFirst([rows[0]] + rest)
  {
    if SortedByFirst(rows) {
      forall j | 0 <= j < |rest|
        ensures rows[0][0] <= rest[j][0]
      {
        assert rest[j] in multiset(rest);
        if rest[j] != row {
          assert rest[j] in multiset(rows[1..]);
          var k :| 0 <= k < |rows[1..]| && rows[1..][k] == rest[j];
        }
      }
    }
  }

  /** The rows whose first entry is v, in their order. */
  function WithFirst(rows: seq<seq<real>>, v: real): seq<seq<real>> {
    if |rows| == 0 then []
    else (if |rows[0]| > 0 && rows[0][0] == v then [rows[0]] else []) + WithFirst(rows[1..], v)
  }

  /** `InsertRow` puts the row before every row with its first entry. */
  lemma {:induction false} InsertRowWithFirst(row: seq<real>, rows: seq<seq<real>>, v: real)
    requires |row| > 0 && NonEmptyRows(rows)
    ensures WithFirst(InsertRow(row, rows), v) == (if row[0] == v then [row] else []) + WithFirst(rows, v)
  {
    if |rows| == 0 {
    } else if row[0] <= rows[0][0] {
      assert InsertRow(row, rows) == [row] + rows;
      WithFirstCons(row, rows, v);
    } else {
      var rest := InsertRow(row, rows[1..]);
      assert InsertRow(row, rows) == [rows[0]] + rest;
      InsertRowWithFirst(row, rows[1..], v);
      assert rows == [rows[0]] + rows[1..];
      assert !(rows[0][0] == v && row[0] == v);
      WithFirstBehind(row, rows[0], rest, rows[1..], v);
    }
  }

  lemma WithFirstCons(row: seq<real>, rows: seq<seq<real>>, v: real)
    ensures WithFirst([row] + rows, v) == (if |row| > 0 && row[0] == v then [row] else []) + WithFirst(rows, v)
  {
    assert ([row] + rows)[1..] == rows;
  }

  /** A row of another first entry passes in front of `row` without
      changing what either first entry selects. */
  lemma WithFirstBehind(row: seq<real>, x: seq<real>, rest: seq<seq<real>>, tail: seq<seq<real>>, v: real)
    requires |row| > 0 && |x| > 0 && !(x[0] == v && row[0] == v)
    requires WithFirst(rest, v) == (if row[0] == v then [row] else []) + WithFirst(tail, v)
    ensures WithFirst([x] + rest, v) == (if row[0] == v then [row] else []) + WithFirst([x] + tail, v)
  {
    WithFirstCons(x, rest, v);
    WithFirstCons(x, tail, v);
  }

  /** `final.sort(key=lambda x: x[0])`: an insertion sort, stable as
      `list.sort` is: rows with equal first entries keep their order. */
  function SortRows(rows: seq<seq<real>>): (res: seq<seq<real>>)
    requires NonEmptyRows(rows)
    ensures multiset(res) == multiset(rows)
    ensures NonEmptyRows(res) && SortedByFirst(res)
    ensures forall v :: WithFirst(res, v) == WithFirst(rows, v)
  {
    if |rows| == 0 then []
    else
      assert rows == [rows[0]] + rows[1..];
      var rest := SortRows(rows[1..]);
      InsertRowAllFirsts(rows, rest);
      InsertRow(rows[0], rest)
  }

  lemma InsertRowAllFirsts(rows: seq<seq<real>>, rest: seq<seq<real>>)
    requires |rows| > 0 && NonEmptyRows(rows) && NonEmptyRows(rest)
    requires forall v :: WithFirst(rest, v) == WithFirst(rows[1..], v)
    ensures forall v :: WithFirst(InsertRow(rows[0], rest), v) == WithFirst(rows, v)
  {
    forall v
      ensures WithFirst(InsertRow(rows[0], rest), v) == WithFirst(rows, v)
    {
      InsertRowWithFirst(rows[0], rest, v);
    }
  }

  /** One side as printed: `numerator/denominator`, or the bare numerator
      when the denominator is 1. It spells out n and d themselves, has a
      slash exactly when d is not 1, no comma, and it parses back to n/d. */
  function FormatFraction(n: int, d: int): (text: string)
    requires d >= 1
    ensures ParseParts(text) == Some((n, d))
    ensures ParseValue(text) == Some(n as real / d as real)
    ensures NoComma(text)
    ensures (exists i :: 0 <= i < |text| && text[i] == '/') <==> d != 1
  {
    FormatFractionParses(n, d, if d != 1 then IntToString(n) + "/" + IntToString(d) else IntToString(n));
    if d != 1 then IntToString(n) + "/" + IntToString(d) else IntToString(n)
  }

  /** A fraction side, printed from its lowest terms: the integers it spells
      out are the numerator and the positive denominator of x with no common
      factor, with a slash exactly when x is not an integer, and the text
      parses back to x. */
  ghost function FormatSide(x: real): (text: string)
    requires IsRational(x)
    ensures ParseParts(text) == Some((Num(x), Den(x)))
    ensures ParseParts(text).Some? && ParseParts(text).value.1 >= 1 &&
            Gcd(Abs(ParseParts(text).value.0), ParseParts(text).value.1) == 1
    ensures (exists i :: 0 <= i < |text| && text[i] == '/') <==> x != x.Floor as real
    ensures ParseValue(text) == Some(x)
    ensures NoComma(text)
  {
    NumOverDen(x);
    IntegralIffDenOne(x);
    FormatFraction(Num(x), Den(x))
  }

  lemma IntegralIffDenOne(x: real)
    requires IsRational(x)
    ensures Den(x) == 1 <==> x == x.Floor as real
  {
    NumOverDen(x);
    if x == x.Floor as real {
      assert Gcd(Abs(x.Floor), 1) == 1 by {
        GcdOne(Abs(x.Floor));
      }
      Canonical(x, x.Floor, 1);
    }
  }

  lemma GcdOne(n: nat)
    ensures Gcd(n, 1) == 1
  {
    assert Gcd(n, 1) == Gcd(1, n % 1);
  }

  /** The value of a printed side, if it is one. */
  function ParseValue(text: string): Option<real> {
    var i := IndexOf(text, '/');
    if i < |text| then
      if IsIntText(text[..i]) && IsIntText(text[i + 1..]) && ParseInt(text[i + 1..]) != 0 then
        Some(ParseInt(text[..i]) as real / ParseInt(text[i + 1..]) as real)
      else None
    else if IsIntText(text) then Some(ParseInt(text) as real)
    else None
  }

  /** The two integers a printed side spells out: the ones around the
      slash, or the bare integer over 1. */
  function ParseParts(text: string): Option<(int, int)> {
    var i := IndexOf(text, '/');
    if i < |text| then
      if IsIntText(text[..i]) && IsIntText(text[i + 1..]) then
        Some((ParseInt(text[..i]), ParseInt(text[i + 1..])))
      else None
    else if IsIntText(text) then Some((ParseInt(text), 1))
    else None
  }

  lemma FormatFractionParses(n: int, d: int, text: string)
    requires d >= 1
    requires text == if d != 1 then IntToString(n) + "/" + IntToString(d) else IntToString(n)
    ensures ParseParts(text) == Some((n, d))
    ensures ParseValue(text) == Some(n as real / d as real)
    ensures NoComma(text)
    ensures (exists i :: 0 <= i < |text| && text[i] == '/') <==> d != 1
  {
    if d != 1 {
      FormatWithSlash(n, d, text);
    } else {
      ParseIntToString(n);
      NoSlash(text);
    }
  }

  lemma FormatWithSlash(n: int, d: int, text: string)
    requires d > 1 && text == IntToString(n) + "/" + IntToString(d)
    ensures ParseParts(text) == Some((n, d))
    ensures ParseValue(text) == Some(n as real / d as real)
    ensures NoComma(text)
    ensures exists i :: 0 <= i < |text| && text[i] == '/'
  {
    var num, den := IntToString(n), IntToString(d);
    ParseIntToString(n);
    ParseIntToString(d);
    NoSlash(num);
    NoSlash(den);
    assert text[|num|] == '/';
    assert IndexOf(text, '/') == |num| by {
      assert forall j :: 0 <= j < |num| ==> text[j] == num[j];
    }
    assert text[..|num|] == num && text[|num| + 1..] == den;
  }

  /** The text of an integer has no slash and no comma. */
  lemma NoSlash(text: string)
    requires forall i :: 0 <= i < |text| ==> IsDigit(text[i]) || (i == 0 && text[i] == '-')
    ensures IndexOf(text, '/') == |text| && NoComma(text)
    ensures forall i :: 0 <= i < |text| ==> text[i] != '/'
  {
  }

  /** Every side of a row, printed. */
  ghost function FormatSides(row: seq<real>): (texts: seq<string>)
    requires forall i :: 0 <= i < |row| ==> IsRational(row[i])
    ensures |texts| == |row|
    ensures forall i :: 0 <= i < |row| ==> texts[i] == FormatSide(row[i])
  {
    if |row| == 0 then [] else [FormatSide(row[0])] + FormatSides(row[1..])
  }

  /** `", ".join(...)` of the printed sides of a row. */
  ghost function FormatRow(row: seq<real>): string
    requires forall i :: 0 <= i < |row| ==> IsRational(row[i])
  {
    Join(FormatSides(row))
  }

  /** The values of the parts of a printed row, if each is one. */
  function ParseValues(parts: seq<string>): (res: Option<seq<real>>)
    ensures res.Some? ==> |res.value| == |parts|
  {
    if |parts| == 0 then Some([])
    else
      match ParseValue(parts[0])
      case None => None
      case Some(x) =>
        match ParseValues(parts[1..])
        case None => None
        case Some(rest) => Some([x] + rest)
  }

  function ParseRow(line: string): Option<seq<real>> {
    ParseValues(Split(line))
  }

  /** A printed row reads back as the row it was printed from. */
  lemma ParseFormatRow(row: seq<real>)
    requires |row| > 0 && forall i :: 0 <= i < |row| ==> IsRational(row[i])
    ensures ParseRow(FormatRow(row)) == Some(row)
  {
    SplitJoin(FormatSides(row));
    ParseFormatSides(row);
  }

  lemma {:induction false} ParseFormatSides(row: seq<real>)
    requires forall i :: 0 <= i < |row| ==> IsRational(row[i])
    ensures ParseValues(FormatSides(row)) == Some(row)
  {
    if |row| > 0 {
      ParseFormatSides(row[1..]);
      assert FormatSides(row)[1..] == FormatSides(row[1..]);
      assert [row[0]] + row[1..] == row;
    }
  }

  /** `order` lists the elements of `ts` once each: the order a set yields them in. */
  predicate Enumerates(order: seq<Sides>, ts: set<Sides>) {
    && (forall t :: t in ts ==> t in order)
    && (forall i :: 0 <= i < |order| ==> order[i] in ts)
    && (forall i, j :: 0 <= i < j < |order| ==> order[i] != order[j])
  }

  /** The rows of `final` after sorting: the rescaled rows, each once, in
      ascending order of first side, rows with equal first sides in the
      order the set yields their triangles. */
  function SortedRows(s: real, order: seq<Sides>): (res: Result<seq<seq<real>>>)
    ensures res.Ok? <==> forall i :: 0 <= i < |order| ==> order[i].a + order[i].b + order[i].c != 0
    ensures res.Ok? ==> |res.value| == |order| && NonEmptyRows(res.value) && SortedByFirst(res.value)
    ensures res.Ok? ==> forall i :: 0 <= i < |res.value| ==> exists k :: 0 <= k < |order| && Rescale(s, order[k]) == Ok(res.value[i])
    ensures res.Ok? ==> RescaleAll(s, order).Ok? && multiset(res.value) == multiset(RescaleAll(s, order).value)
    ensures res.Ok? ==> forall v :: WithFirst(res.value, v) == WithFirst(RescaleAll(s, order).value, v)
  {
    var rows :- RescaleAll(s, order);
    var sorted := SortRows(rows);
    RowsFromOrder(s, order, rows, sorted);
    Ok(sorted)
  }

  lemma RowsFromOrder(s: real, order: seq<Sides>, rows: seq<seq<real>>, sorted: seq<seq<real>>)
    requires RescaleAll(s, order) == Ok(rows) && multiset(sorted) == multiset(rows)
    ensures NonEmptyRows(rows) && |sorted| == |order|
    ensures forall i :: 0 <= i < |sorted| ==> exists k :: 0 <= k < |order| && Rescale(s, order[k]) == Ok(sorted[i])
  {
    assert |sorted| == |multiset(sorted)| == |multiset(rows)| == |rows|;
    forall i | 0 <= i < |sorted|
      ensures exists k :: 0 <= k < |order| && Rescale(s, order[k]) == Ok(sorted[i])
    {
      assert sorted[i] in multiset(rows);
      var k :| 0 <= k < |rows| && rows[k] == sorted[i];
      assert Rescale(s, order[k]) == Ok(rows[k]);
    }
  }

  /** The printed lines of `main` from `if not C in map` on: just the count
      0 when the key is absent, and otherwise one line per stored triangle,
      rescaled to semiperimeter s, in ascending order of first side, then
      the count. */
  ghost function Listing(s: real, key: real, tbl: Table, order: seq<Sides>): (lines: Result<seq<string>>)
    requires IsRational(s)
    requires key in tbl ==> Enumerates(order, tbl[key])
    ensures key !in tbl ==> lines == Ok(["count: 0"])
    ensures key in tbl ==> (lines.Ok? <==> forall t :: t in tbl[key] ==> t.a + t.b + t.c != 0)
    ensures key in tbl && lines.Ok? ==> |lines.value| == |order| + 1
    ensures key in tbl && lines.Ok? ==> lines.value[|order|] == "count: " + IntToString(|order|)
  {
    if key !in tbl then Ok(["count: 0"])
    else
      var rows :- SortedRows(s, order);
      RowsRational(s, order, rows);
      Ok(FormatRows(rows) + ["count: " + IntToString(|rows|)])
  }

  lemma RowsRational(s: real, order: seq<Sides>, rows: seq<seq<real>>)
    requires IsRational(s) && SortedRows(s, order) == Ok(rows)
    ensures forall i, j :: 0 <= i < |rows| && 0 <= j < |rows[i]| ==> IsRational(rows[i][j])
  {
    forall i, j | 0 <= i < |rows| && 0 <= j < |rows[i]|
      ensures IsRational(rows[i][j])
    {
      var k :| 0 <= k < |order| && Rescale(s, order[k]) == Ok(rows[i]);
      RescaleRational(s, order[k]);
    }
  }

  ghost function FormatRows(rows: seq<seq<real>>): (lines: seq<string>)
    requires forall i, j :: 0 <= i < |rows| && 0 <= j < |rows[i]| ==> IsRational(rows[i][j])
    ensures |lines| == |rows|
    ensures forall i :: 0 <= i < |rows| ==> lines[i] == FormatRow(rows[i])
  {
    if |rows| == 0 then [] else [FormatRow(rows[0])] + FormatRows(rows[1..])
  }

  /** The rows printed lines read back as, if each reads back as one. */
  function ParseRows(lines: seq<string>): (res: Option<seq<seq<real>>>)
    ensures res.Some? ==> |res.value| == |lines|
  {
    if |lines| == 0 then Some([])
    else
      match ParseRow(lines[0])
      case None => None
      case Some(row) =>
        match ParseRows(lines[1..])
        case None => None
        case Some(rest) => Some([row] + rest)
  }

  lemma {:induction false} ParseRowsEach(lines: seq<string>, rows: seq<seq<real>>)
    requires |lines| == |rows| && forall i :: 0 <= i < |lines| ==> ParseRow(lines[i]) == Some(rows[i])
    ensures ParseRows(lines) == Some(rows)
  {
    if |lines| > 0 {
      ParseRowsEach(lines[1..], rows[1..]);
      assert [rows[0]] + rows[1..] == rows;
    }
  }

  /** Each printed line reads back as a stored triangle rescaled to
      semiperimeter s, the lines come in ascending order of first side, and
      together they read back as the rescaled triangles of the set, each
      printed once. */
  lemma ListingReadsBack(s: real, key: real, tbl: Table, order: seq<Sides>)
    requires IsRational(s) && key in tbl && Enumerates(order, tbl[key])
    requires Listing(s, key, tbl, order).Ok?
    ensures RescaleAll(s, order).Ok? && ParseRows(Listing(s, key, tbl, order).value[..|order|]).Some?
    ensures multiset(ParseRows(Listing(s, key, tbl, order).value[..|order|]).value) == multiset(RescaleAll(s, order).value)
    ensures forall i :: 0 <= i < |order| ==>
      ParseRow(Listing(s, key, tbl, order).value[i]).Some? &&
      exists t :: t in tbl[key] && Rescale(s, t) == Ok(ParseRow(Listing(s, key, tbl, order).value[i]).value)
    ensures forall i, j :: 0 <= i < j < |order| ==>
      ParseRow(Listing(s, key, tbl, order).value[i]).Some? && ParseRow(Listing(s, key, tbl, order).value[j]).Some? &&
      |ParseRow(Listing(s, key, tbl, order).value[i]).value| > 0 &&
      ParseRow(Listing(s, key, tbl, order).value[i]).value[0] <= ParseRow(Listing(s, key, tbl, order).value[j]).value[0]
  {
    var rows := ListingRows(s, key, tbl, order);
    forall i | 0 <= i < |order|
      ensures exists t :: t in tbl[key] && Rescale(s, t) == Ok(rows[i])
    {
      var k :| 0 <= k < |order| && Rescale(s, order[k]) == Ok(rows[i]);
      assert order[k] in tbl[key];
    }
  }

  /** The first |order| printed lines read back, one by one, as the sorted rows. */
  lemma ListingRows(s: real, key: real, tbl: Table, order: seq<Sides>) returns (rows: seq<seq<real>>)
    requires IsRational(s) && key in tbl && Enumerates(order, tbl[key])
    requires Listing(s, key, tbl, order).Ok?
    ensures SortedRows(s, order) == Ok(rows) && |rows| == |order|
    ensures forall i :: 0 <= i < |order| ==> ParseRow(Listing(s, key, tbl, order).value[i]) == Some(rows[i])
    ensures ParseRows(Listing(s, key, tbl, order).value[..|order|]) == Some(rows)
  {
    rows := SortedRows(s, order).value;
    var lines := Listing(s, key, tbl, order).value;
    RowsRational(s, order, rows);
    forall i | 0 <= i < |order|
      ensures ParseRow(lines[i]) == Some(rows[i])
    {
      ParseFormatRow(rows[i]);
    }
    ParseRowsEach(lines[..|order|], rows);
  }

  /** Every triangle the generator stores has a positive perimeter, so the
      listing for a generated table never fails. */
  lemma GeneratedListingOk(s: real, key: real, max: int, order: seq<Sides>)
    requires IsRational(s) && key in GenerateTriangles(max) && Enumerates(order, GenerateTriangles(max)[key])
    ensures Listing(s, key, GenerateTriangles(max), order).Ok?
  {
    GeneratedGood(max);
    forall t | t in GenerateTriangles(max)[key]
      ensures t.a + t.b + t.c != 0
    {
      assert Stored(GenerateTriangles(max), Entry(key, t));
    }
  }
}

=== FILE: lookup.dfy ===
/** `fraction_isqrt` and `generate_triangles` of triangle/lookup.py.

    The generator runs over the quadruples (m, n, p, q) in [1, MAX]^4 with
    m p > n q; each gives the integer triangle
    a = m n (p^2 + q^2), b = p q (m^2 + n^2), c = (m q + n p)(m p - n q)
    with area m n p q c, which is stored, divided by the gcd of its sides
    and sorted, under the key C = s^2 / area. */
module Lookup {
  import opened Numbers
  import opened Fractions
  import opened Results
  import opened Triangles
  import Curve

  /** `fraction_isqrt(x, exact)`: the quotient of the integer square roots
      of numerator and denominator; with `exact`, -1 unless it squares back
      to x. `math.isqrt` rejects negative arguments, so x is non-negative. */
  ghost function FractionIsqrt(x: real, exact: bool): (y: real)
    requires IsRational(x) && x >= 0.0
    ensures y >= 0.0 || (exact && y == -1.0)
    ensures exact ==> y == -1.0 || Square(y) == x
  {
    NonNegativeNum(x);
    IsqrtQuotient(Num(x), Den(x), x, exact)
  }

  function Square(y: real): real {
    y * y
  }

  function Quot(a: nat, b: nat): real
    requires b > 0
  {
    a as real / b as real
  }

  /** `Fraction(isqrt(n), isqrt(d))` for the pair n / d of x, checked against x when `exact`. */
  function IsqrtQuotient(n: nat, d: nat, x: real, exact: bool): (y: real)
    requires d >= 1
    ensures y >= 0.0 || (exact && y == -1.0)
    ensures exact ==> y == -1.0 || Square(y) == x
  {
    assert Isqrt(d) >= 1;
    if exact && Square(Quot(Isqrt(n), Isqrt(d))) != x then -1.0
    else Quot(Isqrt(n), Isqrt(d))
  }

  lemma NonNegativeNum(x: real)
    requires IsRational(x) && x >= 0.0
    ensures Num(x) >= 0 && Den(x) >= 1
  {
    NumOverDen(x);
    if x > 0.0 {
      Curve.PositiveNum(x);
    } else {
      assert Num(x) as real == x * Den(x) as real;
    }
  }

  /** The square of a non-negative fraction q has the exact root q, in
      either mode; with the ensures of `FractionIsqrt`, -1 comes back
      exactly for the non-squares. */
  lemma FractionIsqrtOfSquare(q: real, exact: bool)
    requires IsRational(q) && q >= 0.0
    ensures IsRational(Square(q)) && FractionIsqrt(Square(q), exact) == q
  {
    if q > 0.0 {
      RootOfPositiveSquare(q, exact);
    } else {
      RootOfZero(exact);
    }
  }

  lemma RootOfPositiveSquare(q: real, exact: bool)
    requires IsRational(q) && q > 0.0
    ensures IsRational(Square(q)) && FractionIsqrt(Square(q), exact) == q
  {
    Curve.SquareOfFraction(q);
    assert Quot(Num(q), Den(q)) == q;
  }

  lemma RootOfZero(exact: bool)
    ensures IsRational(Square(0.0)) && FractionIsqrt(Square(0.0), exact) == 0.0
  {
    IntRational(0);
    Canonical(0.0, 0, 1);
    assert Gcd(0, 1) == 1 by { assert Gcd(0, 1) == Gcd(1, 0); }
    assert Isqrt(0) == 0 && Isqrt(1) == 1;
  }

  /** An integer triangle, sides in the order the generator stores them. */
  datatype Sides = Sides(a: nat, b: nat, c: nat)

  predicate PositiveSides(t: Sides) {
    t.a > 0 && t.b > 0 && t.c > 0
  }

  /** The semiperimeter. */
  function Semi(t: Sides): real {
    (t.a + t.b + t.c) as real / 2.0
  }

  /** Heron's radicand s (s - a) (s - b) (s - c) of an integer triangle. */
  function Radicand(t: Sides): real {
    HeronRadicand(t.a as real, t.b as real, t.c as real)
  }

  /** `t` lists `a`, `b`, `c` in some order. */
  predicate SidesPerm(t: Sides, a: nat, b: nat, c: nat) {
    || t == Sides(a, b, c) || t == Sides(a, c, b) || t == Sides(b, a, c)
    || t == Sides(b, c, a) || t == Sides(c, a, b) || t == Sides(c, b, a)
  }

  /** The three compare-and-swap steps of `generate_triangles`. */
  function SortSides(a: nat, b: nat, c: nat): (t: Sides)
    ensures t.a <= t.b <= t.c
    ensures SidesPerm(t, a, b, c)
  {
    var (a1, b1) := if a > b then (b, a) else (a, b);
    var (b2, c2) := if b1 > c then (c, b1) else (b1, c);
    var (a3, b3) := if a1 > b2 then (b2, a1) else (a1, b2);
    Sides(a3, b3, c2)
  }

  /** Heron's radicand and the semiperimeter do not depend on the order of the sides. */
  lemma PermInvariants(t: Sides, a: nat, b: nat, c: nat)
    requires SidesPerm(t, a, b, c)
    ensures Radicand(t) == Radicand(Sides(a, b, c)) && Semi(t) == Semi(Sides(a, b, c))
  {
    var x, y, z := a as real, b as real, c as real;
    var s := (x + y + z) / 2.0;
    assert Radicand(Sides(a, b, c)) == s * (s - x) * (s - y) * (s - z);
  }

  /** The triangle of the quadruple (m, n, p, q), before reduction. */
  function Parametrised(m: nat, n: nat, p: nat, q: nat): (t: Sides)
    requires m >= 1 && n >= 1 && p >= 1 && q >= 1 && m * p > n * q
    ensures PositiveSides(t)
  {
    Sides(m * n * (p * p + q * q), p * q * (m * m + n * n), (m * q + n * p) * (m * p - n * q))
  }

  /** `m * n * p * q * c`, the area of the triangle of the quadruple. */
  function Area(m: nat, n: nat, p: nat, q: nat): nat
    requires m >= 1 && n >= 1 && p >= 1 && q >= 1 && m * p > n * q
  {
    m * n * p * q * Parametrised(m, n, p, q).c
  }

  /** The triangle of every quadruple is Heronian: its area m n p q c squares
      to Heron's radicand. With u = m q + n p and v = m p - n q, so that
      c = u v, the four factors of the radicand are s = m p u,
      s - a = m q v, s - b = n p v and s - c = n q u. */
  lemma ParametrisedHeronian(m: nat, n: nat, p: nat, q: nat)
    requires m >= 1 && n >= 1 && p >= 1 && q >= 1 && m * p > n * q
    ensures Radicand(Parametrised(m, n, p, q)) == Square(Area(m, n, p, q) as real)
  {
    var t := Parametrised(m, n, p, q);
    var u, v := m * q + n * p, m * p - n * q;
    HeronFactors(m, n, p, q, u, v);
    RadicandOfFactors(t.a, t.b, t.c, m * p * u, m * q * v, n * p * v, n * q * u);
    FourFactors(m, n, p, q, u, v);
    assert Area(m, n, p, q) == m * n * p * q * (u * v);
    SquareOfNat(Area(m, n, p, q));
  }

  lemma HeronFactors(m: int, n: int, p: int, q: int, u: int, v: int)
    requires u == m * q + n * p && v == m * p - n * q
    ensures m * n * (p * p + q * q) + p * q * (m * m + n * n) + u * v == 2 * (m * p * u)
    ensures m * p * u - m * n * (p * p + q * q) == m * q * v
    ensures m * p * u - p * q * (m * m + n * n) == n * p * v
    ensures m * p * u - u * v == n * q * u
  {
    HeronPerimeter(m, n, p, q);
    HeronFirst(m, n, p, q);
    HeronSecond(m, n, p, q);
    HeronThird(m, n, p, q);
  }

  lemma HeronPerimeter(m: int, n: int, p: int, q: int)
    ensures m * n * (p * p + q * q) + p * q * (m * m + n * n) + (m * q + n * p) * (m * p - n * q)
         == 2 * (m * p * (m * q + n * p))
  {
  }

  lemma HeronFirst(m: int, n: int, p: int, q: int)
    ensures m * p * (m * q + n * p) - m * n * (p * p + q * q) == m * q * (m * p - n * q)
  {
  }

  lemma HeronSecond(m: int, n: int, p: int, q: int)
    ensures m * p * (m * q + n * p) - p * q * (m * m + n * n) == n * p * (m * p - n * q)
  {
  }

  lemma HeronThird(m: int, n: int, p: int, q: int)
    ensures m * p * (m * q + n * p) - (m * q + n * p) * (m * p - n * q) == n * q * (m * q + n * p)
  {
  }

  lemma FourFactors(m: int, n: int, p: int, q: int, u: int, v: int)
    ensures (m * p * u) * (m * q * v) * (n * p * v) * (n * q * u) == (m * n * p * q * (u * v)) * (m * n * p * q * (u * v))
  {
    var k := m * n * p * q;
    Reorder(m * p * u, m * q * v, n * p * v, n * q * u);
    assert (m * p * u) * (n * q * u) == k * (u * u);
    assert (m * q * v) * (n * p * v) == k * (v * v);
    Regroup(k, u, v);
  }

  lemma Reorder(a: int, b: int, c: int, d: int)
    ensures a * b * c * d == (a * d) * (b * c)
  {
  }

  lemma Regroup(k: int, u: int, v: int)
    ensures (k * (u * u)) * (k * (v * v)) == (k * (u * v)) * (k * (u * v))
  {
  }

  /** Heron's radicand from the integer factors s, s - a, s - b, s - c. */
  lemma RadicandOfFactors(a: nat, b: nat, c: nat, s: int, x: int, y: int, z: int)
    requires a + b + c == 2 * s && s - a == x && s - b == y && s - c == z
    ensures Radicand(Sides(a, b, c)) == (s * x * y * z) as real
  {
    var S := (a + b + c) as real / 2.0;
    assert S == s as real;
    assert S - a as real == x as real && S - b as real == y as real && S - c as real == z as real;
  }

  lemma SquareOfNat(k: nat)
    ensures Square(k as real) == (k * k) as real
  {
  }

  /** The key `s * s / A` of a triangle with area A. */
  function Key(t: Sides, area: nat): real
    requires area > 0
  {
    Square(Semi(t)) / area as real
  }

  /** `key` is the key of the triangle `t` whatever its scale: positive, with
      Heron's radicand equal to (s^2 / key)^2. */
  predicate HeronKey(key: real, t: Sides) {
    key > 0.0 && Radicand(t) * Square(key) == Square(Square(Semi(t)))
  }

  /** The sides divided by their gcd and sorted. */
  function Reduce(t: Sides): (r: Sides)
    requires PositiveSides(t)
    ensures PositiveSides(r) && r.a <= r.b <= r.c
    ensures Gcd3(r.a, r.b, r.c) == 1
  {
    GcdDivides3(t.a, t.b, t.c);
    GcdPositive3(t.a, t.b, t.c);
    var d := Gcd3(t.a, t.b, t.c);
    DividesQuotient(d, t.a);
    DividesQuotient(d, t.b);
    DividesQuotient(d, t.c);
    ReducedCoprime3(t.a, t.b, t.c, d, t.a / d, t.b / d, t.c / d);
    PermCoprime(SortSides(t.a / d, t.b / d, t.c / d), t.a / d, t.b / d, t.c / d);
    SortSides(t.a / d, t.b / d, t.c / d)
  }

  /** The reduced triangle is the triangle itself divided by the gcd of its
      sides, reordered. */
  lemma ReducePermutes(t: Sides)
    requires PositiveSides(t)
    ensures Gcd3(t.a, t.b, t.c) > 0
    ensures SidesPerm(Reduce(t), t.a / Gcd3(t.a, t.b, t.c), t.b / Gcd3(t.a, t.b, t.c), t.c / Gcd3(t.a, t.b, t.c))
  {
    GcdPositive3(t.a, t.b, t.c);
  }

  /** One entry of the table for the quadruple (m, n, p, q): nothing when
      m p <= n q, and otherwise the key of its triangle with the triangle
      reduced. The stored triangle is positive, sorted, primitive and
      Heronian, and the key computed before the reduction is its own. */
  function QuadEntry(m: nat, n: nat, p: nat, q: nat): (e: Option<Entry>)
    requires m >= 1 && n >= 1 && p >= 1 && q >= 1
    ensures e.None? <==> m * p <= n * q
    ensures e.Some? ==> GoodEntry(e.value)
  {
    if m * p <= n * q then None
    else
      ParametrisedHeronian(m, n, p, q);
      ReducedKey(Parametrised(m, n, p, q), Area(m, n, p, q));
      Some(Entry(Key(Parametrised(m, n, p, q), Area(m, n, p, q)), Reduce(Parametrised(m, n, p, q))))
  }

  /** A row of the table: the key and the reduced triangle stored under it. */
  datatype Entry = Entry(key: real, sides: Sides)

  /** What the generator promises of every stored triangle: positive sides
      in ascending order with no common factor, and the key it is stored
      under is its own. */
  predicate GoodEntry(e: Entry) {
    && PositiveSides(e.sides) && e.sides.a <= e.sides.b <= e.sides.c
    && Gcd3(e.sides.a, e.sides.b, e.sides.c) == 1
    && HeronKey(e.key, e.sides)
  }

  /** Reduction leaves the key alone: dividing the sides by d divides the
      semiperimeter by d and the radicand by d^4, and the key s^2 / A of the
      unreduced triangle is also that of the reduced one. */
  lemma ReducedKey(t: Sides, area: nat)
    requires PositiveSides(t) && area > 0 && Radicand(t) == Square(area as real)
    ensures HeronKey(Key(t, area), Reduce(t))
  {
    ReducedScale(t);
    KeyAlgebra(area as real, Gcd3(t.a, t.b, t.c) as real, Semi(t), Radicand(t), Reduce(t), Key(t, area));
  }

  lemma ReducedScale(t: Sides)
    requires PositiveSides(t)
    ensures Gcd3(t.a, t.b, t.c) > 0 && Semi(t) > 0.0
    ensures Semi(t) == Times(Gcd3(t.a, t.b, t.c) as real, Semi(Reduce(t)))
    ensures Radicand(t) == Times(Square(Square(Gcd3(t.a, t.b, t.c) as real)), Radicand(Reduce(t)))
  {
    GcdDivides3(t.a, t.b, t.c);
    GcdPositive3(t.a, t.b, t.c);
    var d := Gcd3(t.a, t.b, t.c);
    DividesQuotient(d, t.a);
    DividesQuotient(d, t.b);
    DividesQuotient(d, t.c);
    var u := Sides(t.a / d, t.b / d, t.c / d);
    assert Sides(d * u.a, d * u.b, d * u.c) == t;
    ScaleSides(d, u, Reduce(t), t);
  }

  /** Multiplying the sides by d multiplies the semiperimeter by d and the radicand by d^4. */
  lemma ScaleSides(d: nat, u: Sides, r: Sides, t: Sides)
    requires SidesPerm(r, u.a, u.b, u.c)
    requires t.a == d * u.a && t.b == d * u.b && t.c == d * u.c
    ensures Semi(t) == Times(d as real, Semi(r))
    ensures Radicand(t) == Times(Square(Square(d as real)), Radicand(r))
  {
    assert Sides(u.a, u.b, u.c) == u;
    PermInvariants(r, u.a, u.b, u.c);
    ScaleSides1(d, u, t);
  }

  lemma ScaleSides1(d: nat, u: Sides, t: Sides)
    requires t.a == d * u.a && t.b == d * u.b && t.c == d * u.c
    ensures Semi(t) == d as real * Semi(u)
    ensures Radicand(t) == Square(Square(d as real)) * Radicand(u)
  {
    var D, A, B, C := d as real, u.a as real, u.b as real, u.c as real;
    CastProduct(d, u.a);
    CastProduct(d, u.b);
    CastProduct(d, u.c);
    ScaleHalf(D, A, B, C);
    ScaleRadicand(D, A, B, C);
  }

  lemma CastProduct(d: int, a: int)
    ensures (d * a) as real == d as real * a as real
  {
  }

  lemma ScaleHalf(d: real, x: real, y: real, z: real)
    ensures (d * x + d * y + d * z) / 2.0 == d * ((x + y + z) / 2.0)
  {
  }

  lemma ScaleRadicand(d: real, x: real, y: real, z: real)
    ensures HeronRadicand(d * x, d * y, d * z) == Square(Square(d)) * HeronRadicand(x, y, z)
  {
    var s := (x + y + z) / 2.0;
    assert (d * x + d * y + d * z) / 2.0 == d * s;
    assert d * s - d * x == d * (s - x) && d * s - d * y == d * (s - y) && d * s - d * z == d * (s - z);
    Reorder4(d, s, s - x, s - y, s - z);
  }

  lemma Reorder4(d: real, a: real, b: real, c: real, e: real)
    ensures (d * a) * (d * b) * (d * c) * (d * e) == Square(Square(d)) * (a * b * c * e)
  {
  }

  /** With A^2 = R = d^4 R' and s = d s', the key s^2 / A satisfies R' key^2 = s'^4. */
  lemma KeyAlgebra(area: real, d: real, s: real, rad: real, r: Sides, key: real)
    requires area > 0.0 && d > 0.0 && s > 0.0 && key == Square(s) / area
    requires rad == Square(area) && rad == Times(Square(Square(d)), Radicand(r)) && s == Times(d, Semi(r))
    ensures HeronKey(key, r)
  {
    KeyAlgebraReal(area, d, s, rad, Radicand(r), Semi(r), key);
  }

  lemma KeyAlgebraReal(area: real, d: real, s: real, rad: real, radr: real, sr: real, key: real)
    requires area > 0.0 && d > 0.0 && s > 0.0 && key == Square(s) / area
    requires rad == Square(area) && rad == Times(Square(Square(d)), radr) && s == Times(d, sr)
    ensures key > 0.0 && radr * Square(key) == Square(Square(sr))
  {
    var d4, a2 := Square(Square(d)), Square(area);
    SquarePositive(d);
    SquarePositive(Square(d));
    SquarePositive(area);
    assert radr == a2 / d4;
    SquareProduct(d, sr);
    SquareProduct(Square(d), Square(sr));
    assert Square(Square(s)) == d4 * Square(Square(sr));
    SquareQuotient(Square(s), area);
    assert key > 0.0;
    Cancel(a2, d4, Square(Square(sr)));
  }

  lemma SquareProduct(x: real, y: real)
    ensures Square(Times(x, y)) == Square(x) * Square(y)
  {
  }

  lemma SquareQuotient(x: real, y: real)
    requires y != 0.0
    ensures Square(y) > 0.0 && Square(x / y) == Square(x) / Square(y)
  {
    SquarePositive(y);
  }

  lemma SquarePositive(x: real)
    requires x != 0.0
    ensures Square(x) > 0.0
  {
    if x > 0.0 {
      TimesPositive(x, x);
      assert Square(x) == Times(x, x);
    } else {
      TimesPositive(-x, -x);
      assert Square(x) == Times(-x, -x);
    }
  }

  lemma TimesPositive(a: real, b: real)
    requires a > 0.0 && b > 0.0
    ensures Times(a, b) > 0.0
  {
  }

  lemma Cancel(a: real, b: real, c: real)
    requires a != 0.0 && b != 0.0
    ensures (a / b) * ((b * c) / a) == c
  {
  }

  /** Dividing three numbers, not all zero, by their gcd leaves them coprime. */
  lemma ReducedCoprime3(a: nat, b: nat, c: nat, d: nat, x: nat, y: nat, z: nat)
    requires d == Gcd3(a, b, c) && d > 0 && a == d * x && b == d * y && c == d * z
    ensures Gcd3(x, y, z) == 1
  {
    var k, l, m := Bezout3(a, b, c);
    DivideCombination3(a, b, c, d, x, y, z, k, l, m);
    CoprimeByCombination3(x, y, z, k, l, m);
  }

  /** Bezout's identity for `gcd(a, b, c)`. */
  lemma Bezout3(a: nat, b: nat, c: nat) returns (k: int, l: int, m: int)
    ensures a * k + b * l + c * m == Gcd3(a, b, c)
  {
    var x1, y1 := Bezout(a, b);
    var x2, y2 := Bezout(Gcd(a, b), c);
    Distribute(a, b, x1, y1, x2);
    k, l, m := x1 * x2, y1 * x2, y2;
  }

  lemma Distribute(a: int, b: int, x: int, y: int, w: int)
    ensures a * (x * w) + b * (y * w) == (a * x + b * y) * w
  {
  }

  lemma DivideCombination3(a: int, b: int, c: int, d: int, x: int, y: int, z: int, k: int, l: int, m: int)
    requires d != 0 && a == d * x && b == d * y && c == d * z && a * k + b * l + c * m == d
    ensures x * k + y * l + z * m == 1
  {
    assert a * k == d * (x * k) && b * l == d * (y * l) && c * m == d * (z * m);
    CancelLeft(d, x * k + y * l + z * m, 1);
  }

  /** A combination equal to one proves three numbers coprime. */
  lemma CoprimeByCombination3(x: nat, y: nat, z: nat, k: int, l: int, m: int)
    requires x * k + y * l + z * m == 1
    ensures Gcd3(x, y, z) == 1
  {
    var g := Gcd3(x, y, z);
    GcdDivides3(x, y, z);
    DividesCombination(g, x, y, k, l);
    DividesCombination(g, x * k + y * l, z, 1, m);
    DividesOne(g);
  }

  /** `gcd` of three numbers does not depend on their order. */
  lemma PermCoprime(t: Sides, a: nat, b: nat, c: nat)
    requires SidesPerm(t, a, b, c) && Gcd3(a, b, c) == 1
    ensures Gcd3(t.a, t.b, t.c) == 1
  {
    var k, l, m := Bezout3(a, b, c);
    if t == Sides(a, b, c) {
    } else if t == Sides(a, c, b) {
      CoprimeByCombination3(a, c, b, k, m, l);
    } else if t == Sides(b, a, c) {
      CoprimeByCombination3(b, a, c, l, k, m);
    } else if t == Sides(b, c, a) {
      CoprimeByCombination3(b, c, a, l, m, k);
    } else if t == Sides(c, a, b) {
      CoprimeByCombination3(c, a, b, m, k, l);
    } else {
      CoprimeByCombination3(c, b, a, m, l, k);
    }
  }

  /** The dictionary `generate_triangles` builds: each key C maps to the set
      of reduced triangles stored under it. */
  type Table = map<real, set<Sides>>

  predicate Stored(tbl: Table, e: Entry) {
    e.key in tbl && e.sides in tbl[e.key]
  }

  /** No key maps to the empty set. */
  predicate NoEmpty(tbl: Table) {
    forall k :: k in tbl ==> tbl[k] != {}
  }

  /** `map[C].add((a, b, c))`, creating the set first when C is new: the
      entry is stored and nothing else changes. */
  function Add(tbl: Table, e: Entry): (res: Table)
    ensures forall e' :: Stored(res, e') <==> Stored(tbl, e') || e' == e
    ensures NoEmpty(tbl) ==> NoEmpty(res)
  {
    tbl[e.key := (if e.key in tbl then tbl[e.key] else {}) + {e.sides}]
  }

  /** The body of the innermost loop for one quadruple. */
  function AddQuad(tbl: Table, m: nat, n: nat, p: nat, q: nat): (res: Table)
    requires m >= 1 && n >= 1 && p >= 1 && q >= 1
    ensures forall e :: Stored(res, e) <==> Stored(tbl, e) || QuadEntry(m, n, p, q) == Some(e)
    ensures NoEmpty(tbl) ==> NoEmpty(res)
  {
    match QuadEntry(m, n, p, q)
    case None => tbl
    case Some(e) => Add(tbl, e)
  }

  /** `for q in range(q, MAX + 1)`: stores the entries of q..MAX for fixed m, n, p. */
  function LoopQ(tbl: Table, max: int, m: nat, n: nat, p: nat, q: nat): (res: Table)
    requires m >= 1 && n >= 1 && p >= 1 && q >= 1
    ensures forall e :: Stored(res, e) <==>
      Stored(tbl, e) || exists q' :: q <= q' <= max && QuadEntry(m, n, p, q') == Some(e)
    ensures NoEmpty(tbl) ==> NoEmpty(res)
    decreases max - q
  {
    if q > max then tbl
    else LoopQ(AddQuad(tbl, m, n, p, q), max, m, n, p, q + 1)
  }

  /** `for p in range(p, MAX + 1)` around the q loop. */
  function LoopP(tbl: Table, max: int, m: nat, n: nat, p: nat): (res: Table)
    requires m >= 1 && n >= 1 && p >= 1
    ensures forall e :: Stored(res, e) <==>
      Stored(tbl, e) || exists p', q' :: p <= p' <= max && 1 <= q' <= max && QuadEntry(m, n, p', q') == Some(e)
    ensures NoEmpty(tbl) ==> NoEmpty(res)
    decreases max - p
  {
    if p > max then tbl
    else LoopP(LoopQ(tbl, max, m, n, p, 1), max, m, n, p + 1)
  }

  /** `for n in range(n, MAX + 1)` around the p loop. */
  function LoopN(tbl: Table, max: int, m: nat, n: nat): (res: Table)
    requires m >= 1 && n >= 1
    ensures forall e :: Stored(res, e) <==>
      Stored(tbl, e) || exists n', p', q' :: n <= n' <= max && 1 <= p' <= max && 1 <= q' <= max && QuadEntry(m, n', p', q') == Some(e)
    ensures NoEmpty(tbl) ==> NoEmpty(res)
    decreases max - n
  {
    if n > max then tbl
    else LoopN(LoopP(tbl, max, m, n, 1), max, m, n + 1)
  }

  /** `for m in range(m, MAX + 1)` around the n loop. */
  function LoopM(tbl: Table, max: int, m: nat): (res: Table)
    requires m >= 1
    ensures forall e :: Stored(res, e) <==>
      Stored(tbl, e) || exists m', n', p', q' :: m <= m' <= max && 1 <= n' <= max && 1 <= p' <= max && 1 <= q' <= max && QuadEntry(m', n', p', q') == Some(e)
    ensures NoEmpty(tbl) ==> NoEmpty(res)
    decreases max - m
  {
    if m > max then tbl
    else LoopM(LoopN(tbl, max, m, 1), max, m + 1)
  }

  /** `generate_triangles(MAX)`: a triangle is stored under a key exactly
      when some quadruple in [1, MAX]^4 produces that entry, and no key maps
      to an empty set. */
  function GenerateTriangles(max: int): (tbl: Table)
    ensures forall e :: Stored(tbl, e) <==>
      exists m, n, p, q :: 1 <= m <= max && 1 <= n <= max && 1 <= p <= max && 1 <= q <= max && QuadEntry(m, n, p, q) == Some(e)
    ensures NoEmpty(tbl)
  {
    LoopM(map[], max, 1)
  }

  /** Every triangle in the table is primitive, sorted and Heronian, and is
      stored under its own key. */
  lemma GeneratedGood(max: int)
    ensures forall e :: Stored(GenerateTriangles(max), e) ==> GoodEntry(e)
  {
    forall e | Stored(GenerateTriangles(max), e)
      ensures GoodEntry(e)
    {
      var m, n, p, q :| 1 <= m <= max && 1 <= n <= max && 1 <= p <= max && 1 <= q <= max && QuadEntry(m, n, p, q) == Some(e);
    }
  }
}

=== FILE: millerrabin.dfy ===
/** misc/millerrabin.c: modular exponentiation in unsigned 64-bit
    arithmetic and the deterministic Miller-Rabin test of a 32-bit number
    with the bases 2, 7 and 61.

    Products are taken modulo 2^64 as `u64` multiplication does; the lemmas
    show that for moduli below 2^32 no product wraps. Integer results that C
    uses as truth values are 0 or 1. */
module MillerRabin {
  import opened Words
  import opened Powers

  const Two32: nat := 0x1_0000_0000
  const Two64: nat := 0x1_0000_0000_0000_0000

  /** `x * y` on `u64`. */
  function Mul64(x: u64, y: u64): u64 {
    (x * y) % Two64
  }

  /** Two factors below 2^32 multiply without wrapping. */
  lemma Mul64Exact(x: u64, y: u64)
    requires x < Two32 && y < Two32
    ensures x * y < Two64 && Mul64(x, y) == x * y
  {
    MulMonotone(x, y, Two32 - 1, Two32 - 1);
    ModUnique(x * y, Two64, 0, x * y);
  }

  lemma MulMonotone(a: nat, b: nat, c: nat, d: nat)
    requires a <= c && b <= d
    ensures a * b <= c * d
  {
    assert a * b <= c * b;
    assert c * b <= c * d;
  }

  // expmod

  /** `expmod(a, b, m)`: square-and-multiply over exactly 32 bits of b.
      The result is reduced modulo m, except that with m = 1 an exponent
      with no bit set among its low 32 leaves the initial 1. */
  function ExpMod(a: u64, b: u64, m: u64): (res: u64)
    requires m > 0
    ensures m > 1 ==> res < m
  {
    ExpLoop(1, a, b, m, 0)
  }

  /** The loop of `expmod` from iteration i with accumulator r: multiply
      by a when the low bit of b is set, stop after iteration 31, otherwise
      shift b and square a. */
  function ExpLoop(r: u64, a: u64, b: u64, m: u64, i: nat): (res: u64)
    requires m > 0 && i <= 31
    ensures r < m ==> res < m
    ensures res == r || res < m
    decreases 31 - i
  {
    var r' := if b % 2 == 1 then Mul64(r, a) % m else r;
    if i >= 31 then r' else ExpLoop(r', Mul64(a, a) % m, b / 2, m, i + 1)
  }

  /** Every product the loop forms fits in 64 bits. */
  predicate ProductsFit(r: u64, a: u64, b: u64, m: u64, i: nat)
    requires m > 0 && i <= 31
    decreases 31 - i
  {
    && (b % 2 == 1 ==> r * a < Two64)
    && (i < 31 ==>
          && a * a < Two64
          && ProductsFit(if b % 2 == 1 then Mul64(r, a) % m else r, Mul64(a, a) % m, b / 2, m, i + 1))
  }

  /** With the accumulator below m, the base below 2^32 and m below 2^32,
      no product of the loop wraps around. */
  lemma {:induction false} ExpLoopFits(r: u64, a: u64, b: u64, m: u64, i: nat)
    requires 1 < m < Two32 && r < m && a < Two32 && i <= 31
    ensures ProductsFit(r, a, b, m, i)
    decreases 31 - i
  {
    Mul64Exact(r, a);
    Mul64Exact(a, a);
    if i < 31 {
      ExpLoopFits(if b % 2 == 1 then Mul64(r, a) % m else r, Mul64(a, a) % m, b / 2, m, i + 1);
    }
  }

  /** `expmod` called with a modulus below 2^32 forms no product that wraps. */
  lemma ExpModFits(a: u64, b: u64, m: u64)
    requires 1 < m < Two32 && a < Two32
    ensures ProductsFit(1, a, b, m, 0)
  {
    ExpLoopFits(1, a, b, m, 0);
  }

  /** From iteration i the loop multiplies r by a to the remaining low
      `32 - i` bits of b, modulo m. */
  lemma {:induction false} ExpLoopValue(r: u64, a: u64, b: u64, m: u64, i: nat)
    requires 1 < m < Two32 && r < m && a < Two32 && i <= 31
    ensures ExpLoop(r, a, b, m, i) == (r * Pow(a, b % Pow2(32 - i))) % m
    decreases 31 - i
  {
    var bit := b % 2;
    var r' := if bit == 1 then Mul64(r, a) % m else r;
    Mul64Exact(r, a);
    Mul64Exact(a, a);
    AccumulatorStep(r, a, bit, m, r');
    if i == 31 {
      assert Pow2(32 - i) == 2;
    } else {
      var a' := Mul64(a, a) % m;
      var e := (b / 2) % Pow2(31 - i);
      ExpLoopValue(r', a', b / 2, m, i + 1);
      assert 32 - i - 1 == 31 - i;
      ModPow2Split(b, 32 - i);
      SquareStep(r, a, bit, e, m, r', a');
    }
  }

  /** The accumulator after one conditional multiplication. */
  lemma AccumulatorStep(r: nat, a: nat, bit: nat, m: nat, r': nat)
    requires m > 0 && r < m && bit < 2
    requires r' == if bit == 1 then (r * a) % m else r
    ensures r' == (r * Pow(a, bit)) % m
  {
    if bit == 0 {
      ModUnique(r, m, 0, r);
    }
  }

  /** One squaring of the base halves the exponent still to come. */
  lemma SquareStep(r: nat, a: nat, bit: nat, e: nat, m: nat, r': nat, a': nat)
    requires m > 0 && r' == (r * Pow(a, bit)) % m && a' == (a * a) % m
    ensures (r' * Pow(a', e)) % m == (r * Pow(a, 2 * e + bit)) % m
  {
    PowMod(a * a, e, m);
    PowSquare(a, e);
    ModMod(r * Pow(a, bit), m);
    ModMulBoth(r', Pow(a', e), r * Pow(a, bit), Pow(a, 2 * e), m);
    PowAdd(a, bit, 2 * e);
    MulAssoc(r, Pow(a, bit), Pow(a, 2 * e));
  }

  /** The low n bits of b are its low bit below the low n - 1 bits of b / 2. */
  lemma ModPow2Split(b: nat, n: nat)
    requires n >= 1
    ensures b % Pow2(n) == 2 * ((b / 2) % Pow2(n - 1)) + b % 2
  {
    var p := Pow2(n - 1);
    var h, bit := b / 2, b % 2;
    var q, rem := h / p, h % p;
    assert b == 2 * h + bit;
    assert h == q * p + rem;
    assert b == q * (2 * p) + (2 * rem + bit);
    ModUnique(b, 2 * p, q, 2 * rem + bit);
  }

  lemma Pow2Of32()
    ensures Pow2(32) == Two32
  {
    Pow2Add(4, 4);
    assert Pow2(4) == 0x10;
    Pow2Add(8, 8);
    assert Pow2(16) == 0x1_0000;
    Pow2Add(16, 16);
  }

  /** `expmod(a, b, m)` is a to the low 32 bits of b, modulo m, whenever
      1 < m < 2^32 and a < 2^32; for b < 2^32 it is a^b mod m. */
  lemma ExpModValue(a: u64, b: u64, m: u64)
    requires 1 < m < Two32 && a < Two32
    ensures ExpMod(a, b, m) == Pow(a, b % Two32) % m
    ensures b < Two32 ==> ExpMod(a, b, m) == Pow(a, b) % m
  {
    ExpLoopValue(1, a, b, m, 0);
    Pow2Of32();
    assert 1 * Pow(a, b % Two32) == Pow(a, b % Two32);
    if b < Two32 {
      ModUnique(b, Two32, 0, b);
    }
  }

  // miller_rabin_witness

  /** `miller_rabin_witness(w, n, a, m)`: 1 when m passes the strong
      probable-prime test to base w, with m - 1 = 2^a * n. */
  function Witness(w: u64, n: u64, a: int, m: u64): (res: int)
    requires m > 0
    ensures res == 0 || res == 1
  {
    if w == m then 1
    else
      var k := ExpMod(w, n, m);
      if k == 1 || k == m - 1 then 1 else WitnessLoop(k, 1, a, m)
  }

  /** `for (i = 1; i < a; i++)`: square k, and stop with 1 at m - 1. */
  function WitnessLoop(k: u64, i: int, a: int, m: u64): (res: int)
    requires m > 0
    ensures res == 0 || res == 1
    decreases a - i
  {
    if i >= a then 0
    else
      var k' := Mul64(k, k) % m;
      if k' == m - 1 then 1 else WitnessLoop(k', i + 1, a, m)
  }

  /** The strong probable-prime condition to base w: w^n is 1 or -1
      modulo m, or one of its repeated squares w^(2^i * n), 1 <= i < a, is
      -1 modulo m. */
  predicate StrongProbable(w: nat, n: nat, a: int, m: nat)
    requires m > 0
  {
    || Pow(w, n) % m == 1
    || Pow(w, n) % m == m - 1
    || exists i: nat :: 1 <= i < a && Squared(w, n, i, m) == m - 1
  }

  /** w^(2^i * n) mod m: w^n mod m squared i times. */
  function Squared(w: nat, n: nat, i: nat, m: nat): nat
    requires m > 0
  {
    Pow(w, Pow2(i) * n) % m
  }

  /** The loop from iteration i, with k holding w^(2^(i-1) * n) mod m,
      returns 1 exactly when some later square is m - 1. */
  lemma {:induction false} WitnessLoopValue(w: nat, n: nat, k: u64, i: int, a: int, m: u64)
    requires 1 < m < Two32 && k < m && i >= 1 && k == Squared(w, n, i - 1, m)
    ensures WitnessLoop(k, i, a, m) == 1 <==> exists j: nat :: i <= j < a && Squared(w, n, j, m) == m - 1
    decreases a - i
  {
    if i < a {
      var k' := Mul64(k, k) % m;
      Mul64Exact(k, k);
      SquareAgain(w, n, k, i - 1, m);
      WitnessLoopValue(w, n, k', i + 1, a, m);
      if k' != m - 1 {
        assert forall j: nat :: i <= j < a && Squared(w, n, j, m) == m - 1 ==> i + 1 <= j;
      }
    }
  }

  /** Squaring w^(2^i * n) mod m gives w^(2^(i+1) * n) mod m. */
  lemma SquareAgain(w: nat, n: nat, k: nat, i: nat, m: nat)
    requires m > 0 && k == Squared(w, n, i, m)
    ensures (k * k) % m == Squared(w, n, i + 1, m)
  {
    var x := Pow(w, Pow2(i) * n);
    ModMod(x, m);
    ModMulBoth(k, k, x, x, m);
    PowDouble(w, Pow2(i) * n);
    Pow2Double(i, n);
  }

  /** `miller_rabin_witness` returns 1 when w = m and otherwise exactly
      when the strong probable-prime condition holds. */
  lemma WitnessValue(w: u64, n: u64, a: int, m: u64)
    requires 1 < m < Two32 && w < Two32 && n < Two32
    ensures Witness(w, n, a, m) == 1 <==> w == m || StrongProbable(w, n, a, m)
  {
    if w != m {
      var k := ExpMod(w, n, m);
      ExpModSmall(w, n, m);
      FirstSquares(w, n, k, a, m);
      WitnessCases(w, n, a, m, k);
    }
  }

  lemma ExpModSmall(a: u64, b: u64, m: u64)
    requires 1 < m < Two32 && a < Two32 && b < Two32
    ensures ExpMod(a, b, m) == Pow(a, b) % m
  {
    ExpModValue(a, b, m);
  }

  lemma FirstSquares(w: nat, n: nat, k: u64, a: int, m: u64)
    requires 1 < m < Two32 && k == Pow(w, n) % m
    ensures WitnessLoop(k, 1, a, m) == 1 <==> exists j: nat :: 1 <= j < a && Squared(w, n, j, m) == m - 1
  {
    assert Pow2(0) * n == n;
    WitnessLoopValue(w, n, k, 1, a, m);
  }

  lemma WitnessCases(w: u64, n: u64, a: int, m: u64, k: u64)
    requires 1 < m && w != m && k == ExpMod(w, n, m) && k == Pow(w, n) % m
    requires WitnessLoop(k, 1, a, m) == 1 <==> exists j: nat :: 1 <= j < a && Squared(w, n, j, m) == m - 1
    ensures Witness(w, n, a, m) == 1 <==> StrongProbable(w, n, a, m)
  {
  }

  // miller_rabin

  /** The halving loop: strips the factors 2 of d, counting them on top
      of a. */
  function Halve(d: nat, a: nat): (res: (nat, nat))
    requires d > 0
    ensures res.0 % 2 == 1 && res.1 >= a
    ensures d == Pow2(res.1 - a) * res.0
    ensures d % 2 == 0 ==> res.1 > a
    ensures res.0 <= d
    decreases d
  {
    if d % 2 == 0 then
      var res := Halve(d / 2, a + 1);
      assert d / 2 == Pow2(res.1 - (a + 1)) * res.0;
      assert Pow2(res.1 - a) == 2 * Pow2(res.1 - (a + 1));
      res
    else (d, a)
  }

  /** `miller_rabin(n)`: 1 for 2, 0 for 1 and other even numbers, and
      for odd n > 1 the conjunction of the witnesses 2, 7 and 61 with
      n - 1 split into 2^a * d. */
  function MillerRabin(n: u32): (res: int)
    ensures res == 0 || res == 1
    ensures n == 2 ==> res == 1
    ensures n == 1 || (n != 2 && n % 2 == 0) ==> res == 0
  {
    if n == 2 then 1
    else if n % 2 == 0 || n == 1 then 0
    else
      var d, a := Halve(n - 1, 0).0, Halve(n - 1, 0).1;
      if Witness(2, d, a, n) == 1 && Witness(7, d, a, n) == 1 && Witness(61, d, a, n) == 1 then 1 else 0
  }

  /** For odd n > 1 the halving loop writes n - 1 as 2^a * d with d odd
      and a >= 1. */
  lemma HalvingSplits(n: u32)
    requires n > 1 && n % 2 == 1
    ensures var d, a := Halve(n - 1, 0).0, Halve(n - 1, 0).1; n - 1 == Pow2(a) * d && d % 2 == 1 && a >= 1
  {
  }

  /** For odd n > 1, `miller_rabin` says prime exactly when n passes the
      strong probable-prime test to each of the bases 2, 7 and 61 (a base
      equal to n passes). */
  lemma MillerRabinValue(n: u32)
    requires n > 1 && n % 2 == 1
    ensures var d, a := Halve(n - 1, 0).0, Halve(n - 1, 0).1;
      MillerRabin(n) == 1 <==>
        && (2 == n || StrongProbable(2, d, a, n))
        && (7 == n || StrongProbable(7, d, a, n))
        && (61 == n || StrongProbable(61, d, a, n))
  {
    var d, a := Halve(n - 1, 0).0, Halve(n - 1, 0).1;
    WitnessBases(n, d, a);
  }

  lemma WitnessBases(m: u32, d: nat, a: int)
    requires 1 < m && d < m
    ensures Witness(2, d, a, m) == 1 <==> 2 == m || StrongProbable(2, d, a, m)
    ensures Witness(7, d, a, m) == 1 <==> 7 == m || StrongProbable(7, d, a, m)
    ensures Witness(61, d, a, m) == 1 <==> 61 == m || StrongProbable(61, d, a, m)
  {
    WitnessValue(2, d, a, m);
    WitnessValue(7, d, a, m);
    WitnessValue(61, d, a, m);
  }
}

=== FILE: numbers.dfy ===
/** Integer helpers behind Python's `math.gcd`, `math.lcm` and `math.isqrt`,
    with the facts about them that the rational and triangle modules use. */
module Numbers {

  /** `d` divides `n`; zero divides only zero. */
  predicate Divides(d: nat, n: int) {
    if d == 0 then n == 0 else n % d == 0
  }

  /** Greatest common divisor by Euclid's algorithm; `Gcd(0, 0) == 0`, as `math.gcd`. */
  function Gcd(a: nat, b: nat): nat
    decreases b
  {
    if b == 0 then a else Gcd(b, a % b)
  }

  /** `math.gcd` of three arguments folds left. */
  function Gcd3(a: nat, b: nat, c: nat): nat {
    Gcd(Gcd(a, b), c)
  }

  function Abs(n: int): nat {
    if n < 0 then -n else n
  }

  lemma DividesIntro(d: nat, n: int, k: int)
    requires n == d * k
    ensures Divides(d, n)
  {
    if d != 0 {
      ModOfMultiple(d, k);
    }
  }

  lemma MulAtLeast(d: int, t: int)
    requires d > 0 && t > 0
    ensures d * t >= d
  {
  }

  /** The only multiple of a positive `d` in `[0, d)` is zero. */
  lemma ZeroMultiple(d: int, t: int)
    requires d > 0 && 0 <= d * t < d
    ensures t == 0
  {
    if t > 0 {
      MulAtLeast(d, t);
    } else if t < 0 {
      MulAtLeast(d, -t);
    }
  }

  lemma ModOfMultiple(d: nat, k: int)
    requires d != 0
    ensures (d * k) % d == 0 && (d * k) / d == k
  {
    var n := d * k;
    var q, m := n / d, n % d;
    assert n == d * q + m;
    assert d * (k - q) == m;
    ZeroMultiple(d, k - q);
  }

  lemma DividesQuotient(d: nat, n: int)
    requires d != 0 && Divides(d, n)
    ensures n == d * (n / d)
  {
  }

  lemma DividesElim(d: nat, n: int) returns (k: int)
    requires Divides(d, n)
    ensures n == d * k
  {
    if d == 0 {
      k := 0;
    } else {
      k := n / d;
    }
  }

  /** A divisor of two numbers divides every integer combination of them. */
  lemma DividesCombination(d: nat, a: int, b: int, x: int, y: int)
    requires Divides(d, a) && Divides(d, b)
    ensures Divides(d, a * x + b * y)
  {
    var ka := DividesElim(d, a);
    var kb := DividesElim(d, b);
    assert a * x + b * y == d * (ka * x + kb * y) by {
      assert a * x == d * (ka * x);
      assert b * y == d * (kb * y);
    }
    DividesIntro(d, a * x + b * y, ka * x + kb * y);
  }

  lemma DividesOne(d: nat)
    requires Divides(d, 1)
    ensures d == 1
  {
    var k := DividesElim(d, 1);
    assert d * k == 1;
  }

  /** `Gcd` is a common divisor. */
  lemma {:induction false} GcdDivides(a: nat, b: nat)
    ensures Divides(Gcd(a, b), a) && Divides(Gcd(a, b), b)
    decreases b
  {
    if b == 0 {
      DividesIntro(a, a, 1);
      DividesIntro(a, 0, 0);
    } else {
      GcdDivides(b, a % b);
      var g := Gcd(b, a % b);
      assert a == b * (a / b) + (a % b);
      DividesCombination(g, b, a % b, a / b, 1);
    }
  }

  lemma GcdPositive(a: nat, b: nat)
    requires a != 0 || b != 0
    ensures Gcd(a, b) > 0
  {
    GcdDivides(a, b);
  }

  /** Bezout's identity, by the extended Euclidean algorithm. */
  lemma {:induction false} Bezout(a: nat, b: nat) returns (x: int, y: int)
    ensures a * x + b * y == Gcd(a, b)
    decreases b
  {
    if b == 0 {
      x, y := 1, 0;
    } else {
      var x', y' := Bezout(b, a % b);
      var q := a / b;
      assert a % b == a - b * q;
      x, y := y', x' - q * y';
      calc {
        a * x + b * y;
        a * y' + b * x' - b * q * y';
        b * x' + (a - b * q) * y';
        b * x' + (a % b) * y';
        Gcd(a, b);
      }
    }
  }

  /** A combination equal to one proves two numbers coprime. */
  lemma CoprimeByCombination(a: nat, b: nat, x: int, y: int)
    requires a * x + b * y == 1
    ensures Gcd(a, b) == 1
  {
    GcdDivides(a, b);
    DividesCombination(Gcd(a, b), a, b, x, y);
    DividesOne(Gcd(a, b));
  }

  /** Dividing two numbers by their gcd leaves them coprime. */
  lemma ReducedCoprime(a: nat, b: nat, ka: nat, kb: nat)
    requires Gcd(a, b) != 0 && a == Gcd(a, b) * ka && b == Gcd(a, b) * kb
    ensures Gcd(ka, kb) == 1
  {
    var x, y := Bezout(a, b);
    DivideCombination(a, b, Gcd(a, b), ka, kb, x, y);
    CoprimeByCombination(ka, kb, x, y);
  }

  /** The quotients of two numbers by their gcd. */
  lemma GcdQuotients(a: nat, b: nat)
    requires a != 0 || b != 0
    ensures Gcd(a, b) > 0
    ensures a == Gcd(a, b) * (a / Gcd(a, b)) && b == Gcd(a, b) * (b / Gcd(a, b))
  {
    GcdPositive(a, b);
    GcdDivides(a, b);
    DividesQuotient(Gcd(a, b), a);
    DividesQuotient(Gcd(a, b), b);
  }

  lemma DivideCombination(a: int, b: int, g: int, ka: int, kb: int, x: int, y: int)
    requires g != 0 && a == g * ka && b == g * kb && a * x + b * y == g
    ensures ka * x + kb * y == 1
  {
    assert a * x == g * (ka * x);
    assert b * y == g * (kb * y);
    assert g * (ka * x + kb * y) == g * 1;
    CancelLeft(g, ka * x + kb * y, 1);
  }

  lemma CancelLeft(d: int, x: int, y: int)
    requires d != 0 && d * x == d * y
    ensures x == y
  {
    assert d * (x - y) == 0;
  }

  /** Coprimality in terms of Bezout: coprime numbers have a combination equal to one. */
  lemma CoprimeCombination(a: nat, b: nat) returns (x: int, y: int)
    requires Gcd(a, b) == 1
    ensures a * x + b * y == 1
  {
    x, y := Bezout(a, b);
  }

  /** Squares of coprime numbers are coprime. */
  lemma CoprimeSquares(a: nat, b: nat)
    requires Gcd(a, b) == 1
    ensures Gcd(a * a, b * b) == 1
  {
    CoprimeProduct(a, a, b);
    CoprimeSymmetric(a * a, b);
    CoprimeProduct(b, b, a * a);
    CoprimeSymmetric(b * b, a * a);
  }

  lemma CoprimeSymmetric(a: nat, b: nat)
    requires Gcd(a, b) == 1
    ensures Gcd(b, a) == 1
  {
    var x, y := Bezout(a, b);
    CoprimeByCombination(b, a, y, x);
  }

  /** A product of two numbers coprime to c is coprime to c. */
  lemma CoprimeProduct(a: nat, b: nat, c: nat)
    requires Gcd(a, c) == 1 && Gcd(b, c) == 1
    ensures Gcd(a * b, c) == 1
  {
    var x, y := Bezout(a, c);
    var u, v := Bezout(b, c);
    ProductOfCombinations(a, b, c, x, y, u, v);
    CoprimeByCombination(a * b, c, x * u, a * x * v + y * b * u + c * y * v);
  }

  lemma ProductOfCombinations(a: int, b: int, c: int, x: int, y: int, u: int, v: int)
    requires a * x + c * y == 1 && b * u + c * v == 1
    ensures (a * b) * (x * u) + c * (a * x * v + y * b * u + c * y * v) == 1
  {
    assert (a * x + c * y) * (b * u + c * v) == (a * b) * (x * u) + c * (a * x * v + y * b * u + c * y * v);
  }

  lemma GcdDivides3(a: nat, b: nat, c: nat)
    ensures Divides(Gcd3(a, b, c), a) && Divides(Gcd3(a, b, c), b) && Divides(Gcd3(a, b, c), c)
  {
    GcdDivides(a, b);
    GcdDivides(Gcd(a, b), c);
    DividesTrans(Gcd3(a, b, c), Gcd(a, b), a);
    DividesTrans(Gcd3(a, b, c), Gcd(a, b), b);
  }

  lemma GcdPositive3(a: nat, b: nat, c: nat)
    requires a > 0
    ensures Gcd3(a, b, c) > 0
  {
    GcdPositive(a, b);
    GcdPositive(Gcd(a, b), c);
  }

  /** Python's `math.lcm` of two positive numbers: `a // gcd(a, b) * b`,
      the least common multiple: it divides every common multiple. */
  function Lcm(a: nat, b: nat): (l: nat)
    requires a > 0 && b > 0
    ensures l > 0 && Divides(a, l) && Divides(b, l)
    ensures l * Gcd(a, b) == a * b
    ensures forall m: int :: Divides(a, m) && Divides(b, m) ==> Divides(l, m)
  {
    GcdPositive(a, b);
    var q := a / Gcd(a, b);
    var l: int := q * b;
    MulAtLeast(b, q + 1);
    LcmMultiple(a, b, l);
    LcmLeast(a, b, l);
    l
  }

  /** `a // gcd(a, b) * b` is a positive common multiple whose product
      with the gcd is `a * b`. */
  lemma LcmMultiple(a: nat, b: nat, l: nat)
    requires a > 0 && b > 0 && Gcd(a, b) > 0 && l == a / Gcd(a, b) * b
    ensures l > 0 && Divides(a, l) && Divides(b, l)
    ensures l * Gcd(a, b) == a * b
  {
    GcdDivides(a, b);
    var g := Gcd(a, b);
    var ka := DividesElim(g, a);
    var kb := DividesElim(g, b);
    ExactQuotient(g, ka, a);
    LcmFromFactors(a, b, g, ka, kb, l);
  }

  /** Dividing an exact multiple recovers the factor. */
  lemma ExactQuotient(g: nat, k: int, a: int)
    requires g > 0 && a == g * k
    ensures a / g == k
  {
    DividesIntro(g, a, k);
    DividesQuotient(g, a);
    CancelLeft(g, a / g, k);
  }

  lemma LcmFromFactors(a: int, b: int, g: int, ka: int, kb: int, l: int)
    requires a > 0 && b > 0 && g > 0 && a == g * ka && b == g * kb && l == ka * b
    ensures l > 0 && Divides(a, l) && Divides(b, l)
    ensures l * g == a * b
  {
    PositiveFactor(g, ka, a);
    LcmParts(g, ka, kb, a, b, l);
    MulAtLeast(b, ka);
    DividesIntro(a, l, kb);
    DividesIntro(b, l, ka);
  }

  lemma PositiveFactor(g: int, k: int, a: int)
    requires g > 0 && a > 0 && a == g * k
    ensures k > 0
  {
  }

  lemma LcmParts(g: int, ka: int, kb: int, a: int, b: int, l: int)
    requires a == g * ka && b == g * kb && l == ka * b
    ensures l == a * kb && l * g == a * b
  {
    MulRegroup(ka, g, kb);
    MulRegroup(ka, b, g);
  }

  /** Regrouping a product of three factors. */
  lemma MulRegroup(p: int, q: int, r: int)
    ensures p * (q * r) == (q * p) * r
    ensures (p * q) * r == (r * p) * q
  {
  }

  /** Regrouping a product of four factors. */
  lemma MulSwap4(p: int, q: int, r: int, t: int)
    ensures (p * q) * (r * t) == (r * p) * (q * t)
  {
    MulRegroup(p, q, r * t);
    MulRegroup(q, r, t);
    MulRegroup(r, p, q * t);
  }

  lemma MulDistrib(p: int, u: int, v: int)
    ensures p * (u + v) == p * u + p * v
  {
  }

  /** Every common multiple of a and b is a multiple of l when l * gcd == a * b. */
  lemma LcmLeast(a: nat, b: nat, l: nat)
    requires a > 0 && b > 0 && l * Gcd(a, b) == a * b
    ensures forall m: int :: Divides(a, m) && Divides(b, m) ==> Divides(l, m)
  {
    GcdPositive(a, b);
    var x, y := Bezout(a, b);
    forall m: int | Divides(a, m) && Divides(b, m)
      ensures Divides(l, m)
    {
      var k1 := DividesElim(a, m);
      var k2 := DividesElim(b, m);
      LcmCofactor(a, b, Gcd(a, b), l, m, k1, k2, x, y);
      DividesIntro(l, m, k2 * x + k1 * y);
    }
  }

  lemma LcmCofactor(a: int, b: int, g: int, l: int, m: int, k1: int, k2: int, x: int, y: int)
    requires g != 0 && l * g == a * b && m == a * k1 && m == b * k2 && a * x + b * y == g
    ensures m == l * (k2 * x + k1 * y)
  {
    var u, v := a * x, b * y;
    var p, q := k2 * x, k1 * y;
    var ab, c := a * b, k2 * x + k1 * y;
    MulDistrib(m, u, v);
    MulSwap4(b, k2, a, x);
    MulSwap4(a, k1, b, y);
    MulDistrib(ab, p, q);
    MulRegroup(g, l, c);
    assert g * (l * c) == g * m;
    CancelLeft(g, l * c, m);
  }

  /** A common divisor of a and b divides their gcd. */
  lemma GcdGreatest(c: nat, a: nat, b: nat)
    requires Divides(c, a) && Divides(c, b)
    ensures Divides(c, Gcd(a, b))
  {
    var x, y := Bezout(a, b);
    DividesCombination(c, a, b, x, y);
  }

  /** Euclid's lemma: a divisor of a product coprime to one factor divides the other. */
  lemma CoprimeDivides(c: nat, a: nat, b: int)
    requires Gcd(c, a) == 1 && Divides(c, a * b)
    ensures Divides(c, b)
  {
    var x, y := Bezout(c, a);
    var u := x * b;
    SplitByCombination(c, a, b, x, y, u);
    DividesMultiple(c, u);
    DividesCombination(c, c * u, a * b, 1, y);
  }

  lemma SplitByCombination(c: int, a: int, b: int, x: int, y: int, u: int)
    requires c * x + a * y == 1 && u == x * b
    ensures b == (c * u) * 1 + (a * b) * y
  {
    assert (c * x + a * y) * b == c * (x * b) + (a * b) * y;
  }

  lemma DividesNegate(d: nat, n: int)
    requires Divides(d, n)
    ensures Divides(d, -n)
  {
    var k := DividesElim(d, n);
    DividesIntro(d, -n, -k);
  }

  lemma AbsProduct(p: nat, n: int)
    ensures Abs(p * n) == Abs(n) * p
  {
    if n < 0 {
      assert p * n == -(p * -n);
    }
  }

  lemma DividesAbs(d: nat, n: int)
    ensures Divides(d, n) <==> Divides(d, Abs(n))
  {
    if n < 0 {
      if Divides(d, n) { DividesNegate(d, n); }
      if Divides(d, Abs(n)) { DividesNegate(d, Abs(n)); }
    }
  }

  /** Cancelling a positive common factor keeps divisibility. */
  lemma DividesCancel(e: nat, a: nat, b: int)
    requires e > 0 && Divides(e * a, e * b)
    ensures Divides(a, b)
  {
    var k := DividesElim(e * a, e * b);
    var t := a * k;
    assert e * b == e * t;
    CancelLeft(e, b, t);
    DividesIntro(a, b, k);
  }

  /** Divisibility multiplies. */
  lemma DividesProduct(a: nat, b: int, c: nat, d: int)
    requires Divides(a, b) && Divides(c, d)
    ensures Divides(a * c, b * d)
  {
    var k1 := DividesElim(a, b);
    var k2 := DividesElim(c, d);
    assert b * d == (a * c) * (k1 * k2);
    DividesIntro(a * c, b * d, k1 * k2);
  }

  /** Every number divides its multiples. */
  lemma DividesMultiple(a: nat, k: int)
    ensures Divides(a, a * k) && Divides(a, k * a)
  {
    DividesIntro(a, a * k, k);
    DividesIntro(a, k * a, k);
  }

  lemma DividesTrans(a: nat, b: nat, c: int)
    requires Divides(a, b) && Divides(b, c)
    ensures Divides(a, c)
  {
    var k1 := DividesElim(a, b);
    var k2 := DividesElim(b, c);
    assert c == a * (k1 * k2);
    DividesIntro(a, c, k1 * k2);
  }

  /** Floor square root, as `math.isqrt` on non-negative integers. */
  function Isqrt(n: nat): (r: nat)
    ensures r * r <= n < (r + 1) * (r + 1)
  {
    IsqrtFrom(n, 0)
  }

  function IsqrtFrom(n: nat, k: nat): (r: nat)
    requires k * k <= n
    ensures r * r <= n < (r + 1) * (r + 1)
    decreases n - k
  {
    if (k + 1) * (k + 1) > n then k
    else
      assert k + 1 <= (k + 1) * (k + 1);
      IsqrtFrom(n, k + 1)
  }

  lemma SquareMonotone(a: nat, b: nat)
    requires a < b
    ensures a * a < b * b
  {
    assert a * a <= a * b;
    assert a * b < b * b;
  }

  /** The floor square root of a perfect square is its root. */
  lemma IsqrtOfSquare(k: nat)
    ensures Isqrt(k * k) == k
  {
    var r := Isqrt(k * k);
    if r < k {
      SquareMonotone(r + 1, k + 1);
      if r + 1 < k { SquareMonotone(r + 1, k); }
    } else if r > k {
      SquareMonotone(k, r);
    }
  }

  /** `n` is a perfect square exactly when `Isqrt` squares back to it. */
  lemma IsqrtExact(n: nat, k: nat)
    requires k * k == n
    ensures Isqrt(n) * Isqrt(n) == n
  {
    IsqrtOfSquare(k);
  }
}

=== FILE: pairs.dfy ===
/** `generate_pairs` of triangle/solver.py: the coprime pairs of the tree
    (a, b) -> (a, a + b), (a + b, b) rooted at (1, 2), walked depth first
    with an explicit stack, each pair listed smaller entry first, after the
    pair (1, 1). */
module Pairs {
  import opened Numbers
  import opened Powers

  /** A stack entry: a tree node and its depth. */
  datatype Node = Node(a: nat, b: nat, depth: nat)

  /** The pair yielded for a node: smaller entry first. */
  function Ordered(a: nat, b: nat): (p: (nat, nat))
    ensures p.0 <= p.1
    ensures p == (a, b) || p == (b, a)
  {
    if a > b then (b, a) else (a, b)
  }

  /** What the walk yields for a node and all its descendants, in order:
      the node, then the subtree of (a, a + b), then that of (a + b, b);
      nodes at depth `maxDepth - 1` have no children. */
  function Subtree(n: Node, maxDepth: nat): (res: seq<(nat, nat)>)
    requires n.depth < maxDepth
    ensures |res| > 0 && res[0] == Ordered(n.a, n.b)
    ensures n.depth + 1 == maxDepth <==> |res| == 1
    decreases maxDepth - n.depth
  {
    var d := n.depth + 1;
    [Ordered(n.a, n.b)]
      + (if d == maxDepth then []
         else Subtree(Node(n.a, n.a + n.b, d), maxDepth) + Subtree(Node(n.a + n.b, n.b, d), maxDepth))
  }

  /** `list(generate_pairs(max_depth))`. */
  function GeneratePairs(maxDepth: int): (res: seq<(nat, nat)>)
    ensures |res| > 0 && res[0] == (1, 1)
    ensures maxDepth <= 0 <==> |res| == 1
    ensures maxDepth > 0 ==> res[1] == (1, 2)
  {
    [(1, 1)] + (if maxDepth <= 0 then [] else Subtree(Node(1, 2, 0), maxDepth))
  }

  /** The generator's loop: pop a node, yield its pair, push its children
      (a + b, b) and then (a, a + b) unless the next depth is `max_depth`. */
  method GeneratePairsLoop(maxDepth: int) returns (pairs: seq<(nat, nat)>)
    ensures pairs == GeneratePairs(maxDepth)
  {
    pairs := [(1, 1)];
    if maxDepth <= 0 {
      return;
    }
    var stack := [Node(1, 2, 0)];
    while |stack| > 0
      invariant InTree(stack, maxDepth)
      invariant pairs + Pending(stack, maxDepth) == GeneratePairs(maxDepth)
      decreases |Pending(stack, maxDepth)|
    {
      var top := stack[|stack| - 1];
      PopStep(stack, maxDepth);
      pairs := pairs + [Ordered(top.a, top.b)];
      stack := Pop(stack, maxDepth);
    }
  }

  predicate InTree(stack: seq<Node>, maxDepth: nat) {
    forall i :: 0 <= i < |stack| ==> stack[i].depth < maxDepth
  }

  /** One iteration: the stack with its top replaced by the top's children. */
  function Pop(stack: seq<Node>, maxDepth: nat): (next: seq<Node>)
    requires |stack| > 0 && InTree(stack, maxDepth)
    ensures InTree(next, maxDepth)
  {
    var top, rest := stack[|stack| - 1], stack[..|stack| - 1];
    var d := top.depth + 1;
    if d == maxDepth then rest
    else rest + [Node(top.a + top.b, top.b, d), Node(top.a, top.a + top.b, d)]
  }

  /** An iteration yields the top's pair and owes exactly what it owed before, minus that pair. */
  lemma PopStep(stack: seq<Node>, maxDepth: nat)
    requires |stack| > 0 && InTree(stack, maxDepth)
    ensures Pending(stack, maxDepth)
         == [Ordered(stack[|stack| - 1].a, stack[|stack| - 1].b)] + Pending(Pop(stack, maxDepth), maxDepth)
  {
    var top, rest := stack[|stack| - 1], stack[..|stack| - 1];
    var d := top.depth + 1;
    if d != maxDepth {
      var left, right := Node(top.a, top.a + top.b, d), Node(top.a + top.b, top.b, d);
      assert Pop(stack, maxDepth) == (rest + [right]) + [left];
      PendingSnoc(rest, right, maxDepth);
      PendingSnoc(rest + [right], left, maxDepth);
    }
  }

  /** The output still owed by a stack: the subtrees of its entries, top first. */
  function Pending(stack: seq<Node>, maxDepth: nat): seq<(nat, nat)>
    requires InTree(stack, maxDepth)
  {
    if |stack| == 0 then []
    else Subtree(stack[|stack| - 1], maxDepth) + Pending(stack[..|stack| - 1], maxDepth)
  }

  lemma PendingSnoc(stack: seq<Node>, n: Node, maxDepth: nat)
    requires InTree(stack, maxDepth) && n.depth < maxDepth
    ensures Pending(stack + [n], maxDepth) == Subtree(n, maxDepth) + Pending(stack, maxDepth)
  {
    assert (stack + [n])[..|stack|] == stack;
  }

  /** A subtree rooted at depth `d` has 2^(maxDepth - d) - 1 nodes. */
  lemma {:induction false} SubtreeLength(n: Node, maxDepth: nat)
    requires n.depth < maxDepth
    ensures |Subtree(n, maxDepth)| == Pow2(maxDepth - n.depth) - 1
    decreases maxDepth - n.depth
  {
    var d := n.depth + 1;
    if d != maxDepth {
      SubtreeLength(Node(n.a, n.a + n.b, d), maxDepth);
      SubtreeLength(Node(n.a + n.b, n.b, d), maxDepth);
    }
  }

  /** The walk starts with (1, 1), yields only that for a depth of at most
      zero and 2^max_depth pairs otherwise. */
  lemma GeneratePairsLength(maxDepth: int)
    ensures GeneratePairs(maxDepth)[0] == (1, 1)
    ensures maxDepth <= 0 ==> GeneratePairs(maxDepth) == [(1, 1)]
    ensures maxDepth > 0 ==> |GeneratePairs(maxDepth)| == Pow2(maxDepth)
  {
    if maxDepth > 0 {
      SubtreeLength(Node(1, 2, 0), maxDepth);
    }
  }

  /** A pair of positive coprime numbers, smaller first. */
  predicate GoodPair(p: (nat, nat)) {
    1 <= p.0 <= p.1 && Gcd(p.0, p.1) == 1
  }

  /** Every node of the tree holds positive coprime numbers, and so every
      pair yielded is positive, ordered and coprime. */
  lemma {:induction false} SubtreeGood(n: Node, maxDepth: nat)
    requires n.depth < maxDepth
    requires n.a >= 1 && n.b >= 1 && Gcd(n.a, n.b) == 1
    ensures forall i :: 0 <= i < |Subtree(n, maxDepth)| ==> GoodPair(Subtree(n, maxDepth)[i])
    decreases maxDepth - n.depth
  {
    OrderedCoprime(n.a, n.b);
    var d := n.depth + 1;
    if d != maxDepth {
      ChildrenCoprime(n.a, n.b);
      SubtreeGood(Node(n.a, n.a + n.b, d), maxDepth);
      SubtreeGood(Node(n.a + n.b, n.b, d), maxDepth);
    }
  }

  lemma GeneratePairsGood(maxDepth: int)
    ensures forall i :: 0 <= i < |GeneratePairs(maxDepth)| ==> GoodPair(GeneratePairs(maxDepth)[i])
  {
    assert Gcd(1, 1) == 1 by { assert Gcd(1, 1) == Gcd(1, 0); }
    if maxDepth > 0 {
      assert Gcd(1, 2) == 1 by { assert Gcd(1, 2) == Gcd(2, 1) == Gcd(1, 0); }
      SubtreeGood(Node(1, 2, 0), maxDepth);
    }
  }

  /** Both children of a coprime node are coprime. */
  lemma ChildrenCoprime(a: nat, b: nat)
    requires Gcd(a, b) == 1
    ensures Gcd(a, a + b) == 1 && Gcd(a + b, b) == 1
  {
    var x, y := Bezout(a, b);
    assert a * (x - y) + (a + b) * y == 1;
    CoprimeByCombination(a, a + b, x - y, y);
    assert (a + b) * x + b * (y - x) == 1;
    CoprimeByCombination(a + b, b, x, y - x);
  }

  lemma OrderedCoprime(a: nat, b: nat)
    requires Gcd(a, b) == 1 && a >= 1 && b >= 1
    ensures GoodPair(Ordered(a, b))
  {
    var x, y := Bezout(a, b);
    CoprimeByCombination(b, a, y, x);
  }
}

=== FILE: powers.dfy ===
/** Natural powers and the remainder arithmetic modular exponentiation
    relies on. */
module Powers {
  import opened Numbers

  function Pow(x: nat, e: nat): nat {
    if e == 0 then 1 else x * Pow(x, e - 1)
  }

  function Pow2(e: nat): (p: nat)
    ensures p >= 1
  {
    if e == 0 then 1 else 2 * Pow2(e - 1)
  }

  lemma {:induction false} PowAdd(x: nat, e1: nat, e2: nat)
    ensures Pow(x, e1 + e2) == Pow(x, e1) * Pow(x, e2)
  {
    if e1 > 0 {
      PowAdd(x, e1 - 1, e2);
      calc {
        Pow(x, e1 + e2);
        x * Pow(x, e1 - 1 + e2);
        x * (Pow(x, e1 - 1) * Pow(x, e2));
        { MulAssoc(x, Pow(x, e1 - 1), Pow(x, e2)); }
        x * Pow(x, e1 - 1) * Pow(x, e2);
      }
    }
  }

  lemma MulAssoc(a: int, b: int, c: int)
    ensures a * (b * c) == a * b * c
  {
  }

  /** Squaring the base doubles the exponent. */
  lemma {:induction false} PowSquare(x: nat, e: nat)
    ensures Pow(x * x, e) == Pow(x, 2 * e)
  {
    if e > 0 {
      PowSquare(x, e - 1);
      assert Pow(x, 2 * e) == x * (x * Pow(x, 2 * (e - 1))) by {
        assert Pow(x, 2 * e) == x * Pow(x, 2 * e - 1);
        assert 2 * e - 1 - 1 == 2 * (e - 1);
      }
      MulAssoc(x, x, Pow(x, 2 * (e - 1)));
    }
  }

  /** Doubling the exponent squares the power. */
  lemma PowDouble(x: nat, e: nat)
    ensures Pow(x, 2 * e) == Pow(x, e) * Pow(x, e)
  {
    PowAdd(x, e, e);
  }

  lemma {:induction false} Pow2Add(e1: nat, e2: nat)
    ensures Pow2(e1 + e2) == Pow2(e1) * Pow2(e2)
  {
    if e1 > 0 {
      Pow2Add(e1 - 1, e2);
      MulAssoc(2, Pow2(e1 - 1), Pow2(e2));
    }
  }

  lemma Pow2Double(i: nat, n: nat)
    ensures 2 * (Pow2(i) * n) == Pow2(i + 1) * n
  {
  }

  /** The quotient and remainder of division by m are unique. */
  lemma ModUnique(n: int, m: nat, q: int, r: int)
    requires m > 0 && 0 <= r < m && n == q * m + r
    ensures n % m == r && n / m == q
  {
    var q', r' := n / m, n % m;
    assert n == q' * m + r';
    assert m * (q - q') == r' - r by {
      assert q * m - q' * m == r' - r;
      assert m * (q - q') == q * m - q' * m;
    }
    if q > q' {
      ZeroMultiple(m, q - q');
    } else if q < q' {
      assert m * (q' - q) == r - r';
      ZeroMultiple(m, q' - q);
    }
  }

  /** Adding a multiple of m does not change the remainder. */
  lemma ModAddMultiple(k: nat, m: nat, z: nat)
    requires m > 0
    ensures (k * m + z) % m == z % m
  {
    var q, r := z / m, z % m;
    assert z == q * m + r;
    assert k * m + z == (k + q) * m + r by {
      assert (k + q) * m == k * m + q * m;
    }
    ModUnique(k * m + z, m, k + q, r);
  }

  /** The remainder of a product depends only on the factors' remainders. */
  lemma ModMulLeft(x: nat, y: nat, m: nat)
    requires m > 0
    ensures (x % m * y) % m == (x * y) % m
  {
    var q, r := x / m, x % m;
    assert x == q * m + r;
    assert x * y == (q * y) * m + r * y by {
      assert x * y == (q * m + r) * y;
      assert (q * m + r) * y == (q * m) * y + r * y;
      assert (q * m) * y == (q * y) * m;
    }
    ModAddMultiple(q * y, m, r * y);
  }

  lemma ModMul(x: nat, y: nat, m: nat)
    requires m > 0
    ensures (x % m * (y % m)) % m == (x * y) % m
  {
    ModMulLeft(x, y % m, m);
    ModMulLeft(y, x, m);
    assert x * (y % m) == y % m * x;
    assert y * x == x * y;
  }

  /** Reducing the base first does not change the remainder of a power. */
  lemma {:induction false} PowMod(x: nat, e: nat, m: nat)
    requires m > 0
    ensures Pow(x % m, e) % m == Pow(x, e) % m
  {
    if e > 0 {
      PowMod(x, e - 1, m);
      ModMod(x, m);
      ModMulBoth(x % m, Pow(x % m, e - 1), x, Pow(x, e - 1), m);
    }
  }

  lemma ModMod(x: nat, m: nat)
    requires m > 0
    ensures x % m % m == x % m
  {
    ModUnique(x % m, m, 0, x % m);
  }

  /** Factors with equal remainders have products with equal remainders. */
  lemma ModMulBoth(a: nat, b: nat, c: nat, d: nat, m: nat)
    requires m > 0 && a % m == c % m && b % m == d % m
    ensures (a * b) % m == (c * d) % m
  {
    ModMul(a, b, m);
    ModMul(c, d, m);
  }

  lemma {:induction false} PowOne(e: nat)
    ensures Pow(1, e) == 1
  {
    if e > 0 {
      PowOne(e - 1);
    }
  }
}

=== FILE: radix.dfy ===
/** `rsort` of misc/radix.c: least-significant-digit radix sort of unsigned
    32-bit values in three stable counting-sort passes, on the digits
    `x & 0x7ff`, `(x >> 11) & 0x7ff` and `x >> 22`.

    Values are integers below 2^32; the masks and shifts are written as the
    remainders and quotients they compute on such values. The reference
    meaning of one pass is functional: the elements with digit 0, in their
    order, then those with digit 1, and so on. */
module Radix {
  import opened Words

  /** Number of buckets of pass p: `c0` and `c1` have 0x800, `c2` has 0x400. */
  function Buckets(p: nat): nat {
    if p < 2 then 0x800 else 0x400
  }

  /** The digit pass p sorts on: `x & 0x7ff`, `(x >> 11) & 0x7ff`, `x >> 22`.
      The last needs no mask: it is below 0x400 for every 32-bit value. */
  function Digit(p: nat, x: u32): (d: nat)
    requires p < 3
    ensures d < Buckets(p)
  {
    if p == 0 then x % 0x800 else if p == 1 then (x / 0x800) % 0x800 else x / 0x40_0000
  }

  /** The low bits a value is sorted by after `q` passes: none, 11, 22, all 32. */
  function Low(q: nat, x: u32): nat
    requires q <= 3
  {
    if q == 0 then 0 else if q == 1 then x % 0x800 else if q == 2 then x % 0x40_0000 else x
  }

  /** The weight of digit p within `Low(p + 1, x)`. */
  function Weight(p: nat): nat {
    if p == 0 then 1 else if p == 1 then 0x800 else 0x40_0000
  }

  /** Pass p adds digit p above the bits already sorted. */
  lemma LowSplit(p: nat, x: u32)
    requires p < 3
    ensures Low(p + 1, x) == Digit(p, x) * Weight(p) + Low(p, x)
    ensures Low(p, x) < Weight(p)
  {
    if p == 1 {
      var q, r := x / 0x800, x % 0x800;
      assert x == 0x800 * q + r;
      assert x % 0x40_0000 == 0x800 * (q % 0x800) + r by {
        var q1, q0 := q / 0x800, q % 0x800;
        assert x == 0x40_0000 * q1 + (0x800 * q0 + r);
      }
    }
  }

  /** The elements of xs whose digit p is k, in their order. */
  function Bucket(xs: seq<u32>, p: nat, k: nat): seq<u32>
    requires p < 3
  {
    if |xs| == 0 then []
    else if Digit(p, xs[0]) == k then [xs[0]] + Bucket(xs[1..], p, k)
    else Bucket(xs[1..], p, k)
  }

  /** A bucket holds only elements of its digit, taken from the input. */
  lemma {:induction false} BucketWithin(xs: seq<u32>, p: nat, k: nat)
    requires p < 3
    ensures forall i :: 0 <= i < |Bucket(xs, p, k)| ==> Digit(p, Bucket(xs, p, k)[i]) == k
    ensures multiset(Bucket(xs, p, k)) <= multiset(xs)
  {
    if |xs| > 0 {
      BucketWithin(xs[1..], p, k);
      assert xs == [xs[0]] + xs[1..];
    }
  }

  /** How many elements of xs have digit p equal to k. */
  function Count(xs: seq<u32>, p: nat, k: nat): nat
    requires p < 3
  {
    |Bucket(xs, p, k)|
  }

  /** How many elements of xs have digit p below k: where bucket k starts. */
  function Start(xs: seq<u32>, p: nat, k: nat): nat
    requires p < 3
  {
    if k == 0 then 0 else Start(xs, p, k - 1) + Count(xs, p, k - 1)
  }

  /** Buckets k, k + 1, ... of pass p, one after the other. */
  function Gather(xs: seq<u32>, p: nat, k: nat): seq<u32>
    requires p < 3
    decreases Buckets(p) - k
  {
    if k >= Buckets(p) then [] else Bucket(xs, p, k) + Gather(xs, p, k + 1)
  }

  lemma {:induction false} GatherDigits(xs: seq<u32>, p: nat, k: nat)
    requires p < 3
    ensures forall i :: 0 <= i < |Gather(xs, p, k)| ==> Digit(p, Gather(xs, p, k)[i]) >= k
    decreases Buckets(p) - k
  {
    if k < Buckets(p) {
      GatherDigits(xs, p, k + 1);
      BucketWithin(xs, p, k);
      var b, g := Bucket(xs, p, k), Gather(xs, p, k + 1);
      forall i | 0 <= i < |b + g|
        ensures Digit(p, (b + g)[i]) >= k
      {
        if i < |b| {
          assert (b + g)[i] == b[i];
        } else {
          assert (b + g)[i] == g[i - |b|];
        }
      }
    }
  }

  /** One counting-sort pass: the elements in order of digit p, elements
      with equal digits in their original order. It permutes its input,
      keeps each digit's elements in their input order (stability), and
      extends order on the low bits below pass p to the low bits through
      pass p. */
  function Pass(xs: seq<u32>, p: nat): (res: seq<u32>)
    requires p < 3
    ensures multiset(res) == multiset(xs)
    ensures forall k :: Bucket(res, p, k) == Bucket(xs, p, k)
    ensures (p == 0 || SortedLow(xs, p)) ==> SortedLow(res, p + 1)
  {
    GatherMultiset(xs, p, 0);
    AtLeastZero(xs, p);
    assert forall k :: Bucket(Gather(xs, p, 0), p, k) == Bucket(xs, p, k) by {
      forall k
        ensures Bucket(Gather(xs, p, 0), p, k) == Bucket(xs, p, k)
      {
        BucketOfGather(xs, p, 0, k);
      }
    }
    if p == 0 || SortedLow(xs, p) then
      GatherSorted(xs, p, 0);
      Gather(xs, p, 0)
    else
      Gather(xs, p, 0)
  }

  /** The three passes of `rsort`: a permutation of the input in
      non-decreasing order. */
  function RadixSort(xs: seq<u32>): (res: seq<u32>)
    ensures multiset(res) == multiset(xs)
    ensures Sorted(res)
  {
    var a := Pass(xs, 0);
    var b := Pass(a, 1);
    var c := Pass(b, 2);
    SortedAllBits(c);
    c
  }

  /** Bucket k of a concatenation is the concatenation of the buckets. */
  lemma {:induction false} BucketConcat(a: seq<u32>, b: seq<u32>, p: nat, k: nat)
    requires p < 3
    ensures Bucket(a + b, p, k) == Bucket(a, p, k) + Bucket(b, p, k)
  {
    if |a| > 0 {
      assert a + b == [a[0]] + (a[1..] + b);
      assert a == [a[0]] + a[1..];
      BucketCons(a[0], a[1..] + b, p, k);
      BucketCons(a[0], a[1..], p, k);
      BucketConcat(a[1..], b, p, k);
    } else {
      assert a + b == b;
    }
  }

  /** Selecting digit k from bucket j gives bucket k when j = k, else nothing. */
  lemma {:induction false} BucketOfBucket(xs: seq<u32>, p: nat, j: nat, k: nat)
    requires p < 3
    ensures Bucket(Bucket(xs, p, j), p, k) == if j == k then Bucket(xs, p, k) else []
  {
    if |xs| > 0 {
      BucketOfBucket(xs[1..], p, j, k);
      if Digit(p, xs[0]) == j {
        BucketCons(xs[0], Bucket(xs[1..], p, j), p, k);
      }
    }
  }

  /** No element has a digit beyond the pass's bucket count. */
  lemma {:induction false} BucketBeyond(xs: seq<u32>, p: nat, k: nat)
    requires p < 3 && k >= Buckets(p)
    ensures Bucket(xs, p, k) == []
  {
    if |xs| > 0 {
      BucketBeyond(xs[1..], p, k);
    }
  }

  /** Buckets j, j + 1, ... hold each later bucket unchanged. */
  lemma {:induction false} BucketOfGather(xs: seq<u32>, p: nat, j: nat, k: nat)
    requires p < 3
    ensures Bucket(Gather(xs, p, j), p, k) == if j <= k then Bucket(xs, p, k) else []
    decreases Buckets(p) - j
  {
    if j >= Buckets(p) {
      if j <= k {
        BucketBeyond(xs, p, k);
      }
    } else {
      BucketConcat(Bucket(xs, p, j), Gather(xs, p, j + 1), p, k);
      BucketOfBucket(xs, p, j, k);
      BucketOfGather(xs, p, j + 1, k);
    }
  }

  /** The elements of xs whose digit is at least k. */
  function AtLeast(xs: seq<u32>, p: nat, k: nat): seq<u32>
    requires p < 3
  {
    if |xs| == 0 then []
    else if Digit(p, xs[0]) >= k then [xs[0]] + AtLeast(xs[1..], p, k)
    else AtLeast(xs[1..], p, k)
  }

  lemma {:induction false} AtLeastSplit(xs: seq<u32>, p: nat, k: nat)
    requires p < 3
    ensures multiset(AtLeast(xs, p, k)) == multiset(Bucket(xs, p, k)) + multiset(AtLeast(xs, p, k + 1))
  {
    if |xs| > 0 {
      AtLeastSplit(xs[1..], p, k);
    }
  }

  lemma {:induction false} AtLeastZero(xs: seq<u32>, p: nat)
    requires p < 3
    ensures AtLeast(xs, p, 0) == xs
  {
    if |xs| > 0 {
      AtLeastZero(xs[1..], p);
      assert xs == [xs[0]] + xs[1..];
    }
  }

  lemma {:induction false} AtLeastNone(xs: seq<u32>, p: nat, k: nat)
    requires p < 3 && k >= Buckets(p)
    ensures AtLeast(xs, p, k) == []
  {
    if |xs| > 0 {
      AtLeastNone(xs[1..], p, k);
    }
  }

  lemma {:induction false} GatherMultiset(xs: seq<u32>, p: nat, k: nat)
    requires p < 3
    ensures multiset(Gather(xs, p, k)) == multiset(AtLeast(xs, p, k))
    decreases Buckets(p) - k
  {
    if k >= Buckets(p) {
      AtLeastNone(xs, p, k);
    } else {
      GatherMultiset(xs, p, k + 1);
      AtLeastSplit(xs, p, k);
    }
  }

  /** In ascending order of the low q bits. */
  predicate SortedLow(xs: seq<u32>, q: nat)
    requires q <= 3
  {
    forall i, j :: 0 <= i < j < |xs| ==> Low(q, xs[i]) <= Low(q, xs[j])
  }

  /** A bucket keeps the order of its input. */
  lemma {:induction false} BucketSorted(xs: seq<u32>, p: nat, k: nat)
    requires p < 3 && SortedLow(xs, p)
    ensures SortedLow(Bucket(xs, p, k), p)
  {
    if |xs| > 0 {
      assert SortedLow(xs[1..], p);
      BucketSorted(xs[1..], p, k);
      BucketWithin(xs[1..], p, k);
      if Digit(p, xs[0]) == k {
        var b := Bucket(xs[1..], p, k);
        forall j | 0 <= j < |b|
          ensures Low(p, xs[0]) <= Low(p, b[j])
        {
          assert b[j] in multiset(xs[1..]);
        }
      }
    }
  }

  /** Stability: a pass on data sorted by the low bits below digit p sorts
      by the low bits up to and including digit p. */
  lemma {:induction false} GatherSorted(xs: seq<u32>, p: nat, k: nat)
    requires p < 3 && SortedLow(xs, p)
    ensures SortedLow(Gather(xs, p, k), p + 1)
    decreases Buckets(p) - k
  {
    if k < Buckets(p) {
      GatherSorted(xs, p, k + 1);
      BucketSorted(xs, p, k);
      BucketWithin(xs, p, k);
      GatherDigits(xs, p, k + 1);
      BucketSortedUp(Bucket(xs, p, k), p, k);
      ConcatSorted(Bucket(xs, p, k), Gather(xs, p, k + 1), p, k);
    }
  }

  /** Elements with one digit p in order of their lower bits are in order
      of their bits up to digit p. */
  lemma BucketSortedUp(b: seq<u32>, p: nat, k: nat)
    requires p < 3 && SortedLow(b, p)
    requires forall i :: 0 <= i < |b| ==> Digit(p, b[i]) == k
    ensures SortedLow(b, p + 1)
  {
    forall i, j | 0 <= i < j < |b|
      ensures Low(p + 1, b[i]) <= Low(p + 1, b[j])
    {
      LowSplit(p, b[i]);
      LowSplit(p, b[j]);
    }
  }

  lemma ConcatSorted(b: seq<u32>, g: seq<u32>, p: nat, k: nat)
    requires p < 3 && SortedLow(b, p + 1) && SortedLow(g, p + 1)
    requires forall i :: 0 <= i < |b| ==> Digit(p, b[i]) == k
    requires forall i :: 0 <= i < |g| ==> Digit(p, g[i]) >= k + 1
    ensures SortedLow(b + g, p + 1)
  {
    var s := b + g;
    forall i, j | 0 <= i < j < |s|
      ensures Low(p + 1, s[i]) <= Low(p + 1, s[j])
    {
      if j < |b| {
        assert s[i] == b[i] && s[j] == b[j];
      } else if i >= |b| {
        assert s[i] == g[i - |b|] && s[j] == g[j - |b|];
      } else {
        assert s[i] == b[i] && s[j] == g[j - |b|];
        HigherDigit(p, s[i], s[j]);
      }
    }
  }

  /** A smaller digit p decides the order of the bits up to digit p. */
  lemma HigherDigit(p: nat, x: u32, y: u32)
    requires p < 3 && Digit(p, x) < Digit(p, y)
    ensures Low(p + 1, x) <= Low(p + 1, y)
  {
    LowSplit(p, x);
    LowSplit(p, y);
    DigitDominates(Digit(p, x), Digit(p, y), Weight(p), Low(p, x), Low(p, y));
  }

  lemma DigitDominates(d1: nat, d2: nat, w: nat, l1: nat, l2: nat)
    requires d1 < d2 && l1 < w
    ensures d1 * w + l1 <= d2 * w + l2
  {
    assert d2 * w >= (d1 + 1) * w;
  }

  predicate Sorted(xs: seq<u32>) {
    forall i, j :: 0 <= i < j < |xs| ==> xs[i] <= xs[j]
  }

  lemma SortedAllBits(xs: seq<u32>)
    requires SortedLow(xs, 3)
    ensures Sorted(xs)
  {
  }

  // Counting facts the array passes rely on.

  lemma {:induction false} CountConcat(a: seq<u32>, b: seq<u32>, p: nat, k: nat)
    requires p < 3
    ensures Count(a + b, p, k) == Count(a, p, k) + Count(b, p, k)
  {
    if |a| > 0 {
      assert a + b == [a[0]] + (a[1..] + b);
      assert a == [a[0]] + a[1..];
      BucketCons(a[0], a[1..] + b, p, k);
      BucketCons(a[0], a[1..], p, k);
      CountConcat(a[1..], b, p, k);
    } else {
      assert a + b == b;
    }
  }

  /** Counting one more element. */
  lemma CountSnoc(xs: seq<u32>, x: u32, p: nat, k: nat)
    requires p < 3
    ensures Count(xs + [x], p, k) == Count(xs, p, k) + (if Digit(p, x) == k then 1 else 0)
  {
    CountConcat(xs, [x], p, k);
    CountSingle(x, p, k);
  }

  /** Counts depend only on which values occur, not on their order. */
  lemma {:induction false} CountPermutation(xs: seq<u32>, ys: seq<u32>, p: nat, k: nat)
    requires p < 3 && multiset(xs) == multiset(ys)
    ensures Count(xs, p, k) == Count(ys, p, k)
    decreases |xs|
  {
    if |xs| == 0 {
      assert |ys| == |multiset(ys)| == 0;
    } else {
      var x := xs[0];
      assert x in multiset(ys);
      var j :| 0 <= j < |ys| && ys[j] == x;
      var rest := ys[..j] + ys[j + 1..];
      assert ys == ys[..j] + [x] + ys[j + 1..];
      assert xs == [x] + xs[1..];
      assert multiset(ys) == multiset(ys[..j]) + multiset{x} + multiset(ys[j + 1..]);
      assert multiset(xs) == multiset{x} + multiset(xs[1..]);
      assert multiset(rest) == multiset(ys[..j]) + multiset(ys[j + 1..]);
      MultisetCancel(multiset(ys[..j]), multiset(ys[j + 1..]), multiset(xs[1..]), x);
      assert [x][1..] == [];
      CountPermutation(xs[1..], rest, p, k);
      CountConcat(ys[..j], ys[j + 1..], p, k);
      CountConcat(ys[..j] + [x], ys[j + 1..], p, k);
      CountConcat(ys[..j], [x], p, k);
      CountSingle(x, p, k);
      assert Count(xs, p, k) == Count([x], p, k) + Count(xs[1..], p, k);
      assert Count(ys, p, k) == Count(ys[..j], p, k) + Count([x], p, k) + Count(ys[j + 1..], p, k);
    }
  }

  lemma CountSingle(x: u32, p: nat, k: nat)
    requires p < 3
    ensures Count([x], p, k) == if Digit(p, x) == k then 1 else 0
  {
    assert [x][1..] == [];
    assert Bucket([], p, k) == [];
  }

  lemma MultisetCancel(a: multiset<u32>, b: multiset<u32>, c: multiset<u32>, x: u32)
    requires a + multiset{x} + b == multiset{x} + c
    ensures a + b == c
  {
    forall y
      ensures (a + b)[y] == c[y]
    {
      assert (a + multiset{x} + b)[y] == (multiset{x} + c)[y];
    }
    assert a + b == c;
  }

  lemma {:induction false} StartPermutation(xs: seq<u32>, ys: seq<u32>, p: nat, k: nat)
    requires p < 3 && multiset(xs) == multiset(ys)
    ensures Start(xs, p, k) == Start(ys, p, k)
  {
    if k > 0 {
      StartPermutation(xs, ys, p, k - 1);
      CountPermutation(xs, ys, p, k - 1);
    }
  }

  lemma {:induction false} StartMonotone(xs: seq<u32>, p: nat, j: nat, k: nat)
    requires p < 3 && j <= k
    ensures Start(xs, p, j) <= Start(xs, p, k)
    decreases k
  {
    if j < k {
      StartMonotone(xs, p, j, k - 1);
    }
  }

  /** Bucket k starts after the elements with digit below k and all
      elements have a digit below the number of buckets. */
  lemma {:induction false} StartRest(xs: seq<u32>, p: nat, k: nat)
    requires p < 3
    ensures Start(xs, p, k) + |AtLeast(xs, p, k)| == |xs|
  {
    if k == 0 {
      AtLeastZero(xs, p);
    } else {
      StartRest(xs, p, k - 1);
      AtLeastSplit(xs, p, k - 1);
      assert |AtLeast(xs, p, k - 1)| == |multiset(AtLeast(xs, p, k - 1))|;
    }
  }

  lemma StartEnd(xs: seq<u32>, p: nat)
    requires p < 3
    ensures Start(xs, p, Buckets(p)) == |xs|
  {
    StartRest(xs, p, Buckets(p));
    AtLeastNone(xs, p, Buckets(p));
  }

  /** Every bucket of a prefix fits in the bucket of the whole. */
  lemma PrefixCount(xs: seq<u32>, i: nat, p: nat, k: nat)
    requires p < 3 && i <= |xs|
    ensures Count(xs[..i], p, k) <= Count(xs, p, k)
  {
    assert xs == xs[..i] + xs[i..];
    CountConcat(xs[..i], xs[i..], p, k);
  }

  // The scatter pass `for (i = len; i-- > 0;) dst[--c[digit(src[i])]] = src[i]`.

  /** The state of a scatter pass once `src[i..]` has been placed: counter k
      is where bucket k starts plus the number of digit-k elements still to
      place, and the part of bucket k from the counter on holds the placed
      digit-k elements in order. */
  predicate Placed(out: seq<u32>, src: seq<u32>, p: nat, i: nat, cs: seq<int>)
    requires p < 3 && i <= |src|
  {
    && |out| == |src| && |cs| == Buckets(p)
    && forall k :: 0 <= k < Buckets(p) ==> PlacedAt(out, src, p, i, cs, k)
  }

  /** Bucket k of `Placed`. */
  predicate PlacedAt(out: seq<u32>, src: seq<u32>, p: nat, i: nat, cs: seq<int>, k: nat)
    requires p < 3 && i <= |src| && k < |cs|
  {
    && cs[k] == Start(src, p, k) + Count(src[..i], p, k)
    && 0 <= cs[k] <= Start(src, p, k + 1) <= |out|
    && out[cs[k]..Start(src, p, k + 1)] == Bucket(src[i..], p, k)
  }

  /** Before the first step every counter is the end of its bucket. */
  lemma PlacedInitially(out: seq<u32>, src: seq<u32>, p: nat, cs: seq<int>)
    requires p < 3 && |out| == |src| && |cs| == Buckets(p)
    requires forall k :: 0 <= k < Buckets(p) ==> cs[k] == Start(src, p, k + 1)
    ensures Placed(out, src, p, |src|, cs)
  {
    assert src[..|src|] == src;
    assert src[|src|..] == [];
    StartEnd(src, p);
    forall k | 0 <= k < Buckets(p)
      ensures PlacedAt(out, src, p, |src|, cs, k)
    {
      StartMonotone(src, p, k + 1, Buckets(p));
    }
  }

  /** One step places `src[i - 1]` just below its counter, which it
      lowers by one. */
  lemma PlacedStep(out: seq<u32>, src: seq<u32>, p: nat, i: nat, cs: seq<int>, out': seq<u32>, cs': seq<int>)
    requires p < 3 && 0 < i <= |src| && Placed(out, src, p, i, cs)
    requires 0 < cs[Digit(p, src[i - 1])] <= |out|
    requires out' == out[cs[Digit(p, src[i - 1])] - 1 := src[i - 1]]
    requires cs' == cs[Digit(p, src[i - 1]) := cs[Digit(p, src[i - 1])] - 1]
    ensures Placed(out', src, p, i - 1, cs')
  {
    var j := i - 1;
    forall k | 0 <= k < Buckets(p)
      ensures PlacedAt(out', src, p, j, cs', k)
    {
      PlacedStepAt(out, src, p, i, cs, out', cs', k);
    }
  }

  /** The slot `src[i - 1]` goes to lies inside its bucket. */
  lemma StepTarget(out: seq<u32>, src: seq<u32>, p: nat, i: nat, cs: seq<int>)
    requires p < 3 && 0 < i <= |src| && Placed(out, src, p, i, cs)
    ensures Start(src, p, Digit(p, src[i - 1])) < cs[Digit(p, src[i - 1])] <= Start(src, p, Digit(p, src[i - 1]) + 1) <= |out|
  {
    var x, d := src[i - 1], Digit(p, src[i - 1]);
    assert PlacedAt(out, src, p, i, cs, d);
    assert src[..i] == src[..i - 1] + [x];
    CountSnoc(src[..i - 1], x, p, d);
  }

  lemma PlacedStepAt(out: seq<u32>, src: seq<u32>, p: nat, i: nat, cs: seq<int>, out': seq<u32>, cs': seq<int>, k: nat)
    requires p < 3 && 0 < i <= |src| && Placed(out, src, p, i, cs) && k < Buckets(p)
    requires 0 < cs[Digit(p, src[i - 1])] <= |out|
    requires out' == out[cs[Digit(p, src[i - 1])] - 1 := src[i - 1]]
    requires cs' == cs[Digit(p, src[i - 1]) := cs[Digit(p, src[i - 1])] - 1]
    ensures PlacedAt(out', src, p, i - 1, cs', k)
  {
    var x, d := src[i - 1], Digit(p, src[i - 1]);
    assert PlacedAt(out, src, p, i, cs, k);
    StepTarget(out, src, p, i, cs);
    assert src[..i] == src[..i - 1] + [x];
    assert src[i - 1..] == [x] + src[i..];
    CountSnoc(src[..i - 1], x, p, k);
    BucketCons(x, src[i..], p, k);
    if k == d {
      SlicePrepend(out, cs[d] - 1, x, Start(src, p, k + 1));
    } else if k < d {
      StartMonotone(src, p, k + 1, d);
      SliceUnchanged(out, cs[d] - 1, x, cs[k], Start(src, p, k + 1));
    } else {
      StartMonotone(src, p, d + 1, k);
      SliceUnchanged(out, cs[d] - 1, x, cs[k], Start(src, p, k + 1));
    }
  }

  lemma BucketCons(x: u32, xs: seq<u32>, p: nat, k: nat)
    requires p < 3
    ensures Bucket([x] + xs, p, k) == (if Digit(p, x) == k then [x] else []) + Bucket(xs, p, k)
  {
    assert ([x] + xs)[0] == x && ([x] + xs)[1..] == xs;
  }

  lemma SlicePrepend(s: seq<u32>, q: nat, x: u32, hi: nat)
    requires q < hi <= |s|
    ensures s[q := x][q..hi] == [x] + s[q + 1..hi]
  {
  }

  lemma SliceUnchanged(s: seq<u32>, q: nat, x: u32, lo: nat, hi: nat)
    requires q < |s| && lo <= hi <= |s| && (q < lo || hi <= q)
    ensures s[q := x][lo..hi] == s[lo..hi]
  {
  }

  /** When every element is placed, the buckets tile the output. */
  lemma {:induction false} PlacedFinally(out: seq<u32>, src: seq<u32>, p: nat, cs: seq<int>, k: nat)
    requires p < 3 && Placed(out, src, p, 0, cs) && k <= Buckets(p)
    ensures Start(src, p, k) <= |out| && out[Start(src, p, k)..] == Gather(src, p, k)
    decreases Buckets(p) - k
  {
    assert src[..0] == [] && src[0..] == src;
    if k == Buckets(p) {
      StartEnd(src, p);
    } else {
      PlacedFinally(out, src, p, cs, k + 1);
      assert PlacedAt(out, src, p, 0, cs, k);
      assert cs[k] == Start(src, p, k);
      assert out[Start(src, p, k)..] == out[Start(src, p, k)..Start(src, p, k + 1)] + out[Start(src, p, k + 1)..];
    }
  }

  /** One counting-sort pass over `src`, given the counters after the
      prefix sums: it computes the reference pass. */
  method Scatter(src: seq<u32>, p: nat, c: array<int>) returns (dst: seq<u32>)
    requires p < 3 && Ends(c[..], src, p)
    modifies c
    ensures dst == Pass(src, p)
  {
    var out := new u32[|src|];
    PlacedInitially(out[..], src, p, c[..]);
    var i := |src|;
    while i > 0
      invariant 0 <= i <= |src|
      invariant Placed(out[..], src, p, i, c[..])
    {
      ghost var out0, cs0, i0 := out[..], c[..], i;
      StepTarget(out0, src, p, i0, cs0);
      var d := Digit(p, src[i - 1]);
      ghost var q := cs0[d] - 1;
      i := i - 1;
      c[d] := c[d] - 1;
      out[c[d]] := src[i];
      assert c[..] == cs0[d := q];
      assert out[..] == out0[q := src[i0 - 1]];
      PlacedStep(out0, src, p, i0, cs0, out[..], c[..]);
    }
    PlacedFinally(out[..], src, p, c[..], 0);
    dst := out[..];
  }
  // Counting and prefix sums.

  /** `cs` holds the number of elements of xs with each digit p. */
  predicate Counted(cs: seq<int>, xs: seq<u32>, p: nat)
    requires p < 3
  {
    |cs| == Buckets(p) && forall k :: 0 <= k < |cs| ==> cs[k] == Count(xs, p, k)
  }

  /** `cs` holds, for each digit k, the number of elements with digit at
      most k: the end of bucket k. */
  predicate Ends(cs: seq<int>, xs: seq<u32>, p: nat)
    requires p < 3
  {
    |cs| == Buckets(p) && forall k :: 0 <= k < |cs| ==> cs[k] == Start(xs, p, k + 1)
  }

  /** The prefix sums are done below i. */
  predicate Summed(cs: seq<int>, xs: seq<u32>, p: nat, i: nat)
    requires p < 3
  {
    |cs| == Buckets(p) && forall k :: 0 <= k < |cs| ==> cs[k] == if k < i then Start(xs, p, k + 1) else Count(xs, p, k)
  }

  lemma CountedStep(cs: seq<int>, xs: seq<u32>, x: u32, p: nat, cs': seq<int>)
    requires p < 3 && Counted(cs, xs, p)
    requires cs' == cs[Digit(p, x) := cs[Digit(p, x)] + 1]
    ensures Counted(cs', xs + [x], p)
  {
    forall k | 0 <= k < |cs'|
      ensures cs'[k] == Count(xs + [x], p, k)
    {
      CountSnoc(xs, x, p, k);
    }
  }

  lemma SummedStep(cs: seq<int>, xs: seq<u32>, p: nat, i: nat, cs': seq<int>)
    requires p < 3 && 1 <= i < Buckets(p) && Summed(cs, xs, p, i)
    requires cs' == cs[i := cs[i] + cs[i - 1]]
    ensures Summed(cs', xs, p, i + 1)
  {
  }

  lemma SummedEnds(cs: seq<int>, xs: seq<u32>, p: nat)
    requires p < 3 && Summed(cs, xs, p, Buckets(p))
    ensures Ends(cs, xs, p)
  {
  }

  lemma CountedSummed(cs: seq<int>, xs: seq<u32>, p: nat)
    requires p < 3 && Counted(cs, xs, p)
    ensures Summed(cs, xs, p, 1)
  {
  }

  /** Ends depend only on which values occur. */
  lemma EndsPermutation(cs: seq<int>, xs: seq<u32>, ys: seq<u32>, p: nat)
    requires p < 3 && Ends(cs, xs, p) && multiset(xs) == multiset(ys)
    ensures Ends(cs, ys, p)
  {
    forall k | 0 <= k < |cs|
      ensures cs[k] == Start(ys, p, k + 1)
    {
      StartPermutation(xs, ys, p, k + 1);
    }
  }

  /** The histogram loop: the three digit counts of every element. */
  method Histogram(arr: seq<u32>) returns (c0: array<int>, c1: array<int>, c2: array<int>)
    ensures fresh(c0) && fresh(c1) && fresh(c2) && c0 != c1 && c1 != c2 && c0 != c2
    ensures Counted(c0[..], arr, 0) && Counted(c1[..], arr, 1) && Counted(c2[..], arr, 2)
  {
    c0 := new int[0x800](_ => 0);
    c1 := new int[0x800](_ => 0);
    c2 := new int[0x400](_ => 0);
    var i := 0;
    while i < |arr|
      invariant 0 <= i <= |arr|
      invariant Counted(c0[..], arr[..i], 0) && Counted(c1[..], arr[..i], 1) && Counted(c2[..], arr[..i], 2)
    {
      ghost var s0, s1, s2 := c0[..], c1[..], c2[..];
      c0[arr[i] % 0x800] := c0[arr[i] % 0x800] + 1;
      c1[(arr[i] / 0x800) % 0x800] := c1[(arr[i] / 0x800) % 0x800] + 1;
      c2[arr[i] / 0x40_0000] := c2[arr[i] / 0x40_0000] + 1;
      assert arr[..i + 1] == arr[..i] + [arr[i]];
      CountedStep(s0, arr[..i], arr[i], 0, c0[..]);
      CountedStep(s1, arr[..i], arr[i], 1, c1[..]);
      CountedStep(s2, arr[..i], arr[i], 2, c2[..]);
      i := i + 1;
    }
    assert arr[..i] == arr;
  }

  /** The two prefix-sum loops. */
  method PrefixSums(c0: array<int>, c1: array<int>, c2: array<int>, ghost arr: seq<u32>)
    requires c0 != c1 && c1 != c2 && c0 != c2
    requires Counted(c0[..], arr, 0) && Counted(c1[..], arr, 1) && Counted(c2[..], arr, 2)
    modifies c0, c1, c2
    ensures Ends(c0[..], arr, 0) && Ends(c1[..], arr, 1) && Ends(c2[..], arr, 2)
  {
    CountedSummed(c0[..], arr, 0);
    CountedSummed(c1[..], arr, 1);
    CountedSummed(c2[..], arr, 2);
    var i := 1;
    while i < 0x800
      invariant 1 <= i <= 0x800
      invariant Summed(c0[..], arr, 0, i) && Summed(c1[..], arr, 1, i) && Counted(c2[..], arr, 2)
    {
      ghost var s0, s1 := c0[..], c1[..];
      c0[i] := c0[i] + c0[i - 1];
      c1[i] := c1[i] + c1[i - 1];
      SummedStep(s0, arr, 0, i, c0[..]);
      SummedStep(s1, arr, 1, i, c1[..]);
      i := i + 1;
    }
    SummedEnds(c0[..], arr, 0);
    SummedEnds(c1[..], arr, 1);
    CountedSummed(c2[..], arr, 2);
    i := 1;
    while i < 0x400
      invariant 1 <= i <= 0x400
      invariant Ends(c0[..], arr, 0) && Ends(c1[..], arr, 1) && Summed(c2[..], arr, 2, i)
    {
      ghost var s2 := c2[..];
      c2[i] := c2[i] + c2[i - 1];
      SummedStep(s2, arr, 2, i, c2[..]);
      i := i + 1;
    }
    SummedEnds(c2[..], arr, 2);
  }

  /** `rsort(arr, len)`: the three counting-sort passes through an auxiliary
      buffer, computing exactly the reference passes; the result is the
      input in ascending order. */
  method Rsort(arr: seq<u32>) returns (res: seq<u32>)
    ensures res == RadixSort(arr)
    ensures multiset(res) == multiset(arr) && Sorted(res)
  {
    var c0, c1, c2 := Histogram(arr);
    PrefixSums(c0, c1, c2, arr);
    var aux := Scatter(arr, 0, c0);
    EndsPermutation(c1[..], arr, aux, 1);
    var back := Scatter(aux, 1, c1);
    EndsPermutation(c2[..], arr, back, 2);
    aux := Scatter(back, 2, c2);
    res := aux;
  }
}

=== FILE: reducer.dfy ===
/** `reducer` of triangle/solver.py: order the input triples by height,
    take the shortest proper prefix whose solver run finds every input, then
    try dropping one generator at a time, from the last one back.

    The pruning `while flag` loop resets `flag` after its `for` loop
    whatever happened inside, so its body runs exactly once: at most one
    generator is dropped. */
module Reducer {
  import opened Results
  import opened Triangles
  import opened Curve
  import opened Solver
  import opened Heights

  /** `[(x[0], x[2]) for x in gens]`: each triple as the curve point of its
      smallest and largest entries. */
  function Basis(gens: seq<Triple>): (basis: seq<Point>)
    ensures |basis| == |gens|
    ensures forall i :: 0 <= i < |gens| ==> basis[i] == Point(gens[i].x, gens[i].z)
  {
    if |gens| == 0 then [] else [Point(gens[0].x, gens[0].z)] + Basis(gens[1..])
  }

  /** `generators` after `del generators[k]`. */
  function Remove(ts: seq<Triple>, k: nat): (res: seq<Triple>)
    requires k < |ts|
    ensures |res| == |ts| - 1
    ensures multiset(res) + multiset{ts[k]} == multiset(ts)
  {
    assert ts == ts[..k] + [ts[k]] + ts[k + 1..];
    ts[..k] + ts[k + 1..]
  }

  /** `all([x in result for x in inputs])`. */
  predicate Covers(found: set<Triple>, inputs: seq<Triple>) {
    forall t :: t in inputs ==> t in found
  }

  /** Whether the solver started from `gens` finds every input; it fails
      only when the solver does, and inputs it covers are positive triples
      in ascending order, as everything the solver returns is. */
  function SolverCovers(s: real, r: real, inputs: seq<Triple>, gens: seq<Triple>, depth: int): (res: Result<bool>)
    ensures res.Ok? <==> Solver.Solver(s, r, Basis(gens), depth).Ok?
    ensures res == Ok(true) ==> forall t :: t in inputs ==> t in Solver.Solver(s, r, Basis(gens), depth).value
    ensures res == Ok(true) ==> forall t :: t in inputs ==> Ascending(t) && Positive(t)
    ensures |gens| == 0 ==> res == Ok(|inputs| == 0)
  {
    assert |inputs| > 0 ==> inputs[0] in inputs;
    var found :- Solver.Solver(s, r, Basis(gens), depth);
    Ok(Covers(found, inputs))
  }

  /** The search `for i in range(1, len(sorted))` for the first prefix of
      length i that covers the inputs, from length `i` on; the whole
      sequence when none does. The result is a prefix, every shorter prefix
      tried before it does not cover, and a proper prefix does cover. */
  function FirstCover(s: real, r: real, inputs: seq<Triple>, sorted: seq<Triple>, depth: int, i: nat): (res: Result<seq<Triple>>)
    requires i >= 1
    ensures res.Ok? ==> |res.value| <= |sorted| && res.value == sorted[..|res.value|]
    ensures res.Ok? ==> |res.value| >= i || res.value == sorted
    ensures res.Ok? && |res.value| < |sorted| ==> SolverCovers(s, r, inputs, res.value, depth) == Ok(true)
    ensures res.Ok? ==> forall k :: i <= k < |res.value| ==> SolverCovers(s, r, inputs, sorted[..k], depth) == Ok(false)
    decreases |sorted| - i
  {
    if i >= |sorted| then
      assert sorted[..|sorted|] == sorted;
      Ok(sorted)
    else
      var covers :- SolverCovers(s, r, inputs, sorted[..i], depth);
      if covers then Ok(sorted[..i])
      else FirstCover(s, r, inputs, sorted, depth, i + 1)
  }

  /** The pass `for i in range(len(sup) - 1, -1, -1)` from index `i` down:
      the first index, from the end, whose removal still covers the inputs;
      `None` when no removal does (`PruneIndexFound`, `PruneIndexNone`). */
  function PruneIndex(s: real, r: real, inputs: seq<Triple>, sup: seq<Triple>, depth: int, i: int): (res: Result<Option<nat>>)
    requires -1 <= i < |sup|
    ensures res.Ok? && res.value.Some? ==> res.value.value <= i
    decreases i + 1
  {
    if i < 0 then Ok(None)
    else
      var covers :- SolverCovers(s, r, inputs, Remove(sup, i), depth);
      if covers then Ok(Some(i))
      else PruneIndex(s, r, inputs, sup, depth, i - 1)
  }

  /** The index found still covers the inputs without its generator, and
      no later index up to `i` does. */
  lemma {:induction false} PruneIndexFound(s: real, r: real, inputs: seq<Triple>, sup: seq<Triple>, depth: int, i: int, k: nat)
    requires -1 <= i < |sup| && PruneIndex(s, r, inputs, sup, depth, i) == Ok(Some(k))
    ensures k <= i && SolverCovers(s, r, inputs, Remove(sup, k), depth) == Ok(true)
    ensures forall j :: k < j <= i ==> SolverCovers(s, r, inputs, Remove(sup, j), depth) == Ok(false)
    decreases i + 1
  {
    PruneIndexAt(s, r, inputs, sup, depth, i);
    if k < i {
      assert SolverCovers(s, r, inputs, Remove(sup, i), depth) == Ok(false);
      PruneIndexFound(s, r, inputs, sup, depth, i - 1, k);
      forall j | k < j <= i
        ensures SolverCovers(s, r, inputs, Remove(sup, j), depth) == Ok(false)
      {
        if j < i {
          assert k < j <= i - 1;
        }
      }
    }
  }

  /** One step of the pass at index `i`: a covering removal stops it there,
      any other moves it on to `i - 1`. */
  lemma PruneIndexAt(s: real, r: real, inputs: seq<Triple>, sup: seq<Triple>, depth: int, i: int)
    requires 0 <= i < |sup| && PruneIndex(s, r, inputs, sup, depth, i).Ok?
    ensures SolverCovers(s, r, inputs, Remove(sup, i), depth).Ok?
    ensures SolverCovers(s, r, inputs, Remove(sup, i), depth) == Ok(true) ==> PruneIndex(s, r, inputs, sup, depth, i) == Ok(Some(i))
    ensures SolverCovers(s, r, inputs, Remove(sup, i), depth) == Ok(false) ==> PruneIndex(s, r, inputs, sup, depth, i) == PruneIndex(s, r, inputs, sup, depth, i - 1)
  {
  }

  /** No index is found only when no removal up to `i` covers the inputs. */
  lemma {:induction false} PruneIndexNone(s: real, r: real, inputs: seq<Triple>, sup: seq<Triple>, depth: int, i: int)
    requires -1 <= i < |sup| && PruneIndex(s, r, inputs, sup, depth, i) == Ok(None)
    ensures forall j :: 0 <= j <= i ==> SolverCovers(s, r, inputs, Remove(sup, j), depth) == Ok(false)
    decreases i + 1
  {
    if i >= 0 {
      PruneIndexAt(s, r, inputs, sup, depth, i);
      PruneIndexNone(s, r, inputs, sup, depth, i - 1);
    }
  }

  /** The `while flag` loop: one pruning pass, dropping at most one generator. */
  function Prune(s: real, r: real, inputs: seq<Triple>, sup: seq<Triple>, depth: int): (res: Result<seq<Triple>>)
    ensures res.Ok? && |res.value| == |sup| ==>
      res.value == sup && forall k :: 0 <= k < |sup| ==> SolverCovers(s, r, inputs, Remove(sup, k), depth) == Ok(false)
    ensures res.Ok? && |res.value| != |sup| ==>
      && SolverCovers(s, r, inputs, res.value, depth) == Ok(true)
      && exists k :: 0 <= k < |sup| && res.value == Remove(sup, k)
  {
    var k :- PruneIndex(s, r, inputs, sup, depth, |sup| - 1);
    if k.None? then
      PruneIndexNone(s, r, inputs, sup, depth, |sup| - 1);
      Ok(sup)
    else
      PruneIndexFound(s, r, inputs, sup, depth, |sup| - 1, k.value);
      Ok(Remove(sup, k.value))
  }

  /** In ascending order of height. */
  ghost predicate HeightOrdered(ts: seq<Triple>) {
    forall i, j :: 0 <= i < j < |ts| ==> HeightLe(ts[i], ts[j])
  }

  ghost predicate HeightLe(a: Triple, b: Triple) {
    HasHeight(a) && HasHeight(b) && KeyLe(Height(a).value, Height(b).value)
  }

  /** `reducer(s, r, inputs, depth)`, with the inputs in the order the set
      yields them: fails on a triple without a height and where a solver
      run fails; otherwise the generators are some of the inputs, in order
      of height, and whenever fewer than all of them the solver from them
      finds every input. */
  ghost function Reducer(s: real, r: real, inputs: seq<Triple>, depth: int): (res: Result<seq<Triple>>)
    requires forall i :: 0 <= i < |inputs| ==> Rational3(inputs[i])
    ensures (exists i :: 0 <= i < |inputs| && inputs[i] == Triple(0.0, 0.0, 0.0)) ==> res == DivByZero
    ensures |inputs| == 0 ==> res == Ok([])
    ensures res.Ok? ==> multiset(res.value) <= multiset(inputs)
    ensures res.Ok? ==> HeightOrdered(res.value)
    ensures res.Ok? && |res.value| < |inputs| ==> SolverCovers(s, r, inputs, res.value, depth) == Ok(true)
    ensures res.Ok? ==> SortByHeight(inputs).Ok? && Sublist(res.value, SortByHeight(inputs).value)
  {
    var sorted :- SortByHeight(inputs);
    assert |sorted| == |inputs| by {
      assert |multiset(sorted)| == |multiset(inputs)|;
    }
    var sup :- FirstCover(s, r, inputs, sorted, depth, 1);
    PrefixKeeps(sorted, |sup|);
    var res :- Prune(s, r, inputs, sup, depth);
    PruneKeeps(s, r, inputs, sup, depth);
    PrefixSublist(sorted, |sup|);
    SublistTrans(res, sup, sorted);
    Ok(res)
  }

  /** a is b with some elements deleted: the others in their order. */
  predicate Sublist(a: seq<Triple>, b: seq<Triple>)
    decreases |b|
  {
    if |a| == 0 then true
    else if |b| == 0 then false
    else (a[0] == b[0] && Sublist(a[1..], b[1..])) || Sublist(a, b[1..])
  }

  lemma {:induction false} PrefixSublist(b: seq<Triple>, n: nat)
    requires n <= |b|
    ensures Sublist(b[..n], b)
  {
    if n > 0 {
      PrefixSublist(b[1..], n - 1);
      assert b[..n][1..] == b[1..][..n - 1];
    }
  }

  lemma {:induction false} RemoveSublist(b: seq<Triple>, k: nat)
    requires k < |b|
    ensures Sublist(Remove(b, k), b)
  {
    if k == 0 {
      PrefixSublist(b[1..], |b| - 1);
      assert b[1..][..|b| - 1] == b[1..] == Remove(b, 0);
    } else {
      RemoveSublist(b[1..], k - 1);
      assert Remove(b, k)[1..] == Remove(b[1..], k - 1);
    }
  }

  lemma {:induction false} SublistTrans(a: seq<Triple>, b: seq<Triple>, c: seq<Triple>)
    requires Sublist(a, b) && Sublist(b, c)
    ensures Sublist(a, c)
    decreases |c|
  {
    if |a| > 0 {
      if Sublist(b, c[1..]) {
        SublistTrans(a, b, c[1..]);
      } else if Sublist(a, b[1..]) {
        SublistTrans(a, b[1..], c[1..]);
      } else {
        SublistTrans(a[1..], b[1..], c[1..]);
      }
    }
  }

  lemma PrefixKeeps(ts: seq<Triple>, n: nat)
    requires n <= |ts| && HeightOrdered(ts)
    ensures HeightOrdered(ts[..n]) && multiset(ts[..n]) <= multiset(ts)
  {
    assert ts == ts[..n] + ts[n..];
  }

  lemma PruneKeeps(s: real, r: real, inputs: seq<Triple>, sup: seq<Triple>, depth: int)
    requires HeightOrdered(sup) && Prune(s, r, inputs, sup, depth).Ok?
    ensures HeightOrdered(Prune(s, r, inputs, sup, depth).value)
    ensures multiset(Prune(s, r, inputs, sup, depth).value) <= multiset(sup)
    ensures Sublist(Prune(s, r, inputs, sup, depth).value, sup)
  {
    var k := PruneIndex(s, r, inputs, sup, depth, |sup| - 1).value;
    if k.Some? {
      RemoveKeeps(sup, k.value);
      RemoveSublist(sup, k.value);
    } else {
      PrefixSublist(sup, |sup|);
      assert sup[..|sup|] == sup;
    }
  }

  lemma RemoveKeeps(ts: seq<Triple>, k: nat)
    requires k < |ts| && HeightOrdered(ts)
    ensures HeightOrdered(Remove(ts, k))
  {
    var res := Remove(ts, k);
    forall i, j | 0 <= i < j < |res|
      ensures HeightLe(res[i], res[j])
    {
      var i' := if i < k then i else i + 1;
      var j' := if j < k then j else j + 1;
      assert res[i] == ts[i'] && res[j] == ts[j'];
    }
  }
}

=== FILE: results.dfy ===
/** Failure-compatible outcome types. Python raises `ZeroDivisionError` from
    `Fraction` division; the model returns `DivByZero` instead and propagates
    it with `:-`, as the exception propagates out of every caller in the source. */
module Results {

  datatype Option<+T> = None | Some(value: T)

  datatype Result<+T> = Ok(value: T) | DivByZero {

    predicate IsFailure() {
      DivByZero?
    }

    function PropagateFailure<U>(): Result<U>
      requires DivByZero?
    {
      DivByZero
    }

    function Extract(): T
      requires Ok?
    {
      value
    }
  }
}

=== FILE: searcher.dfy ===
/** `searcher` of triangle/solver.py: scan the fractions m / n of the pair
    tree, scale each by s, and keep the curve triples whose y is rational,
    narrowing an interval of candidate x as the discriminant turns out
    negative. */
module Searcher {
  import opened Results
  import opened Fractions
  import opened Pairs
  import opened Triangles
  import opened Curve

  /** The loop state: the bounds the unscaled x = m / n is checked against
      and the triples found so far. */
  datatype Search = Search(lower: real, upper: real, found: set<Triple>)

  /** The fraction m / n of a pair, `Fraction(m, n)`. */
  function PairFraction(pair: (nat, nat)): real
    requires pair.1 > 0
  {
    pair.0 as real / pair.1 as real
  }

  /** The curve x-coordinate a pair tries: `x *= s` for x = m / n. */
  function Scaled(pair: (nat, nat), s: real): real
    requires pair.1 > 0
  {
    PairFraction(pair) * s
  }

  /** One iteration for the pair (m, n): skip x = m / n outside the bounds,
      otherwise act on `get_rational_y(s, r, x s)`. `Fraction(m, 0)` and the
      divisions of `get_rational_y` fail with `DivByZero`. */
  ghost function SearchStep(s: real, r: real, st: Search, pair: (nat, nat)): (res: Result<Search>)
    requires IsRational(s) && IsRational(r)
    ensures res.Ok? ==> st.lower <= res.value.lower && res.value.upper <= st.upper
    ensures res.Ok? && st.lower <= st.upper ==> res.value.lower <= res.value.upper
    ensures res.Ok? ==> st.found <= res.value.found
    ensures res.Ok? && CurveTriples(s, r, st.found) ==> CurveTriples(s, r, res.value.found)
  {
    if pair.1 == 0 then DivByZero
    else if PairFraction(pair) < st.lower || PairFraction(pair) > st.upper then Ok(st)
    else
      QuotientRational(pair.0, pair.1);
      ProductRational(PairFraction(pair), s, Scaled(pair, s));
      var y :- GetRationalY(s, r, Scaled(pair, s));
      NonSentinelRoot(s, r, Scaled(pair, s), y);
      Visit(s, r, st, PairFraction(pair), Scaled(pair, s), y)
  }

  /** What a y from `get_rational_y` does, for x within the bounds and the
      curve x-coordinate x s: the sentinel -1 moves the upper bound down to x
      when x > 1/3 and the lower bound up to x otherwise; the sentinel 0 is
      skipped; any other y, a root, adds the sorted triple of the point
      (x s, y), failing where z divides by zero. */
  function Visit(s: real, r: real, st: Search, x: real, xs: real, y: real): (res: Result<Search>)
    requires st.lower <= x <= st.upper
    requires y != -1.0 && y != 0.0 ==> CurvePoly(s, r, xs, y) == 0.0
    ensures res.Ok? <==> y == -1.0 || y == 0.0 || ThirdCoordinate(r, xs, y).Ok?
    ensures res.Ok? ==> st.lower <= res.value.lower <= x || x <= res.value.upper <= st.upper
    ensures res.Ok? ==> st.lower <= res.value.lower && res.value.upper <= st.upper
    ensures res.Ok? ==> res.value.lower <= res.value.upper
    ensures res.Ok? && y != -1.0 ==> res.value.lower == st.lower && res.value.upper == st.upper
    ensures res.Ok? && y == -1.0 ==> res.value.found == st.found
    ensures res.Ok? && CurveTriples(s, r, st.found) ==> CurveTriples(s, r, res.value.found)
    ensures res.Ok? ==> st.found <= res.value.found && |res.value.found - st.found| <= 1
    ensures res.Ok? && y == 0.0 ==> res.value == st
    ensures res.Ok? && y != -1.0 && y != 0.0 ==>
      res.value == st.(found := st.found + {Sort3(xs, y, ThirdCoordinate(r, xs, y).value)})
  {
    if y == -1.0 then
      Ok(if x > 1.0 / 3.0 then st.(upper := x) else st.(lower := x))
    else if y == 0.0 then Ok(st)
    else
      var z :- ThirdCoordinate(r, xs, y);
      FoundOnCurve(s, r, xs, y, z);
      Ok(st.(found := st.found + {Sort3(xs, y, z)}))
  }

  /** A sentinel 0 leaves the state, and so both bounds, unchanged. */
  lemma ZeroKeepsBounds(s: real, r: real, st: Search, pair: (nat, nat))
    requires IsRational(s) && IsRational(r) && pair.1 > 0
    requires IsRational(Scaled(pair, s))
    requires GetRationalY(s, r, Scaled(pair, s)) == Ok(0.0)
    ensures SearchStep(s, r, st, pair) == Ok(st)
  {
  }

  /** The loop over the pairs, in order. */
  ghost function SearchFrom(s: real, r: real, pairs: seq<(nat, nat)>, st: Search): (res: Result<Search>)
    requires IsRational(s) && IsRational(r)
    ensures res.Ok? ==> st.lower <= res.value.lower && res.value.upper <= st.upper
    ensures res.Ok? && st.lower <= st.upper ==> res.value.lower <= res.value.upper
    ensures res.Ok? ==> st.found <= res.value.found
    ensures res.Ok? && CurveTriples(s, r, st.found) ==> CurveTriples(s, r, res.value.found)
    decreases |pairs|
  {
    if |pairs| == 0 then Ok(st)
    else
      var next :- SearchStep(s, r, st, pairs[0]);
      SearchFrom(s, r, pairs[1..], next)
  }

  /** `searcher(s, r, depth)`: the triples found with the bounds starting at
      0 and s. Every triple is sorted and lies on the curve; their entries
      are not checked for positivity. */
  ghost function Searcher(s: real, r: real, depth: int): (res: Result<set<Triple>>)
    requires IsRational(s) && IsRational(r)
    ensures res.Ok? ==> CurveTriples(s, r, res.value)
  {
    var st :- SearchFrom(s, r, GeneratePairs(depth), Search(0.0, s, {}));
    Ok(st.found)
  }
}

=== FILE: solver.dfy ===
/** `solver_recurse` and `solver` of triangle/solver.py: from a basis of
    curve points, walk the chord-and-tangent combinations up to a given
    Manhattan distance and collect the positive triples they give.

    The generator is modelled by the sequence of points it yields, in
    order; any division by zero along the way fails the whole call. */
module Solver {
  import opened Results
  import opened Triangles
  import opened Curve

  /** What the generator yields for an exhausted basis or depth 0: the start point, if any. */
  function StartList(start: Option<Point>): seq<Point> {
    if start.Some? then [start.value] else []
  }

  /** A measure for the loop index: what is left of `depth + 1 - i`. */
  function Remaining(k: int): nat {
    if k > 0 then k else 0
  }

  /** One iteration of the loop of `solver_recurse` on the first basis
      point b: without a start point, b becomes the start; with one, the new
      start is the third point of the chord through the start and b.
      `None` when the chord has no usable slope, which ends the generator. */
  function Advance(s: real, r: real, b: Point, start: Option<Point>): (res: Result<Option<Point>>)
    ensures start.None? ==> res == Ok(Some(b))
    ensures start.Some? ==> (res == Ok(None) <==> FindSecant(start.value, b, r).None?)
  {
    if start.None? then Ok(Some(b))
    else
      match FindSecant(start.value, b, r)
      case None => Ok(None)
      case Some(l) =>
        var p :- NewSolution(s, r, l, start.value.x, b.x);
        Ok(Some(p))
  }

  /** `list(solver_recurse(s, r, basis, depth, start))`: first everything
      reachable without the first basis point, then for i = 1 .. depth the
      points reachable after i chord steps with it. The start point, when
      there is one, is always yielded first, and a depth of at most zero
      yields only it. */
  function Recurse(s: real, r: real, basis: seq<Point>, depth: int, start: Option<Point>): (res: Result<seq<Point>>)
    ensures depth <= 0 || |basis| == 0 ==> res == Ok(StartList(start))
    ensures res.Ok? && start.Some? ==> |res.value| > 0 && res.value[0] == start.value
    decreases |basis|, Remaining(depth) + 1
  {
    if |basis| == 0 || depth == 0 then Ok(StartList(start))
    else
      var first :- Recurse(s, r, basis[1..], depth, start);
      var rest :- Steps(s, r, basis, depth, 1, start);
      assert depth < 0 ==> first + rest == first;
      Ok(first + rest)
  }

  /** Iterations i .. depth of the loop of `solver_recurse`, from the start
      point the earlier iterations left. */
  function Steps(s: real, r: real, basis: seq<Point>, depth: int, i: int, start: Option<Point>): (res: Result<seq<Point>>)
    requires |basis| > 0 && i >= 1
    ensures i > depth ==> res == Ok([])
    ensures i <= depth && Advance(s, r, basis[0], start) == Ok(None) ==> res == Ok([])
    ensures i <= depth && res.Ok? && start.None? ==> |res.value| > 0 && res.value[0] == basis[0]
    ensures i <= depth && res.Ok? && Advance(s, r, basis[0], start).Ok? && Advance(s, r, basis[0], start).value.Some? ==>
              |res.value| > 0 && res.value[0] == Advance(s, r, basis[0], start).value.value
    decreases |basis|, Remaining(depth - i + 1)
  {
    if i > depth then Ok([])
    else
      var next :- Advance(s, r, basis[0], start);
      if next.None? then Ok([])
      else
        var here :- Recurse(s, r, basis[1..], depth - i, next);
        var more :- Steps(s, r, basis, depth, i + 1, next);
        Ok(here + more)
  }

  /** The chord step keeps points on the curve. */
  lemma AdvanceOnCurve(s: real, r: real, b: Point, start: Option<Point>, p: Point)
    requires OnCurve(s, r, b) && (start.Some? ==> OnCurve(s, r, start.value))
    requires Advance(s, r, b, start) == Ok(Some(p))
    ensures OnCurve(s, r, p)
  {
    if start.Some? {
      var l := FindSecant(start.value, b, r).value;
      ChordStep(s, r, start.value, b, l);
    }
  }

  predicate AllOnCurve(s: real, r: real, points: seq<Point>) {
    forall i :: 0 <= i < |points| ==> OnCurve(s, r, points[i])
  }

  /** With a basis and a start point on the curve, every point yielded is on the curve. */
  lemma {:induction false} RecurseOnCurve(s: real, r: real, basis: seq<Point>, depth: int, start: Option<Point>)
    requires AllOnCurve(s, r, basis) && (start.Some? ==> OnCurve(s, r, start.value))
    requires Recurse(s, r, basis, depth, start).Ok?
    ensures AllOnCurve(s, r, Recurse(s, r, basis, depth, start).value)
    decreases |basis|, Remaining(depth) + 1
  {
    if |basis| != 0 && depth != 0 {
      RecurseOnCurve(s, r, basis[1..], depth, start);
      StepsOnCurve(s, r, basis, depth, 1, start);
    }
  }

  lemma {:induction false} StepsOnCurve(s: real, r: real, basis: seq<Point>, depth: int, i: int, start: Option<Point>)
    requires |basis| > 0 && i >= 1
    requires AllOnCurve(s, r, basis) && (start.Some? ==> OnCurve(s, r, start.value))
    requires Steps(s, r, basis, depth, i, start).Ok?
    ensures AllOnCurve(s, r, Steps(s, r, basis, depth, i, start).value)
    decreases |basis|, Remaining(depth - i + 1)
  {
    if i <= depth {
      var next := Advance(s, r, basis[0], start).value;
      if next.Some? {
        AdvanceOnCurve(s, r, basis[0], start, next.value);
        RecurseOnCurve(s, r, basis[1..], depth - i, next);
        StepsOnCurve(s, r, basis, depth, i + 1, next);
      }
    }
  }

  /** Every point of `a` is in `b`. */
  predicate Within(a: seq<Point>, b: seq<Point>) {
    forall p :: p in a ==> p in b
  }

  /** One more level of depth fails only where the shallower walk already
      fails, and yields every point the shallower walk yields. */
  lemma {:induction false} RecurseMonotone(s: real, r: real, basis: seq<Point>, depth: int, start: Option<Point>)
    requires Recurse(s, r, basis, depth + 1, start).Ok?
    ensures Recurse(s, r, basis, depth, start).Ok?
    ensures Within(Recurse(s, r, basis, depth, start).value, Recurse(s, r, basis, depth + 1, start).value)
    decreases |basis|, Remaining(depth) + 1
  {
    if |basis| != 0 && depth > 0 {
      RecurseMonotone(s, r, basis[1..], depth, start);
      StepsMonotone(s, r, basis, depth, 1, start);
    }
  }

  lemma {:induction false} StepsMonotone(s: real, r: real, basis: seq<Point>, depth: int, i: int, start: Option<Point>)
    requires |basis| > 0 && i >= 1
    requires Steps(s, r, basis, depth + 1, i, start).Ok?
    ensures Steps(s, r, basis, depth, i, start).Ok?
    ensures Within(Steps(s, r, basis, depth, i, start).value, Steps(s, r, basis, depth + 1, i, start).value)
    decreases |basis|, Remaining(depth - i + 1)
  {
    if i <= depth {
      var next := Advance(s, r, basis[0], start).value;
      if next.Some? {
        RecurseMonotone(s, r, basis[1..], depth - i, next);
        StepsMonotone(s, r, basis, depth, i + 1, next);
      }
    }
  }

  /** At depth 1 from no start point the walk yields the basis, last point first. */
  lemma {:induction false} RecurseDepthOne(s: real, r: real, basis: seq<Point>)
    ensures Recurse(s, r, basis, 1, None) == Ok(Reversed(basis))
  {
    if |basis| != 0 {
      RecurseDepthOne(s, r, basis[1..]);
      assert Advance(s, r, basis[0], None) == Ok(Some(basis[0]));
      assert Recurse(s, r, basis[1..], 0, Some(basis[0])) == Ok([basis[0]]);
      assert [basis[0]] + [] == [basis[0]];
      assert Steps(s, r, basis, 1, 1, None) == Ok([basis[0]]);
    }
  }

  function Reversed(points: seq<Point>): (rev: seq<Point>)
    ensures |rev| == |points|
    ensures forall i :: 0 <= i < |points| ==> rev[i] == points[|points| - 1 - i]
  {
    if |points| == 0 then [] else Reversed(points[1..]) + [points[0]]
  }

  /** The body of the loop of `solver` for one point (x, y): compute
      z = (x + y) / (x y / r - 1), then keep the sorted triple only when all
      three coordinates are positive. */
  function PointTriple(r: real, p: Point): (res: Result<Option<Triple>>)
    ensures res.Ok? <==> ThirdCoordinate(r, p.x, p.y).Ok?
    ensures res.Ok? && res.value.Some? ==> Ascending(res.value.value) && Positive(res.value.value)
    ensures res.Ok? && res.value.Some? ==> Perm3(res.value.value, p.x, p.y, ThirdCoordinate(r, p.x, p.y).value)
  {
    var z :- ThirdCoordinate(r, p.x, p.y);
    if p.x <= 0.0 || p.y <= 0.0 || z <= 0.0 then Ok(None)
    else
      Sort3Symmetric(p.x, p.y, z);
      Ok(Some(Sort3(p.x, p.y, z)))
  }

  /** The set `solver` builds from the points yielded: it fails when one of
      them does, and otherwise holds exactly the kept triples. */
  function Collect(r: real, points: seq<Point>): (res: Result<set<Triple>>)
    ensures res.Ok? <==> forall p :: p in points ==> PointTriple(r, p).Ok?
    ensures res.Ok? ==> forall t :: t in res.value <==> exists p :: p in points && PointTriple(r, p) == Ok(Some(t))
    decreases |points|
  {
    if |points| == 0 then Ok({})
    else
      var kept :- PointTriple(r, points[0]);
      var rest :- Collect(r, points[1..]);
      assert forall p :: p in points <==> p == points[0] || p in points[1..];
      Ok(if kept.Some? then {kept.value} + rest else rest)
  }

  /** `solver(s, r, basis, depth)`: the kept triples of the walk to depth
      `depth + 1` from no start point. Every triple is sorted and positive;
      an empty basis gives none. */
  function Solver(s: real, r: real, basis: seq<Point>, depth: int): (res: Result<set<Triple>>)
    ensures res.Ok? ==> forall t :: t in res.value ==> Ascending(t) && Positive(t)
    ensures |basis| == 0 ==> res == Ok({})
  {
    var points :- Recurse(s, r, basis, depth + 1, None);
    Collect(r, points)
  }

  /** At depth 0 the solver keeps exactly the triples of the basis points themselves. */
  lemma SolverDepthZero(s: real, r: real, basis: seq<Point>)
    ensures Solver(s, r, basis, 0).Ok? <==> forall p :: p in basis ==> PointTriple(r, p).Ok?
    ensures Solver(s, r, basis, 0).Ok? ==>
      forall t :: t in Solver(s, r, basis, 0).value <==> exists p :: p in basis && PointTriple(r, p) == Ok(Some(t))
  {
    RecurseDepthOne(s, r, basis);
    SameElements(basis);
  }

  lemma SameElements(points: seq<Point>)
    ensures forall p :: p in Reversed(points) <==> p in points
  {
    forall p | p in points ensures p in Reversed(points) {
      var i :| 0 <= i < |points| && points[i] == p;
      assert Reversed(points)[|points| - 1 - i] == p;
    }
  }

  /** A deeper search fails only where a shallower one does and finds every
      triple the shallower one finds. */
  lemma SolverMonotone(s: real, r: real, basis: seq<Point>, depth: int)
    requires Solver(s, r, basis, depth + 1).Ok?
    ensures Solver(s, r, basis, depth).Ok?
    ensures Solver(s, r, basis, depth).value <= Solver(s, r, basis, depth + 1).value
  {
    RecurseMonotone(s, r, basis, depth + 1, None);
  }

  /** From a basis of curve points, every triple found lies on the curve. */
  lemma SolverOnCurve(s: real, r: real, basis: seq<Point>, depth: int)
    requires AllOnCurve(s, r, basis)
    requires Solver(s, r, basis, depth).Ok?
    ensures CurveTriples(s, r, Solver(s, r, basis, depth).value)
  {
    var points := Recurse(s, r, basis, depth + 1, None).value;
    RecurseOnCurve(s, r, basis, depth + 1, None);
    forall t | t in Solver(s, r, basis, depth).value
      ensures Sum(t) == s && Product(t) == r * s
    {
      var p :| p in points && PointTriple(r, p) == Ok(Some(t));
      PointTripleOnCurve(s, r, p, t);
    }
  }

  lemma PointTripleOnCurve(s: real, r: real, p: Point, t: Triple)
    requires OnCurve(s, r, p) && PointTriple(r, p) == Ok(Some(t))
    ensures Sum(t) == s && Product(t) == r * s
  {
    FoundOnCurve(s, r, p.x, p.y, ThirdCoordinate(r, p.x, p.y).value);
  }
}

=== FILE: triangles.dfy ===
/** Triangles and curve triples (`variable_change` and the triple-to-sides
    map of `print_solutions` in triangle/solver.py).

    A triangle with sides a, b, c and semiperimeter s becomes the triple
    (s - a, s - b, s - c), sorted ascending. The triple lies on the curve
    x + y + z = s, x y z = r s, where r s^2 is Heron's radicand
    s (s - a) (s - b) (s - c). */
module Triangles {
  import opened Results

  datatype Triple = Triple(x: real, y: real, z: real)

  function Elems(t: Triple): seq<real> {
    [t.x, t.y, t.z]
  }

  predicate Ascending(t: Triple) {
    t.x <= t.y <= t.z
  }

  predicate Positive(t: Triple) {
    t.x > 0.0 && t.y > 0.0 && t.z > 0.0
  }

  function Sum(t: Triple): real {
    t.x + t.y + t.z
  }

  function Product(t: Triple): real {
    t.x * t.y * t.z
  }

  /** `t` lists `a`, `b`, `c` in some order. */
  predicate Perm3(t: Triple, a: real, b: real, c: real) {
    || t == Triple(a, b, c) || t == Triple(a, c, b) || t == Triple(b, a, c)
    || t == Triple(b, c, a) || t == Triple(c, a, b) || t == Triple(c, b, a)
  }

  lemma Perm3Multiset(t: Triple, a: real, b: real, c: real)
    requires Perm3(t, a, b, c)
    ensures multiset(Elems(t)) == multiset([a, b, c])
  {
  }

  /** `sorted([a, b, c])` as a tuple. */
  function Sort3(a: real, b: real, c: real): (t: Triple)
    ensures Ascending(t)
    ensures Perm3(t, a, b, c)
  {
    if a <= b then
      if b <= c then Triple(a, b, c)
      else if a <= c then Triple(a, c, b)
      else Triple(c, a, b)
    else if a <= c then Triple(b, a, c)
    else if b <= c then Triple(b, c, a)
    else Triple(c, b, a)
  }

  /** Sorting keeps the sum, the product and positivity of the three entries. */
  lemma Sort3Symmetric(a: real, b: real, c: real)
    ensures Sum(Sort3(a, b, c)) == a + b + c
    ensures Product(Sort3(a, b, c)) == a * b * c
    ensures Positive(Sort3(a, b, c)) <==> a > 0.0 && b > 0.0 && c > 0.0
  {
    var t := Sort3(a, b, c);
    var x, y, z := t.x, t.y, t.z;
    if t == Triple(a, c, b) {
      assert x * y * z == a * c * b;
    } else if t == Triple(b, a, c) {
      assert x * y * z == b * a * c;
    } else if t == Triple(b, c, a) {
      assert x * y * z == b * c * a;
    } else if t == Triple(c, a, b) {
      assert x * y * z == c * a * b;
    } else if t == Triple(c, b, a) {
      assert x * y * z == c * b * a;
    }
  }

  /** The inputs `variable_change` accepts: three positive sides with every
      triangle inequality strict. */
  predicate ValidSides(sides: seq<real>) {
    && |sides| == 3
    && var a, b, c := sides[0], sides[1], sides[2];
       a > 0.0 && b > 0.0 && c > 0.0 && a + b > c && b + c > a && c + a > b
  }

  /** Heron's radicand s (s - a) (s - b) (s - c). */
  function HeronRadicand(a: real, b: real, c: real): real {
    var s := (a + b + c) / 2.0;
    s * (s - a) * (s - b) * (s - c)
  }

  /** Curve invariants and the sorted triple of one triangle. */
  datatype Change = Change(s: real, r: real, t: Triple)

  /** `variable_change`: `None` for anything but a proper triangle; otherwise
      the semiperimeter s, r = (Heron's radicand) / s^2, and the sorted triple
      (s - a, s - b, s - c). No check that the area is rational is made. */
  function VariableChange(sides: seq<real>): (res: Option<Change>)
    ensures res.Some? <==> ValidSides(sides)
    ensures res.Some? ==> IsChangeOf(res.value, sides[0], sides[1], sides[2])
  {
    if |sides| != 3 then None
    else
      var a, b, c := sides[0], sides[1], sides[2];
      if a <= 0.0 || b <= 0.0 || c <= 0.0 || a + b <= c || b + c <= a || c + a <= b then None
      else Some(ChangeOf(a, b, c))
  }

  /** What `variable_change` promises of its result for the sides a, b, c. */
  predicate IsChangeOf(ch: Change, a: real, b: real, c: real) {
    && ch.s == (a + b + c) / 2.0
    && ch.r * ch.s * ch.s == HeronRadicand(a, b, c)
    && Ascending(ch.t) && Positive(ch.t)
    && Sum(ch.t) == ch.s
    && Product(ch.t) == ch.r * ch.s
  }

  function ChangeOf(a: real, b: real, c: real): (ch: Change)
    requires a > 0.0 && b > 0.0 && c > 0.0 && a + b > c && b + c > a && c + a > b
    ensures IsChangeOf(ch, a, b, c)
  {
    var s := (a + b + c) / 2.0;
    var ch := CurveChange(s, s - a, s - b, s - c);
    HeronOfChange(a, b, c, ch.s, ch.r);
    ch
  }

  /** The curve parameters and sorted triple for semiperimeter `s` and the
      differences `x, y, z` between `s` and the sides. */
  function CurveChange(s: real, x: real, y: real, z: real): (ch: Change)
    requires s > 0.0 && x > 0.0 && y > 0.0 && z > 0.0
    ensures ch.s == s && ch.r * s == x * y * z
    ensures Ascending(ch.t) && Positive(ch.t)
    ensures Sum(ch.t) == x + y + z && Product(ch.t) == x * y * z
  {
    var area := s * x * y * z;
    var r := area / (s * s);
    Sort3Symmetric(x, y, z);
    RadicandRatio(s, x * y * z, area, r);
    Change(s, r, Sort3(x, y, z))
  }

  lemma HeronOfChange(a: real, b: real, c: real, s: real, r: real)
    requires s == (a + b + c) / 2.0 && r * s == (s - a) * (s - b) * (s - c)
    ensures r * s * s == HeronRadicand(a, b, c)
  {
  }

  lemma RadicandRatio(s: real, p: real, area: real, r: real)
    requires s > 0.0 && area == s * p && r == area / (s * s)
    ensures r * s == p
  {
    assert r * (s * s) == s * p;
  }

  /** The map `(x, y, z) -> (x + y, x + z, y + z)` of `print_solutions`. */
  function TriangleSides(t: Triple): (sides: Triple)
    ensures Sum(sides) == 2.0 * Sum(t)
  {
    Triple(t.x + t.y, t.x + t.z, t.y + t.z)
  }

  /** Round trip: the sides recovered from `variable_change`'s triple are the
      input sides, in some order. */
  lemma SidesRoundTrip(sides: seq<real>)
    requires ValidSides(sides)
    ensures VariableChange(sides).Some?
    ensures Perm3(TriangleSides(VariableChange(sides).value.t), sides[0], sides[1], sides[2])
  {
    var a, b, c := sides[0], sides[1], sides[2];
    var t := ChangeOf(a, b, c).t;
    var s := (a + b + c) / 2.0;
    PairSums(a, b, c, s, t);
  }

  /** Each pairwise sum of (s - a, s - b, s - c) is the remaining side. */
  lemma PairSums(a: real, b: real, c: real, s: real, t: Triple)
    requires s == (a + b + c) / 2.0 && Perm3(t, s - a, s - b, s - c)
    ensures Perm3(TriangleSides(t), a, b, c)
  {
  }
}

=== FILE: words.dfy ===
/** The fixed-width integer types of the C sources, as ranges of integers.
    Arithmetic that wraps around is written out where it is used. */
module Words {

  type u32 = x: int | 0 <= x < 0x1_0000_0000

  type s32 = x: int | -0x8000_0000 <= x < 0x8000_0000

  type u64 = x: int | 0 <= x < 0x1_0000_0000_0000_0000
}
